=== FILE: README.md ===
# SPOT core in Dafny

A model of the core of SPOT, a crawler that collects Spark application runs from
a Spark History server, enriches Enceladus runs with their run records, flattens
every attempt into per-attempt aggregations and a performance summary, and stores
the results. The model covers five parts:

- **Metrics flattening.** This is the typed column aggregation
  (`aggregate_by_col_type`), the derived stage and executor metrics, and the
  interval merge behind the "parallel part" (`calculate_parallelism`). It also
  covers the guarded-ratio summary (`calculate_summary`) and `flatten_app`, which
  emits one document per attempt and marks the final one. Timestamps and durations
  are integer milliseconds. A pandas frame is a `Frame` of typed `Column`s.
- **Crawl control.**
  - Per-application processing follows the skip-exceptions policy and uses the
    bounded retry counter.
  - The window-diff strategy cuts the completion-time window into steps. It skips
    the ids the sink already holds for each step.
  - The deprecated watermark strategy keeps a tabu set.
  - The history server, the sink, the enrichment plugin and the clock are
    parameters. Every outside effect (saved app, saved aggregations, saved error,
    sleep) is an event appended to a trace.
- **Small parsers.** These are the HDFS block count, `parse_to_bytes` and
  `cast_string_to_value`, plus Enceladus name classification and tags. Also here:
  key removal, property-key normalisation and listing order in the history
  aggregator, and the HDFS input path of the setter.
- **Enceladus enrichment.** This covers the run/application matching predicate,
  the attempt↔run pairing, run-data casting, and checkpoint stripping.

Python exceptions the modelled code raises on malformed input (KeyError,
TypeError, ZeroDivisionError, AttributeError, IndexError) are `Failure` values of
a `Result`. Generators are modelled as the documents produced before the error
that stopped them.

Modules:

- `Wrappers`, `Strings`: option/result types and Python string operations.
- `Commons`: `commons.py`.
- `Classification`: `classification.py`.
- `EnceladusSetter`: `get_input_path`.
- `Records`: the nested run record.
- `Columns`: `aggregate_by_col_type` and the statistics of each column type.
- `Metrics`: custom stage and executor metrics, `flatten_executors`, `flatten_stages`.
- `Parallelism`: `calculate_parallelism`.
- `Summary`: `calculate_summary`.
- `SummaryLinks`: how the summary's totals relate to the raw attempt.
- `Flattener`: `get_attempt_aggregations`, `flatten_app`.
- `HistoryAggregator`: the pure helpers of `aggregator.py`.
- `MenasAggregator`: `menas_aggregator.py`.
- `Crawler`: `crawler.py`.

### Where the code and its description differ

The model follows the code in each of these places.

- **Listing retry.** A transient failure of the history listing does not re-list.
  `_get_next_completed_app` is a generator, and its retry `return`s a new generator
  that nobody iterates. After the sleep and the decrement, the listing of that step
  simply ends. Two listing failures followed by a success therefore give one sleep,
  not two. `Crawler.ListingFault` states this.
- **Non-transient listing failures are re-raised** even when exceptions are
  skipped (crawler.py:222).
- **Raw retries need skip-exceptions.** When exceptions are not skipped, a
  transient failure of raw processing is re-raised at once, without any retry.
- **The watermark strategy's count.** It returns the number of listed
  applications outside the previous tabu set, whether or not they pass the name
  filter.
- **The sink is create-only** (`op_type='create'`, conflicts ignored), so the first
  write of an id wins. The model does not include the sink. The ids it holds for a
  time step are the parameter `Env.processedIds`.

## Model

| member | source | states |
|---|---|---|
| Commons.BytesToHdfsBlock | spot/crawler/commons.py:45-46 | the least number of 128 MiB blocks holding the bytes: k blocks hold them and k-1 do not |
| Commons.HdfsBlocksOfZero | spot/crawler/commons.py:45-46 | zero bytes need zero blocks |
| Commons.HdfsBlocksMonotone | spot/crawler/commons.py:45-46 | more bytes never need fewer blocks |
| Commons.ParseToBytes | spot/crawler/commons.py:49-57 | after strip and upper-case: a non-empty digit prefix with a B/K/M/G/T last letter gives prefix·1024^k; anything else gives None |
| Commons.ParseToBytesOfFormatted | spot/crawler/commons.py:23-29 | a number written with a unit letter of either case parses back to number × the unit's multiplier |
| Commons.ParseToBytesRejectsBareNumber | spot/crawler/commons.py:53-57 | "4096" (no unit) is rejected |
| Commons.ParseToBytesRejectsMissingNumber | spot/crawler/commons.py:53-57 | "G" (no number) is rejected |
| Commons.UpperStrip | spot/crawler/commons.py:50 | upper-casing and stripping commute |
| Commons.ParseToBytesIgnoresCase | spot/crawler/commons.py:50 | inputs equal up to case parse alike |
| Commons.StripIgnoresPadding | spot/crawler/commons.py:50 | whitespace on either side does not change what strip leaves |
| Commons.ParseToBytesIgnoresPadding | spot/crawler/commons.py:50 | surrounding whitespace does not change the parse |
| Commons.CastStringToValue | spot/crawler/commons.py:68-74 | an integer exactly for digit strings, with the digits' value; any other string unchanged |
| Commons.CastStringOfNumber | spot/crawler/commons.py:68-74 | the decimal text of n casts back to n |
| Commons.GetLastAttempt | spot/crawler/commons.py:31-33 | the first attempt; IndexError exactly when there are none |
| Classification.IsStandardization | spot/enceladus/classification.py:15-17 | a name is a standardisation name iff it has six space-separated fields and the first is `Standardisation` |
| Classification.IsConformance | spot/enceladus/classification.py:20-22 | a name is a conformance name iff it has seven space-separated fields and the first two are `Dynamic` and `Conformance` |
| Classification.IsEnceladusApp | spot/enceladus/classification.py:25-26 | a name is an Enceladus name iff its fields have one of the two shapes above |
| Classification.FirstField | spot/enceladus/classification.py:15-17 | a name starts with a space-free word and a space iff it has at least two fields and the first is that word |
| Classification.FirstTwoFields | spot/enceladus/classification.py:20-22 | a name starts with `Dynamic Conformance ` iff it has at least three fields and the first two are those words |
| Classification.KindsAreExclusive | spot/enceladus/classification.py:15-26 | no name is both a standardisation and a conformance name |
| Classification.GetClassification | spot/enceladus/classification.py:29-47 | project/app "enceladus"; type by name kind; fields read from tokens 1..5 after dropping the first token of a conformance name; versions are ints iff all digits |
| Classification.GetTag | spot/enceladus/classification.py:50-55 | the tag starts with the type and an underscore |
| Classification.TagSplitsIntoParts | spot/enceladus/classification.py:50-55 | the tag is type, app version, dataset and dataset version joined by `_`, and splits back into them when no part holds `_` |
| Classification.StandardisationNameRoundTrip | spot/enceladus/classification.py:15-47 | a standardisation name built from five space-free fields is recognised and classified back into those fields |
| Classification.ConformanceNameRoundTrip | spot/enceladus/classification.py:20-47 | the same for a conformance name |
| EnceladusSetter.GetInputPath | spot/enceladus/setter/enceladus_setter.py:19-20 | the path starts with `dir/`, its middle is the date with `-` replaced by `/`, it ends with `/v<version>`, and its length is the sum of the parts |
| EnceladusSetter.InputPathDateSegment | spot/enceladus/setter/enceladus_setter.py:20 | at each position of the date, the path holds `/` where the date holds `-`, and the date's own character elsewhere |
| HistoryAggregator.RemoveKeys | spot/crawler/aggregator.py:89-94 | exactly the keys configured for the document type are removed and the rest kept; a missing document or an unconfigured type is returned unchanged |
| HistoryAggregator.RemoveKeysIdempotent | spot/crawler/aggregator.py:89-94 | removing the keys twice equals removing them once |
| HistoryAggregator.MongoKey | spot/crawler/aggregator.py:117 | the key keeps its length; each `.` becomes `_` and every other character is kept, so no `.` remains |
| HistoryAggregator.PropertyValue | spot/crawler/aggregator.py:118-121 | a digit string becomes its integer; every other value passes through |
| HistoryAggregator.TupleListToMongoDict | spot/crawler/aggregator.py:114-123 | the keys are exactly the normalised names, none containing `.` |
| HistoryAggregator.TupleListLastPairWins | spot/crawler/aggregator.py:116-122 | the last pair with a given normalised name decides its value |
| HistoryAggregator.ListingOrder | spot/crawler/aggregator.py:178-180 | applications come out in the reverse of the server's order |
| HistoryAggregator.ListingOrderInvolutive | spot/crawler/aggregator.py:178-180 | reversing twice gives the server's order back |
| HistoryAggregator.DatetimeToStr | spot/crawler/aggregator.py:106-111 | None stays None; a date is rendered with a `GMT` suffix |
| Columns.Present | spot/crawler/flattener.py:87-90 | no more values than cells, and a value is present iff some cell holds it |
| Columns.PresentCounts | spot/crawler/flattener.py:87-90 | each value is present exactly as often as the column's cells hold it |
| Columns.PresentLength | spot/crawler/flattener.py:36-37 | the present cells number the cells less the missing ones, which is what `count_not_null` returns |
| Columns.Unique | spot/crawler/flattener.py:40-41 | the same elements without repeats |
| Columns.FirstIndex | spot/crawler/flattener.py:40-41 | the position of a value's first occurrence: it holds the value and no earlier position does |
| Columns.UniqueFirstAppearance | spot/crawler/flattener.py:40-41 | the distinct values come in the order of their first occurrence, which fixes the string `concat_unique_values` joins |
| Columns.ZeroCount | spot/crawler/flattener.py:32-33 | never more than the present cells |
| Columns.ZeroCountIsZeros | spot/crawler/flattener.py:32-33 | `count_zeroes` is the number of times 0 occurs among the present values |
| Columns.CountTrue | spot/crawler/flattener.py:60 | the `sum` of a boolean column is the number of `True` cells |
| Columns.ColumnStats | spot/crawler/flattener.py:56-61 | a statistic is present iff it is registered for the column's type and defined for its cells, with that value |
| Columns.AggregateByColType | spot/crawler/flattener.py:64-97 | `elements_count` is the row count; no rows give nothing else; otherwise every column gets exactly its defined statistics |
| Columns.AggregationCountsBounded | spot/crawler/flattener.py:32-37 | no count statistic exceeds the row count |
| Columns.RsdPresence | spot/crawler/flattener.py:44-51 | rsd is present iff there are two or more values and their mean is non-zero |
| Columns.EmptyFrameAggregation | spot/crawler/flattener.py:71-74 | an empty frame aggregates to `elements_count` 0 alone |
| Columns.NullSkippingCounts | spot/crawler/flattener.py:36-37 | [1,2,3,NaN] counts 3 values, 3 distinct, 0 zeroes |
| Columns.NullSkippingSums | spot/crawler/flattener.py:86-90 | [1,2,3,NaN] sums to 6 and averages 2 |
| Metrics.AddStageMetrics | spot/crawler/flattener.py:131-152 | a complete stage's duration, overhead and throughputs (ZeroDivisionError at zero duration, KeyError without a submission time); an incomplete stage's 0/0/-1/-1, or KeyError without `spark_app_id`; CPU ms = ns / 10^6 |
| Metrics.AllStageMetrics | spot/crawler/flattener.py:155-158 | every stage's metrics in order, or the first failing stage's error |
| Metrics.AddExecutorMetrics | spot/crawler/flattener.py:100-108 | start/stop fall back to the attempt's bounds; duration = stop - start; core cost = cores × duration; TypeError iff neither stop time exists |
| Metrics.AllExecutorMetrics | spot/crawler/flattener.py:114-118 | fails iff some executor fails; otherwise each executor's metrics in order |
| Metrics.StageFrame | spot/crawler/flattener.py:160-161 | one row per stage, and the columns the stages carry |
| Metrics.Workers | spot/crawler/flattener.py:121-122 | exactly the non-driver executors, in order |
| Metrics.ExecutorFrame | spot/crawler/flattener.py:121-122 | one row per worker |
| Metrics.LastDriver | spot/crawler/flattener.py:116-120 | None iff no executor is the driver; otherwise a driver entry |
| Metrics.FlattenExecutors | spot/crawler/flattener.py:114-128 | succeeds iff there is an executor and every executor's metrics succeed; KeyError on no executors; on success, the last driver and the aggregation of the workers' frame |
| Metrics.FlattenStages | spot/crawler/flattener.py:155-162 | succeeds iff every stage's metrics succeed; then the aggregation of all stages' frame, with `elements_count` = number of stages |
| Parallelism.Intervals | spot/crawler/flattener.py:201-205 | exactly the intervals of the complete stages |
| Parallelism.SortByStart | spot/crawler/flattener.py:211-212 | sorted by start, a permutation of the input, and stable as Python's `sorted` is: the stages sharing a start keep their input order |
| Parallelism.InsertKeepsTies | spot/crawler/flattener.py:211-212 | one insertion step puts the new stage after every stage with its start |
| Parallelism.CalculateParallelism | spot/crawler/flattener.py:197-241 | no complete stage gives (0, False) |
| Parallelism.ParallelPartIsBusyTime | spot/crawler/flattener.py:197-241 | when every complete stage ends no earlier than it starts, the parallel part is the number of milliseconds covered by some complete stage's interval |
| Parallelism.SweepOverlapIff | spot/crawler/flattener.py:224-227 | the merge sets the flag iff some interval starts strictly before the running cursor ends |
| Parallelism.ParallelPartAtMostStageSum | spot/crawler/flattener.py:214-239 | the parallel part never exceeds the sum of stage durations |
| Parallelism.NoOverlapMeansSum | spot/crawler/flattener.py:229-235 | without overlap the parallel part is the sum of stage durations |
| Parallelism.OverlapFlagIff | spot/crawler/flattener.py:224-225 | the flag is set iff, in start order, some stage starts before the merged earlier ones end |
| Parallelism.ParallelPartOrderIndependent | spot/crawler/flattener.py:211-212 | reordering the stages leaves the parallel part unchanged |
| Parallelism.MergeExample | spot/crawler/flattener.py:216-239 | [0,100), [50,150), [200,250) give 200 ms with overlap |
| Parallelism.TouchingExample | spot/crawler/flattener.py:224 | stages that only touch do not overlap |
| Parallelism.InvertedStageExample | spot/crawler/flattener.py:229-239 | a stage that completes before it launches counts with a negative length: the parallel part is -50 while no millisecond is covered |
| Parallelism.FlagDependsOnTieOrder | spot/crawler/flattener.py:212-225 | the flag (not the total) depends on the order of stages that start at the same time |
| Summary.Lookup | spot/crawler/flattener.py:252-258 | a missing field or statistic is a KeyError; otherwise the stored value |
| Summary.MemoryBytes | spot/crawler/flattener.py:314-319 | absent key gives no entry; a string is parsed; any other value is an AttributeError |
| Summary.Derive | spot/crawler/flattener.py:264-324 | seq part + parallel part = duration; est. seq time = seq part + parallel work; each ratio is present iff its denominator is non-zero, and is then the stated quotient |
| Summary.CalculateSummary | spot/crawler/flattener.py:244-326 | empty unless there are workers, stages and both stage timestamps; otherwise parallel work, core cost and stage sum are the aggregated sums, the parallel part is `calculate_parallelism`'s, and the memory keys are present iff the properties are |
| SummaryLinks.WorkersTime | spot/crawler/flattener.py:121-123 | the workers' total durations sum to the non-driver executors' time |
| SummaryLinks.WorkersExist | spot/crawler/flattener.py:121-123 | there is a worker row iff some executor is not the driver |
| SummaryLinks.StageDurationsSum | spot/crawler/flattener.py:131-148 | the stages' `x_duration` values sum to the sum of the complete stages' interval lengths |
| SummaryLinks.ExecutorDurationSum | spot/crawler/flattener.py:252 | the aggregated `totalDuration` sum is the workers' total duration |
| SummaryLinks.StageDurationTotal | spot/crawler/flattener.py:255 | the aggregated `x_duration` sum is the sum of the complete stages' durations |
| SummaryLinks.ExecutorLookupsSucceed | spot/crawler/flattener.py:252-277 | with workers, every executor sum the summary reads exists |
| SummaryLinks.StageLookupsSucceed | spot/crawler/flattener.py:255-278 | with stages and both timestamps, every stage statistic the summary reads exists |
| SummaryLinks.SummaryTotals | spot/crawler/flattener.py:252-255 | the summary's parallel work is the workers' time and its stage sum is the stages' total duration |
| SummaryLinks.ParallelPartAgainstStagesSum | spot/crawler/flattener.py:255-261 | the summary's parallel part is at most its stage sum, and equal to it when no stages ran in parallel |
| SummaryLinks.SummarisableIff | spot/crawler/flattener.py:246-249 | the summary is computed iff there is a worker, a stage, a launched stage and a completed stage |
| SummaryLinks.SummaryFailsOnlyOnMemory | spot/crawler/flattener.py:314-319 | the summary fails iff it is computed and a memory setting is not a string, and then with AttributeError |
| SummaryLinks.SummaryPresentIff | spot/crawler/flattener.py:244-249 | the attempt's summary is non-empty iff the summarisable condition holds |
| Flattener.GetAttemptAggregations | spot/crawler/flattener.py:189-194 | succeeds iff executors, stages and summary all succeed, holding their values; an executor error comes first |
| Flattener.FlattenAttempts | spot/crawler/flattener.py:169-186 | one document per attempt in order up to the first failing attempt, whose error stops the generator |
| Flattener.FlattenApp | spot/crawler/flattener.py:165-186 | IndexError before any document without attempts; otherwise document i carries the app's id and name, attempt i's id and aggregations, and is final iff its id is None or equals the first attempt's id |
| Flattener.FirstAttemptIsFinal | spot/crawler/flattener.py:167-176 | the first document is always final |
| Flattener.ExactlyOneFinal | spot/crawler/flattener.py:167-176 | with distinct present attempt ids, exactly the first document is final |
| MenasAggregator.MatchValues | spot/enceladus/menas_aggregator.py:25-30 | equal values match; a boolean matches the integer it stands for; a string matches only the same string, and `None` only `None` |
| MenasAggregator.MatchValuesSymmetric | spot/enceladus/menas_aggregator.py:25-30 | the order of the two values does not matter |
| MenasAggregator.MatchRun | spot/enceladus/menas_aggregator.py:33-61 | a matching run has the classification's dataset and `std_enceladus_version`, dataset and info versions equal to the classification's under Python `==`, and its app-id field holds the app id; with a type other than the three known ones only an empty app id can match |
| MenasAggregator.RunAppId | spot/enceladus/menas_aggregator.py:42-48 | standardisation types read `std_application_id`, conformance reads `conform_application_id`, any other type gives `''` |
| MenasAggregator.RecordedRunMatches | spot/enceladus/menas_aggregator.py:33-61 | a run recorded for the app with the classification's values matches it |
| MenasAggregator.OtherAppDoesNotMatch | spot/enceladus/menas_aggregator.py:50-54 | a run recorded for another app id does not match |
| MenasAggregator.MatchRunNeedsNameFields | spot/enceladus/menas_aggregator.py:50-52 | a matching run has the name's dataset and (Python-)equal dataset version |
| MenasAggregator.CastRunData | spot/enceladus/menas_aggregator.py:71-75 | succeeds iff every additional-info value is a string; keeps the keys and casts each value; nothing else changes |
| MenasAggregator.CastTwice | spot/enceladus/menas_aggregator.py:71-75 | casting again succeeds iff no value was a digit string |
| MenasAggregator.NegativeIndex | spot/enceladus/menas_aggregator.py:118 | Python's `runs[-i]`: 0 for i = 0, n - i otherwise |
| MenasAggregator.EnrichAttempts | spot/enceladus/menas_aggregator.py:115-119 | attempt i gets `runs[-i]` when i < len(runs), else None; nothing else changes |
| MenasAggregator.WrittenPairingIsNeitherOrder | spot/enceladus/menas_aggregator.py:114-119 | with three runs, attempts get runs 0, 2, 1: neither the same nor the opposite order |
| MenasAggregator.EnrichAttemptsReversed | spot/enceladus/menas_aggregator.py:114-119 | attempt i gets `runs[len(runs)-1-i]` when i < len(runs), else None |
| MenasAggregator.ReversedPairingReversesOrder | spot/enceladus/menas_aggregator.py:114 | under the corrected pairing a later attempt gets an earlier run |
| MenasAggregator.ReversedPairingUsesEveryRun | spot/enceladus/menas_aggregator.py:114-119 | with as many runs as attempts, every run is paired |
| MenasAggregator.WrittenPairingUsesEveryRun | spot/enceladus/menas_aggregator.py:115-119 | the written pairing also uses every run when counts agree |
| MenasAggregator.Enrich | spot/enceladus/menas_aggregator.py:99-130 | sets classification and tag from the name; every attempt receives an `enceladus_run` by the written pairing |
| MenasAggregator.StripCheckpoints | spot/enceladus/menas_aggregator.py:138 | the run without checkpoints, otherwise identical |
| MenasAggregator.StripAttempt | spot/enceladus/menas_aggregator.py:136-138 | fails iff the attempt has no app-specific data |
| MenasAggregator.Aggregate | spot/enceladus/menas_aggregator.py:133-139 | AttributeError iff some attempt has no app-specific data; otherwise checkpoints removed from every run and runless attempts untouched |
| MenasAggregator.AggregateIdempotent | spot/enceladus/menas_aggregator.py:133-139 | aggregating twice equals aggregating once |
| MenasAggregator.EnrichThenAggregate | spot/enceladus/menas_aggregator.py:99-139 | an enriched app always aggregates, and its runs lose their checkpoints |
| Crawler.SelectStrategy | spot/crawler/crawler.py:89-95 | `latest` selects the watermark strategy; everything else the window strategy |
| Crawler.HandleProcessingException | spot/crawler/crawler.py:109-128 | the error document (host, class, message, stage) is saved first; re-raised iff exceptions are not skipped |
| Crawler.ProcessRaw | spot/crawler/crawler.py:130-163 | success resets the counter and saves the app last; sleeps never exceed the counter and none happen without skip; a raise under skip happens only on a transient failure at counter 0; returning False needs skip and ends with the raw error document of a non-transient failure; the events record the raw processing of this app and no other |
| Crawler.RawRetryStep | spot/crawler/crawler.py:144-157 | a skipped transient failure with a retry left records the error document and a sleep, spends one retry, and the next try decides the outcome |
| Crawler.RetriesExhaust | spot/crawler/crawler.py:151-161 | a server failing transiently on every try is retried exactly counter times, then the failure is raised |
| Crawler.RecoversAfterOneRetry | spot/crawler/crawler.py:141-157 | one transient failure then success: one sleep, success, counter reset |
| Crawler.ProcessAggs | spot/crawler/crawler.py:165-183 | True iff aggregation raised nothing; raises iff it failed and exceptions are not skipped; a failure ends with an `aggregations` error document; never sleeps; the only events are the app's saved aggregations (present iff there are documents) and that error document; a True return with documents ends with them saved |
| Crawler.ProcessApp | spot/crawler/crawler.py:185-193 | aggregations run only after raw processing returned True; a raw raise propagates; the events record the raw processing of this app and no other |
| Crawler.NoAggregationsWithoutRaw | spot/crawler/crawler.py:191-193 | when raw processing does not return True, nothing about aggregations is recorded |
| Crawler.RawIdsIff | spot/crawler/crawler.py:140-145 | an app counts as recorded iff the events hold its saved raw document or its raw error document |
| Crawler.RecordedIff | spot/crawler/crawler.py:224-266 | when the loops' events record exactly `processed`, an id is in `processed` iff the events hold its raw save or raw error document |
| Crawler.ListingFault | spot/crawler/crawler.py:203-222 | the listing ends quietly iff skip is on, the failure is transient and a retry is left, after one sleep and one decrement; otherwise re-raised |
| Crawler.Selected | spot/crawler/crawler.py:248-256 | the ids picked from a listing, no more than the listing holds |
| Crawler.SelectedIff | spot/crawler/crawler.py:252-256 | an id is picked iff a listed app with that id passes the name filter and is not in the sink's set |
| Crawler.SelectedWithinMatched | spot/crawler/crawler.py:244-255 | new ≤ matched ≤ total |
| Crawler.SelectedPrefix | spot/crawler/crawler.py:248-256 | apps are picked in listing order: a longer prefix extends the pick |
| Crawler.VisitApp | spot/crawler/crawler.py:200-256 | each listed app resets the counter; an unwanted app changes nothing else, a wanted one is processed from the reset counter; only a wanted app can raise; the events record the app iff it is wanted |
| Crawler.EndListing | spot/crawler/crawler.py:203-222 | a clean end changes nothing; a failure ends the listing quietly only under skip when transient; no app is recorded |
| Crawler.VisitNext | spot/crawler/crawler.py:344-355 | with the watermark, the app's end times are folded in before the visit; the events record the app iff it is wanted; only a wanted app can raise |
| Crawler.VisitListed | spot/crawler/crawler.py:248-256 | the visits of a listing in order, stopping at the first raise; when done, the events record exactly the selected apps, and with the watermark it is the fold of every listed end time |
| Crawler.VisitListedStaysRaised | spot/crawler/crawler.py:248-256 | once an app raises, the rest of the listing is not visited |
| Crawler.VisitEach | spot/crawler/crawler.py:248-256 | the loop computes the fold above; when done it processed the whole selection; when it raises it processed a non-empty prefix of the selection, exactly as the events record |
| Crawler.VisitTurn | spot/crawler/crawler.py:248-256 | one turn of that loop: an app that raises ends the listing with its outcome and a non-empty prefix of the selection recorded; otherwise the fold and the selection go one app further |
| Crawler.ProcessRunsWithinTimeStep | spot/crawler/crawler.py:224-266 | the state left is the fold over the step's listing, then the end of the listing; when it returns, exactly the wanted apps were processed in listing order and the counts are (listed, matched, new); when it raises, a prefix of them; the events record exactly the processed apps |
| Crawler.ProcessWindowBySteps | spot/crawler/crawler.py:268-298 | an empty window runs no step; otherwise the steps start at the window start, follow each other and are each a time step long except a last one cut at the window end; on return the processed apps are the steps' selections in order and the result is their number; on a raise they extend every earlier step's selection and are a prefix of the selections through the raising step; the events record exactly the processed apps |
| Crawler.ChainStarts | spot/crawler/crawler.py:287-295 | step k starts k time steps after the window start |
| Crawler.ChainOrdered | spot/crawler/crawler.py:287-295 | steps run in increasing time order |
| Crawler.TilesCover | spot/crawler/crawler.py:287-295 | every instant of the window lies in exactly one step |
| Crawler.StepCount | spot/crawler/crawler.py:281-295 | the number of steps is the window length divided by the time step, rounded up |
| Crawler.ProcessAllNewRuns | spot/crawler/crawler.py:300-320 | the window runs from now - lookback to now - completion timeout; on return the result is the number of apps processed, and the events record exactly those |
| Crawler.SeeEnd | spot/crawler/crawler.py:379-390 | a missing end time changes nothing; a later one (or the first) restarts the tabu set with the app; an equal one adds the app; an earlier one changes nothing; the watermark never decreases |
| Crawler.UpdateLatestSeen | spot/crawler/crawler.py:376-390 | folds every attempt's end time, in order, into the watermark |
| Crawler.SeeStep | spot/crawler/crawler.py:379-390 | one end time keeps the watermark invariant |
| Crawler.SeeCharacterised | spot/crawler/crawler.py:376-390 | after a pass from an empty tabu set: the watermark bounds the old watermark and every end time seen and equals one of them; the tabu set is exactly the apps seen at the watermark |
| Crawler.ProcessSinceLatest | spot/crawler/crawler.py:323-367 | the state left is the fold over the listing from an empty new tabu set, then the end of the listing, with the tabu sets swapped on return; when it returns: the wanted apps outside the previous tabu set were processed in order, the count is the listed apps outside it, and the new watermark is the fold of all listed end times; when it raises, a prefix was processed and the previous tabu set is kept; the events record exactly the processed apps |
| Crawler.SinceLatestWatermark | spot/crawler/crawler.py:343-359 | the watermark and tabu set left by a pass satisfy the characterisation above |
| Crawler.TabuNotProcessed | spot/crawler/crawler.py:349-355 | an app in the tabu set is never picked again |
| Crawler.ProcessNewRuns | spot/crawler/crawler.py:87-95 | the window strategy leaves the watermark alone and counts exactly the apps it processed; the watermark strategy swaps the tabu sets on return and keeps them on raise, and counts at least the apps it processed; the events record exactly the processed apps |
| Crawler.SelectedWithinUnseen | spot/crawler/crawler.py:344-355 | the watermark strategy processes no more apps than it counts |

## Left out

- HTTP clients, the Spark History and Menas APIs, and `MenasAggregator.get_runs` are left out. They are network I/O, and `get_runs` also removes from the list it iterates. Listings, run lists and fetch outcomes are parameters instead.
- The sink (`elastic.py`) is left out. It appears only through the set of ids it holds for a time step (`Env.processedIds`) and the trace of saves.
- Floating point is not modelled. Means and ratios are exact reals. Standard deviation and rsd are modelled only by whether they are present (`Inexact`). `x_storageCost` is left out, because `bytes_to_gb`, which it needs, is not part of this model.
- `time.sleep`, `datetime.now`, logging, `log_processing_stats` and the `time_processed` stamps are not modelled. A sleep is a trace event, the clock is the parameter `now`, and the rest has no effect on the modelled state.
- The plugin's `post_aggregate` is abstract. The enrichment plugin's effect on aggregation is the outcome `Env.aggs`, and raw fetching, enrichment and saving are the outcome `Env.raw`.
- Unicode digit and case rules are left out. `isdigit` and `upper` are modelled on ASCII. For ASCII digit strings, the float fallback of `cast_string_to_value` cannot happen with at most 4300 digits, or on an interpreter without the integer-conversion limit.
- Commons.CastStringToValue: returns the integer for every digit string. From CPython 3.10.7 and 3.11 on, `int` of a digit string longer than the interpreter's conversion limit (4300 digits by default) raises ValueError. The source then returns `float(value)`, an infinity (spot/crawler/commons.py:71-73). The limit is an interpreter setting, not part of the program, so it is not modelled. This also holds for the values of `MenasAggregator.CastRunData`, which uses the cast (spot/enceladus/menas_aggregator.py:74).
- Commons.CastStringOfNumber: on such interpreters it holds only for numbers of at most 4300 digits.
- HistoryAggregator.PropertyValue: returns the integer for every digit string. On such interpreters, a value longer than the limit makes `int` raise ValueError, which spot/crawler/aggregator.py:120-121 does not catch.
- `_cast_datetime_values` is left out. It uses `strptime`, and times are integer milliseconds from the start.
- Crawler.ProcessWindowBySteps: requires a positive time step. With a step of 0 or less, the source's loop never ends.
- Crawler.ProcessNewRuns: requires a positive time step for the window strategy, for the same reason.
- Crawler.ProcessSinceLatest: when it raises, the contract does not describe the partly advanced watermark and tabu set. The previous tabu set is the only part it states.
- Parallelism.ParallelPartOrderIndependent: covers the total only, and requires every complete stage to end no earlier than it started. The overlap flag can depend on the order of stages that start together (Parallelism.FlagDependsOnTieOrder).
- Parallelism.ParallelPartAtMostStageSum: requires every complete stage to end no earlier than it started.
- SummaryLinks.ParallelPartAgainstStagesSum: requires the same.
- Classification.GetClassification: requires an Enceladus name. On any other name the source fails with an unbound local variable, and both callers check `is_enceladus_app` first: `MenasAggregator.enrich` through `is_matching_app` (spot/enceladus/menas_aggregator.py:95-103), and `YarnWrapper.get_app` before `_process_enceladus_app` (spot/yarn/yarn_wrapper.py:61-62, 83). Also, the source converts the dataset and info versions with a bare `int` (spot/enceladus/classification.py:43, 45), not through `cast_string_to_value`. A digit version longer than the interpreter's integer-conversion limit (4300 digits by default from CPython 3.10.7 and 3.11 on) therefore raises ValueError there, while the model returns the integer.
- MenasAggregator.Enrich: requires an Enceladus name, which `is_matching_app` guarantees before the crawler calls it.
- Summary.Derive: states the ratios as exact quotients. The source computes them in floating point.
- Parallelism.ParallelPartIsBusyTime: requires every complete stage to end no earlier than it started. The source adds such a stage's negative length (Parallelism.InvertedStageExample), and no count of covered milliseconds is negative.
- Text columns (`Columns.Column.Text`) hold no missing cells. With one, `count_not_null` would skip it and `concat_unique_values` would fail to join it (spot/crawler/flattener.py:36-41); that failure is not modelled.
- The records (`Records`, `Metrics`, `Crawler.ListedApp`) keep only the History Server and Menas fields the modelled code reads. The other fields pass through the source untouched and are not represented.
- Crawler.ProcessAggs: the number of aggregation documents saved is part of the outcome `Env.aggs`. It is not tied to the number of attempts `Flattener.FlattenApp` yields.

## Findings

| source | as written | input that shows it | evidently intended | confidence | as-written member | corrected member |
|---|---|---|---|---|---|---|
| spot/enceladus/menas_aggregator.py:115-119 | attempt i is paired with `runs[-i]`, so attempt 0 gets `runs[0]` and attempt 1 the last run | three attempts and three runs: the attempts get runs 0, 2, 1 | runs and attempts listed in opposite orders (the comment at line 114), so attempt i gets `runs[-(i+1)]` | medium, not executed | MenasAggregator.EnrichAttempts, MenasAggregator.WrittenPairingIsNeitherOrder | MenasAggregator.EnrichAttemptsReversed, MenasAggregator.ReversedPairingReversesOrder |

`MenasAggregator.Enrich` models the pairing as written. Nothing else in the model
depends on which run an attempt receives.

=== FILE: classification.dfy ===
/** Recognition of Enceladus Spark applications by name, and the classification and
    tag derived from the name's space-separated fields. */
module Classification {
  import opened Strings
  import opened Commons

  const StandardisationWord: string := "Standardisation"
  const ConformanceWords: string := "Dynamic Conformance"

  /** A standardisation run is named
      `Standardisation <app_version> <dataset> <dataset_version> <info_date> <info_version>`:
      six space-separated fields, the first of them the word. */
  predicate IsStandardization(name: string)
    ensures IsStandardization(name) <==>
              var v := Split(name, ' ');
              |v| == 6 && v[0] == StandardisationWord
  {
    FirstField(name, StandardisationWord);
    StartsWith(name, StandardisationWord + " ") && |Split(name, ' ')| == 6
  }

  /** A conformance run is named
      `Dynamic Conformance <app_version> <dataset> <dataset_version> <info_date> <info_version>`:
      seven space-separated fields, the first two of them the two words. */
  predicate IsConformance(name: string)
    ensures IsConformance(name) <==>
              var v := Split(name, ' ');
              |v| == 7 && v[0] == "Dynamic" && v[1] == "Conformance"
  {
    FirstTwoFields(name);
    StartsWith(name, ConformanceWords + " ") && |Split(name, ' ')| == 7
  }

  /** An Enceladus application is named as one of the two kinds. */
  predicate IsEnceladusApp(name: string)
    ensures IsEnceladusApp(name) <==>
              var v := Split(name, ' ');
              || (|v| == 6 && v[0] == StandardisationWord)
              || (|v| == 7 && v[0] == "Dynamic" && v[1] == "Conformance")
  {
    IsStandardization(name) || IsConformance(name)
  }

  /** A name begins with a word and a space exactly when its first space-separated
      field, of at least two, is that word. */
  lemma FirstField(name: string, word: string)
    requires ' ' !in word
    ensures StartsWith(name, word + " ") <==> var v := Split(name, ' '); |v| >= 2 && v[0] == word
  {
    var v := Split(name, ' ');
    if StartsWith(name, word + " ") {
      var rest := name[|word| + 1..];
      assert name == word + [' '] + rest;
      SplitAfterField(word, rest, ' ');
    }
    if |v| >= 2 && v[0] == word {
      JoinSplit(name, ' ');
      JoinStartsWithFirst(v, " ");
    }
  }

  /** A name begins with `Dynamic Conformance ` exactly when its first two
      space-separated fields, of at least three, are those words. */
  lemma FirstTwoFields(name: string)
    ensures StartsWith(name, ConformanceWords + " ") <==>
              var v := Split(name, ' ');
              |v| >= 3 && v[0] == "Dynamic" && v[1] == "Conformance"
  {
    var v := Split(name, ' ');
    if StartsWith(name, ConformanceWords + " ") {
      var rest := name[|ConformanceWords| + 1..];
      assert name == "Dynamic" + [' '] + ("Conformance" + [' '] + rest);
      SplitAfterField("Conformance", rest, ' ');
      SplitAfterField("Dynamic", "Conformance" + [' '] + rest, ' ');
    }
    if |v| >= 3 && v[0] == "Dynamic" && v[1] == "Conformance" {
      JoinSplit(name, ' ');
      ConformancePrefix(v);
    }
  }

  /** The two kinds never overlap: their names begin with different letters. */
  lemma KindsAreExclusive(name: string)
    ensures !(IsStandardization(name) && IsConformance(name))
  {
  }

  datatype Classification = Classification(
    project: string,
    app: string,
    appType: string,
    appVersion: string,
    dataset: string,
    datasetVersion: Value,
    infoDate: string,
    infoVersion: Value)

  /** `get_classification`, defined on Enceladus names only (on any other name the
      source reads an unbound local). The conformance name has one more leading word,
      which is dropped, so both kinds read their fields from the same positions. */
  function GetClassification(name: string): (c: Classification)
    requires IsEnceladusApp(name)
    ensures c.project == "enceladus" && c.app == "enceladus"
    ensures c.appType == (if IsConformance(name) then "conformance" else "standardization")
    ensures var v := Split(name, ' ');
            var k := if IsConformance(name) then 1 else 0;
            && c.appVersion == v[k + 1]
            && c.dataset == v[k + 2]
            && c.datasetVersion == CastStringToValue(v[k + 3])
            && c.infoDate == v[k + 4]
            && c.infoVersion == CastStringToValue(v[k + 5])
  {
    var values := Split(name, ' ');
    var appType := if IsConformance(name) then "conformance" else "standardization";
    var v := if IsConformance(name) then values[1..] else values;
    Classification("enceladus", "enceladus", appType, v[1], v[2], CastStringToValue(v[3]),
                   v[4], CastStringToValue(v[5]))
  }

  /** The text a value takes in an f-string. */
  function ValueText(v: Value): string {
    match v
    case Null => "None"
    case Bool(b) => if b then "True" else "False"
    case Int(i) => IntToString(i)
    case Str(s) => s
  }

  /** `get_tag`: type, application version, dataset and dataset version, each
      followed by `_` but the last. */
  function GetTag(c: Classification): (tag: string)
    ensures StartsWith(tag, c.appType + "_")
  {
    var tag := c.appType + "_" + c.appVersion + "_" + c.dataset + "_" + ValueText(c.datasetVersion);
    assert tag[..|c.appType + "_"|] == c.appType + "_";
    tag
  }

  /** The tag is the four parts joined by `_`, and when no part holds an underscore
      it splits back into those parts. */
  lemma TagSplitsIntoParts(c: Classification)
    ensures GetTag(c) == Join("_", [c.appType, c.appVersion, c.dataset, ValueText(c.datasetVersion)])
    ensures '_' !in c.appType && '_' !in c.appVersion && '_' !in c.dataset &&
            '_' !in ValueText(c.datasetVersion) ==>
            Split(GetTag(c), '_') == [c.appType, c.appVersion, c.dataset, ValueText(c.datasetVersion)]
  {
    var parts := [c.appType, c.appVersion, c.dataset, ValueText(c.datasetVersion)];
    assert Join("_", parts[3..]) == parts[3];
    assert Join("_", parts[2..]) == parts[2] + "_" + parts[3] by {
      assert parts[2..][1..] == parts[3..];
    }
    assert Join("_", parts[1..]) == parts[1] + "_" + parts[2] + "_" + parts[3] by {
      assert parts[1..][1..] == parts[2..];
    }
    assert Join("_", parts) == parts[0] + "_" + parts[1] + "_" + parts[2] + "_" + parts[3];
    if '_' !in c.appType && '_' !in c.appVersion && '_' !in c.dataset && '_' !in ValueText(c.datasetVersion) {
      SplitJoin(parts, '_');
    }
  }

  /** No field of a well-formed name holds a space. */
  predicate IsField(s: string) {
    ' ' !in s
  }

  lemma {:induction false} JoinStartsWithFirst(parts: seq<string>, sep: string)
    requires |parts| >= 2
    ensures StartsWith(Join(sep, parts), parts[0] + sep)
  {
    var j := Join(sep, parts);
    assert j == parts[0] + sep + Join(sep, parts[1..]);
    assert j[..|parts[0] + sep|] == parts[0] + sep;
  }

  /** A standardisation name built from five fields is recognised and classified
      back into exactly those fields. */
  lemma StandardisationNameRoundTrip(appVersion: string, dataset: string, datasetVersion: string,
                                     infoDate: string, infoVersion: string)
    requires IsField(appVersion) && IsField(dataset) && IsField(datasetVersion)
    requires IsField(infoDate) && IsField(infoVersion)
    ensures var name := Join(" ", [StandardisationWord, appVersion, dataset, datasetVersion, infoDate, infoVersion]);
            && IsStandardization(name)
            && GetClassification(name) == Classification(
                 "enceladus", "enceladus", "standardization", appVersion, dataset,
                 CastStringToValue(datasetVersion), infoDate, CastStringToValue(infoVersion))
  {
    var parts := [StandardisationWord, appVersion, dataset, datasetVersion, infoDate, infoVersion];
    var name := Join(" ", parts);
    SplitJoin(parts, ' ');
    JoinStartsWithFirst(parts, " ");
    KindsAreExclusive(name);
  }

  /** A conformance name built from five fields is recognised and classified back
      into exactly those fields. */
  lemma ConformanceNameRoundTrip(appVersion: string, dataset: string, datasetVersion: string,
                                 infoDate: string, infoVersion: string)
    requires IsField(appVersion) && IsField(dataset) && IsField(datasetVersion)
    requires IsField(infoDate) && IsField(infoVersion)
    ensures var name := Join(" ", ["Dynamic", "Conformance", appVersion, dataset, datasetVersion, infoDate, infoVersion]);
            && IsConformance(name)
            && GetClassification(name) == Classification(
                 "enceladus", "enceladus", "conformance", appVersion, dataset,
                 CastStringToValue(datasetVersion), infoDate, CastStringToValue(infoVersion))
  {
    var parts := ["Dynamic", "Conformance", appVersion, dataset, datasetVersion, infoDate, infoVersion];
    var name := Join(" ", parts);
    SplitJoin(parts, ' ');
    ConformancePrefix(parts);
    KindsAreExclusive(name);
  }

  lemma {:induction false} ConformancePrefix(parts: seq<string>)
    requires |parts| >= 3 && parts[0] == "Dynamic" && parts[1] == "Conformance"
    ensures StartsWith(Join(" ", parts), ConformanceWords + " ")
  {
    var rest := Join(" ", parts[2..]);
    assert Join(" ", parts[1..]) == "Conformance" + " " + rest by {
      assert parts[1..][1..] == parts[2..];
    }
    assert Join(" ", parts) == ConformanceWords + " " + rest;
    assert Join(" ", parts)[..|ConformanceWords + " "|] == ConformanceWords + " ";
  }
}

=== FILE: columns.dfy ===
/** The typed aggregator: a frame of typed columns reduced to per-column statistics,
    where a statistic whose value is undefined (NA, NaN, NaT) is left out. */
module Columns {
  import opened Wrappers
  import opened Strings

  /** A column of one semantic type. Numeric and timestamp cells may be missing
      (NaN / NaT); text and boolean columns here are always complete. */
  datatype Column =
    | Numeric(nums: seq<Option<real>>)
    | Text(texts: seq<string>)
    | Timestamp(times: seq<Option<int>>)
    | Boolean(flags: seq<bool>)
  {
    function Length(): nat {
      match this
      case Numeric(xs) => |xs|
      case Text(xs) => |xs|
      case Timestamp(xs) => |xs|
      case Boolean(xs) => |xs|
    }
  }

  /** A table: a row count and named columns. Column names are of type `K`. */
  datatype Frame<K> = Frame(rows: nat, columns: map<K, Column>)

  predicate WellFormed<K>(f: Frame<K>) {
    forall name :: name in f.columns ==> f.columns[name].Length() == f.rows
  }

  /** The value of one statistic. Standard deviation and relative standard deviation
      are floating point results whose value is not modelled, only their presence. */
  datatype Stat = Num(x: real) | Count(n: nat) | Joined(s: string) | Time(t: int) | Flag(b: bool) | Inexact

  /** The statistics the aggregator knows, by the key they are stored under. */
  datatype StatName =
    | Min | Max | Sum | Mean | Std | NUnique | CountZeroes | CountNotNull | Rsd
    | ConcatUniqueValues | Any | All
  {
    function Key(): string {
      match this
      case Min => "min"
      case Max => "max"
      case Sum => "sum"
      case Mean => "mean"
      case Std => "std"
      case NUnique => "nunique"
      case CountZeroes => "count_zeroes"
      case CountNotNull => "count_not_null"
      case Rsd => "rsd"
      case ConcatUniqueValues => "concat_unique_values"
      case Any => "any"
      case All => "all"
    }
  }

  /** `{'elements_count': n, column: {statistic: value}}`. */
  datatype Aggregation<K> = Aggregation(elementsCount: nat, columns: map<K, map<StatName, Stat>>)

  // ---------------------------------------------------------------------------
  // Elementary reductions

  /** The present cells, in order (pandas' `skipna`). */
  function Present<T(!new)>(xs: seq<Option<T>>): (r: seq<T>)
    ensures |r| <= |xs|
    ensures forall x :: x in r <==> Some(x) in xs
  {
    if |xs| == 0 then []
    else
      var rest := Present(xs[1..]);
      assert forall x :: Some(x) in xs <==> xs[0] == Some(x) || Some(x) in xs[1..];
      if xs[0].Some? then [xs[0].value] + rest else rest
  }

  function SumReals(xs: seq<real>): real {
    if |xs| == 0 then 0.0 else xs[0] + SumReals(xs[1..])
  }

  function MinReal(xs: seq<real>): (m: real)
    requires |xs| > 0
    ensures m in xs && forall x :: x in xs ==> m <= x
  {
    if |xs| == 1 then xs[0]
    else
      var rest := MinReal(xs[1..]);
      assert forall x :: x in xs ==> x == xs[0] || x in xs[1..];
      if xs[0] <= rest then xs[0] else rest
  }

  function MaxReal(xs: seq<real>): (m: real)
    requires |xs| > 0
    ensures m in xs && forall x :: x in xs ==> x <= m
  {
    if |xs| == 1 then xs[0]
    else
      var rest := MaxReal(xs[1..]);
      assert forall x :: x in xs ==> x == xs[0] || x in xs[1..];
      if xs[0] >= rest then xs[0] else rest
  }

  // MinInt and MaxInt repeat MinReal and MaxReal for the timestamp columns' integers:
  // Dafny has no ordering that is generic over both element types.
  function MinInt(xs: seq<int>): (m: int)
    requires |xs| > 0
    ensures m in xs && forall x :: x in xs ==> m <= x
  {
    if |xs| == 1 then xs[0]
    else
      var rest := MinInt(xs[1..]);
      assert forall x :: x in xs ==> x == xs[0] || x in xs[1..];
      if xs[0] <= rest then xs[0] else rest
  }

  function MaxInt(xs: seq<int>): (m: int)
    requires |xs| > 0
    ensures m in xs && forall x :: x in xs ==> x <= m
  {
    if |xs| == 1 then xs[0]
    else
      var rest := MaxInt(xs[1..]);
      assert forall x :: x in xs ==> x == xs[0] || x in xs[1..];
      if xs[0] >= rest then xs[0] else rest
  }

  /** The position of the first occurrence of `x` in `xs`. */
  function FirstIndex<T(==)>(xs: seq<T>, x: T): (k: nat)
    requires x in xs
    ensures k < |xs| && xs[k] == x
    ensures forall q :: 0 <= q < k ==> xs[q] != x
  {
    var n := |xs| - 1;
    if x in xs[..n] then FirstIndex(xs[..n], x) else n
  }

  /** The distinct elements in order of first appearance (pandas' `unique`). */
  function Unique<T(==,!new)>(xs: seq<T>): (r: seq<T>)
    ensures |r| <= |xs|
    ensures forall x :: x in r <==> x in xs
    ensures forall i, j :: 0 <= i < j < |r| ==> r[i] != r[j]
  {
    if |xs| == 0 then []
    else
      var n := |xs| - 1;
      var u := Unique(xs[..n]);
      assert forall x :: x in xs <==> x in xs[..n] || x == xs[n];
      if xs[n] in u then u else u + [xs[n]]
  }

  /** Every value is present as many times as the column holds it. */
  lemma {:induction false} PresentCounts<T(!new)>(xs: seq<Option<T>>, x: T)
    ensures multiset(Present(xs))[x] == multiset(xs)[Some(x)]
  {
    if |xs| > 0 {
      assert xs == [xs[0]] + xs[1..];
      PresentCounts(xs[1..], x);
    }
  }

  /** The present cells are all cells but the missing ones. */
  lemma {:induction false} PresentLength<T(!new)>(xs: seq<Option<T>>)
    ensures |Present(xs)| == |xs| - multiset(xs)[None]
  {
    if |xs| > 0 {
      assert xs == [xs[0]] + xs[1..];
      PresentLength(xs[1..]);
    }
  }

  /** The distinct values come in the order of their first occurrence. */
  lemma {:induction false} UniqueFirstAppearance<T(!new)>(xs: seq<T>, i: nat, j: nat)
    requires i < j < |Unique(xs)|
    ensures FirstIndex(xs, Unique(xs)[i]) < FirstIndex(xs, Unique(xs)[j])
  {
    var n := |xs| - 1;
    var u := Unique(xs[..n]);
    if j < |u| {
      UniqueFirstAppearance(xs[..n], i, j);
      assert FirstIndex(xs, u[i]) == FirstIndex(xs[..n], u[i]);
      assert FirstIndex(xs, u[j]) == FirstIndex(xs[..n], u[j]);
    } else {
      assert FirstIndex(xs, u[i]) == FirstIndex(xs[..n], u[i]);
    }
  }

  /** `count_zeroes`: the present cells equal to zero. */
  function ZeroCount(xs: seq<Option<real>>): (k: nat)
    ensures k <= |Present(xs)|
  {
    if |xs| == 0 then 0
    else (if xs[0] == Some(0.0) then 1 else 0) + ZeroCount(xs[1..])
  }

  /** `count_zeroes` counts each present zero cell once: it is how often `0.0` occurs
      among the present values. */
  lemma {:induction false} ZeroCountIsZeros(xs: seq<Option<real>>)
    ensures ZeroCount(xs) == multiset(Present(xs))[0.0]
  {
    if |xs| > 0 {
      ZeroCountIsZeros(xs[1..]);
      if xs[0].Some? {
        assert Present(xs) == [xs[0].value] + Present(xs[1..]);
      }
    }
  }

  /** `sum` of a boolean column: the number of `True` cells. */
  function CountTrue(bs: seq<bool>): (k: nat)
    ensures k == multiset(bs)[true]
    ensures k <= |bs|
  {
    if |bs| == 0 then 0
    else
      assert bs == [bs[0]] + bs[1..];
      (if bs[0] then 1 else 0) + CountTrue(bs[1..])
  }

  // ---------------------------------------------------------------------------
  // The registered statistics of each column type

  const NumericStatistics: seq<StatName> :=
    [Min, Max, Sum, Mean, Std, NUnique, CountZeroes, CountNotNull, Rsd]
  const TextStatistics: seq<StatName> := [CountNotNull, NUnique, ConcatUniqueValues]
  const TimestampStatistics: seq<StatName> := [Min, Max]
  const BooleanStatistics: seq<StatName> := [Any, All, Sum]

  function Registered(c: Column): seq<StatName> {
    match c
    case Numeric(_) => NumericStatistics
    case Text(_) => TextStatistics
    case Timestamp(_) => TimestampStatistics
    case Boolean(_) => BooleanStatistics
  }

  /** The statistic `name` of column `c`, or `None` when it is undefined for the
      column's cells (NA) or not registered for the column's type. */
  function Statistic(c: Column, name: StatName): Option<Stat> {
    match c
    case Numeric(xs) =>
      var p := Present(xs);
      (match name
       case Min => if |p| > 0 then Some(Num(MinReal(p))) else None
       case Max => if |p| > 0 then Some(Num(MaxReal(p))) else None
       case Sum => Some(Num(SumReals(p)))
       case Mean => if |p| > 0 then Some(Num(SumReals(p) / |p| as real)) else None
       // the sample standard deviation needs two values
       case Std => if |p| >= 2 then Some(Inexact) else None
       case NUnique => Some(Count(|Unique(p)|))
       case CountZeroes => Some(Count(ZeroCount(xs)))
       case CountNotNull => Some(Count(|p|))
       // std / |mean|: NaN when the mean is 0 or the deviation is undefined
       case Rsd => if |p| >= 2 && SumReals(p) != 0.0 then Some(Inexact) else None
       case _ => None)
    case Text(xs) =>
      (match name
       case CountNotNull => Some(Count(|xs|))
       case NUnique => Some(Count(|Unique(xs)|))
       case ConcatUniqueValues => Some(Joined(Join("|", Unique(xs))))
       case _ => None)
    case Timestamp(xs) =>
      var p := Present(xs);
      (match name
       case Min => if |p| > 0 then Some(Time(MinInt(p))) else None
       case Max => if |p| > 0 then Some(Time(MaxInt(p))) else None
       case _ => None)
    case Boolean(xs) =>
      (match name
       case Any => Some(Flag(exists i :: 0 <= i < |xs| && xs[i]))
       case All => Some(Flag(forall i :: 0 <= i < |xs| ==> xs[i]))
       case Sum => Some(Count(CountTrue(xs)))
       case _ => None)
  }

  /** The statistics of one column, undefined ones skipped. */
  function ColumnStats(c: Column): (m: map<StatName, Stat>)
    ensures forall s :: s in m <==> s in Registered(c) && Statistic(c, s).Some?
    ensures forall s :: s in m ==> m[s] == Statistic(c, s).value
  {
    map s | s in Registered(c) && Statistic(c, s).Some? :: Statistic(c, s).value
  }

  /** `aggregate_by_col_type`: `elements_count` is always the row count; an empty
      frame yields nothing else; otherwise every column gets its statistics, and a
      statistic is present exactly when its value is defined. */
  function AggregateByColType<K>(f: Frame<K>): (r: Aggregation<K>)
    ensures r.elementsCount == f.rows
    ensures f.rows == 0 ==> r.columns == map[]
    ensures f.rows > 0 ==> r.columns.Keys == f.columns.Keys
    ensures forall name, s :: name in r.columns ==>
              (s in r.columns[name] <==> s in Registered(f.columns[name]) && Statistic(f.columns[name], s).Some?)
    ensures forall name, s :: name in r.columns && s in r.columns[name] ==>
              r.columns[name][s] == Statistic(f.columns[name], s).value
  {
    if f.rows == 0 then Aggregation(0, map[])
    else Aggregation(f.rows, map name | name in f.columns :: ColumnStats(f.columns[name]))
  }

  // ---------------------------------------------------------------------------
  // Properties of the aggregation

  /** No statistic ever counts more cells than the frame has rows. */
  lemma AggregationCountsBounded<K>(f: Frame<K>, name: K)
    requires WellFormed(f)
    requires name in AggregateByColType(f).columns
    ensures var stats := AggregateByColType(f).columns[name];
            forall s :: (s in stats && s in {CountZeroes, CountNotNull, NUnique, Sum} &&
                         stats[s].Count?) ==> stats[s].n <= f.rows
  {
    var c := f.columns[name];
    var stats := AggregateByColType(f).columns[name];
    match c
    case Numeric(xs) =>
      assert |Present(xs)| <= |xs|;
    case Text(xs) =>
    case Timestamp(xs) =>
    case Boolean(xs) =>
  }

  /** The relative standard deviation is present exactly when there are at least two
      values and their mean is not zero. */
  lemma RsdPresence(xs: seq<Option<real>>)
    ensures var p := Present(xs);
            Rsd in ColumnStats(Numeric(xs)) <==> |p| >= 2 && SumReals(p) / |p| as real != 0.0
  {
    var p := Present(xs);
    if |p| >= 2 {
      assert SumReals(p) != 0.0 <==> SumReals(p) / |p| as real != 0.0;
    }
  }

  /** Aggregating no rows leaves only `elements_count`. */
  lemma EmptyFrameAggregation<K>(columns: map<K, Column>)
    ensures AggregateByColType(Frame(0, columns)) == Aggregation(0, map[])
  {
  }

  /** A numeric column `[1, 2, 3, NaN]` counts three values, has three distinct values
      and no zeroes: the missing cell is skipped, not counted as zero. */
  lemma NullSkippingCounts(xs: seq<Option<real>>)
    requires xs == [Some(1.0), Some(2.0), Some(3.0), None]
    ensures Statistic(Numeric(xs), CountNotNull) == Some(Count(3))
    ensures Statistic(Numeric(xs), NUnique) == Some(Count(3))
    ensures Statistic(Numeric(xs), CountZeroes) == Some(Count(0))
  {
    ExamplePresent();
    ExampleUnique();
    ExampleZeroes();
  }

  /** The same column sums to 6 and averages 2 (over three cells, not four), and its
      relative standard deviation is defined. */
  lemma NullSkippingSums(xs: seq<Option<real>>)
    requires xs == [Some(1.0), Some(2.0), Some(3.0), None]
    ensures Statistic(Numeric(xs), Sum) == Some(Num(6.0))
    ensures Statistic(Numeric(xs), Mean) == Some(Num(2.0))
    ensures Statistic(Numeric(xs), Rsd) == Some(Inexact)
  {
    ExamplePresent();
    ExampleSum();
    ExampleUnique();
  }

  lemma ExamplePresent()
    ensures Present([Some(1.0), Some(2.0), Some(3.0), None]) == [1.0, 2.0, 3.0]
  {
  }

  lemma ExampleZeroes()
    ensures ZeroCount([Some(1.0), Some(2.0), Some(3.0), None]) == 0
  {
  }

  lemma ExampleSum()
    ensures SumReals([1.0, 2.0, 3.0]) == 6.0
  {
  }

  lemma ExampleUnique()
    ensures |Unique([1.0, 2.0, 3.0])| == 3
  {
    var p := [1.0, 2.0, 3.0];
    assert p[..2] == [1.0, 2.0];
    assert p[..2][..1] == [1.0];
    assert Unique(p[..2][..1]) == [1.0];
    assert Unique(p[..2]) == [1.0, 2.0];
  }

  lemma StatisticInStats(c: Column, s: StatName)
    requires s in Registered(c) && Statistic(c, s).Some?
    ensures s in ColumnStats(c) && ColumnStats(c)[s] == Statistic(c, s).value
  {
  }
}

=== FILE: commons.dfy ===
/** Shared constants and helpers of the crawler: HDFS block arithmetic, memory-size
    parsing, string-to-value casting and the "last attempt" convention. */
module Commons {
  import opened Wrappers
  import opened Strings

  /** A JSON-like scalar as it appears in history and run documents. */
  datatype Value = Null | Bool(b: bool) | Int(i: int) | Str(s: string)

  /** The Python exceptions the modelled code can raise on malformed input. */
  datatype PyError =
    | KeyError(key: string)
    | IndexError
    | TypeError
    | AttributeError
    | ZeroDivisionError

  /** The fixed HDFS block size: 128 MiB. */
  const HdfsBlockSize: nat := 128 * 1024 * 1024

  /** The least integer not below `x`. */
  function Ceil(x: real): (k: int)
    ensures k as real - 1.0 < x <= k as real
  {
    if x.Floor as real == x then x.Floor else x.Floor + 1
  }

  /** `bytes_to_hdfs_block`: the number of HDFS blocks needed to hold `b` bytes,
      i.e. the smallest `k` with `k * HdfsBlockSize >= b`. */
  function BytesToHdfsBlock(b: real): (k: int)
    ensures k as real * HdfsBlockSize as real >= b
    ensures (k - 1) as real * HdfsBlockSize as real < b
  {
    Ceil(b / HdfsBlockSize as real)
  }

  lemma HdfsBlocksOfZero()
    ensures BytesToHdfsBlock(0.0) == 0
  {
  }

  /** More bytes never need fewer blocks. */
  lemma HdfsBlocksMonotone(a: real, b: real)
    requires a <= b
    ensures BytesToHdfsBlock(a) <= BytesToHdfsBlock(b)
  {
  }

  /** The recognised size suffixes and their multipliers (`units_dict`). */
  predicate IsUnit(c: char) {
    c in {'B', 'K', 'M', 'G', 'T'}
  }

  function UnitMultiplier(c: char): nat
    requires IsUnit(c)
  {
    match c
    case 'B' => 1
    case 'K' => 1024
    case 'M' => 1024 * 1024
    case 'G' => 1024 * 1024 * 1024
    case 'T' => 1024 * 1024 * 1024 * 1024
  }

  /** `parse_to_bytes`: after stripping and upper-casing, a digit string followed by
      one unit letter is that many units in bytes; anything else is `None`. */
  function ParseToBytes(size: string): (r: Option<int>)
    ensures var t := Upper(Strip(size));
            r.Some? <==> |t| >= 2 && IsDigits(t[..|t| - 1]) && IsUnit(t[|t| - 1])
    ensures var t := Upper(Strip(size));
            r.Some? ==> r.value == DigitsValue(t[..|t| - 1]) * UnitMultiplier(t[|t| - 1])
  {
    ParseUpperStripped(Upper(Strip(size)))
  }

  /** The parse of the stripped, upper-cased text: all but the last character are the
      number, the last is the unit. */
  function ParseUpperStripped(stripped: string): (r: Option<int>)
    ensures r.Some? <==> |stripped| >= 2 && IsDigits(stripped[..|stripped| - 1]) && IsUnit(stripped[|stripped| - 1])
    ensures r.Some? ==> r.value == DigitsValue(stripped[..|stripped| - 1]) * UnitMultiplier(stripped[|stripped| - 1])
  {
    var value := if |stripped| == 0 then "" else stripped[..|stripped| - 1];
    var units := if |stripped| == 0 then "" else stripped[|stripped| - 1..];
    if IsDigits(value) && |units| == 1 && IsUnit(units[0]) then
      Some(DigitsValue(value) * UnitMultiplier(units[0]))
    else
      None
  }

  /** A size written as a number and a unit letter, in either case, parses back
      to that number of units. */
  lemma ParseToBytesOfFormatted(n: nat, u: char)
    requires IsUnit(UpperChar(u))
    ensures ParseToBytes(NatToString(n) + [u]) == Some(n * UnitMultiplier(UpperChar(u)))
  {
    var digits := NatToString(n);
    var t := Upper(Strip(digits + [u]));
    NormalisedFormatted(digits, u);
    assert t[..|t| - 1] == digits;
    assert t[|t| - 1] == UpperChar(u);
  }

  /** Stripping and upper-casing leave a digit string and its unit letter as they are,
      but for the letter's case. */
  lemma NormalisedFormatted(digits: string, u: char)
    requires IsDigits(digits) && !IsSpace(u)
    ensures Upper(Strip(digits + [u])) == digits + [UpperChar(u)]
  {
    var x := digits + [u];
    assert StripLeft(x) == x by { assert !IsSpace(x[0]); }
    assert StripRight(x) == x by { assert !IsSpace(x[|x| - 1]); }
    var t := Upper(x);
    forall i | 0 <= i < |digits| ensures t[i] == digits[i] {
      assert x[i] == digits[i];
    }
  }

  /** A bare number (no unit) is rejected. */
  lemma ParseToBytesRejectsBareNumber()
    ensures ParseToBytes("4096") == None
  {
    var s := "4096";
    assert StripLeft(s) == s by { assert !IsSpace(s[0]); }
    assert StripRight(s) == s by { assert !IsSpace(s[3]); }
    var t := Upper(s);
    assert t[3] == UpperChar(s[3]) == '6';
    assert !IsUnit(t[3]);
  }

  /** A unit with no number is rejected. */
  lemma ParseToBytesRejectsMissingNumber()
    ensures ParseToBytes("G") == None
  {
    assert StripLeft("G") == "G";
    assert StripRight("G") == "G";
  }

  /** Upper-casing changes only the letters, and no letter is whitespace. */
  lemma UpperCharSpace(c: char)
    ensures IsSpace(UpperChar(c)) <==> IsSpace(c)
  {
    if 'a' <= c <= 'z' {
      assert 'A' <= UpperChar(c) <= 'Z';
      assert !IsSpace(c);
      assert !IsSpace(UpperChar(c));
    }
  }

  lemma {:induction false} UpperStripLeft(s: string)
    ensures Upper(StripLeft(s)) == StripLeft(Upper(s))
  {
    if |s| > 0 {
      var u := Upper(s);
      UpperCharSpace(s[0]);
      assert u[0] == UpperChar(s[0]);
      if IsSpace(s[0]) {
        assert u[1..] == Upper(s[1..]);
        assert StripLeft(s) == StripLeft(s[1..]);
        assert StripLeft(u) == StripLeft(u[1..]);
        UpperStripLeft(s[1..]);
      } else {
        assert StripLeft(s) == s;
        assert StripLeft(u) == u;
      }
    }
  }

  lemma {:induction false} UpperStripRight(s: string)
    ensures Upper(StripRight(s)) == StripRight(Upper(s))
  {
    if |s| > 0 {
      var n := |s| - 1;
      var u := Upper(s);
      UpperCharSpace(s[n]);
      assert u[n] == UpperChar(s[n]);
      if IsSpace(s[n]) {
        assert u[..n] == Upper(s[..n]);
        assert StripRight(s) == StripRight(s[..n]);
        assert StripRight(u) == StripRight(u[..n]);
        UpperStripRight(s[..n]);
      } else {
        assert StripRight(s) == s;
        assert StripRight(u) == u;
      }
    }
  }

  /** Upper-casing and stripping commute. */
  lemma UpperStrip(s: string)
    ensures Upper(Strip(s)) == Strip(Upper(s))
  {
    UpperStripLeft(s);
    UpperStripRight(StripLeft(s));
  }

  /** `parse_to_bytes` does not see letter case. */
  lemma ParseToBytesIgnoresCase(s: string, t: string)
    requires Upper(s) == Upper(t)
    ensures ParseToBytes(s) == ParseToBytes(t)
  {
    UpperStrip(s);
    UpperStrip(t);
  }

  lemma {:induction false} StripLeftSpacePrefix(p: string, s: string)
    requires AllSpace(p)
    ensures StripLeft(p + s) == StripLeft(s)
  {
    if |p| > 0 {
      assert (p + s)[1..] == p[1..] + s;
      StripLeftSpacePrefix(p[1..], s);
    } else {
      assert p + s == s;
    }
  }

  lemma {:induction false} StripRightSpaceSuffix(s: string, q: string)
    requires AllSpace(q)
    ensures StripRight(s + q) == StripRight(s)
  {
    if |q| > 0 {
      var n := |q| - 1;
      assert (s + q)[..|s + q| - 1] == s + q[..n];
      StripRightSpaceSuffix(s, q[..n]);
    } else {
      assert s + q == s;
    }
  }

  lemma {:induction false} StripLeftAppend(s: string, q: string)
    requires StripLeft(s) != ""
    ensures StripLeft(s + q) == StripLeft(s) + q
  {
    assert |s| > 0;
    assert (s + q)[0] == s[0];
    if IsSpace(s[0]) {
      assert (s + q)[1..] == s[1..] + q;
      StripLeftAppend(s[1..], q);
    }
  }

  /** Whitespace around a string does not change what `strip()` leaves. */
  lemma StripIgnoresPadding(p: string, s: string, q: string)
    requires AllSpace(p) && AllSpace(q)
    ensures Strip(p + s + q) == Strip(s)
  {
    assert p + s + q == p + (s + q);
    StripLeftSpacePrefix(p, s + q);
    if StripLeft(s) != "" {
      StripLeftAppend(s, q);
      StripRightSpaceSuffix(StripLeft(s), q);
    } else {
      StripLeftBlank(s, q);
    }
  }

  lemma StripLeftBlank(s: string, q: string)
    requires StripLeft(s) == "" && AllSpace(q)
    ensures StripLeft(s + q) == ""
  {
    assert s[..|s|] == s;
    AllSpaceAppend(s, q);
    StripLeftAllSpace(s + q);
  }

  lemma AllSpaceAppend(a: string, b: string)
    requires AllSpace(a) && AllSpace(b)
    ensures AllSpace(a + b)
  {
    forall i | 0 <= i < |a + b| ensures IsSpace((a + b)[i]) {
      if i < |a| { assert (a + b)[i] == a[i]; } else { assert (a + b)[i] == b[i - |a|]; }
    }
  }

  lemma {:induction false} StripLeftAllSpace(s: string)
    requires AllSpace(s)
    ensures StripLeft(s) == ""
  {
    if |s| > 0 {
      assert IsSpace(s[0]);
      StripLeftAllSpace(s[1..]);
    }
  }

  /** `parse_to_bytes` does not see surrounding whitespace. */
  lemma ParseToBytesIgnoresPadding(p: string, s: string, q: string)
    requires AllSpace(p) && AllSpace(q)
    ensures ParseToBytes(p + s + q) == ParseToBytes(s)
  {
    StripIgnoresPadding(p, s, q);
    assert Upper(Strip(p + s + q)) == Upper(Strip(s));
  }

  /** `cast_string_to_value`: a digit string becomes its integer, any other string
      is returned unchanged. */
  function CastStringToValue(s: string): (v: Value)
    ensures v.Int? <==> IsDigits(s)
    ensures v.Int? ==> v.i == DigitsValue(s)
    ensures !v.Int? ==> v == Str(s)
  {
    if IsDigits(s) then Int(DigitsValue(s)) else Str(s)
  }

  /** The decimal text of a number casts back to that number. */
  lemma CastStringOfNumber(n: nat)
    ensures CastStringToValue(NatToString(n)) == Int(n)
  {
  }

  /** `get_last_attempt`: the first attempt, since attempts are assumed to be listed
      newest first; an empty list raises `IndexError`. */
  function GetLastAttempt<T>(attempts: seq<T>): (r: Result<T, PyError>)
    ensures |attempts| > 0 <==> r.Success?
    ensures r.Success? ==> r.value == attempts[0]
    ensures r.Failure? ==> r.error == IndexError
  {
    if |attempts| == 0 then Failure(IndexError) else Success(attempts[0])
  }
}

=== FILE: crawler.dfy ===
/** The crawl control logic: per-application processing with its error policy and
    retry counter, the window-diff strategy that slices a completion-time window into
    steps and skips ids the sink already holds, and the deprecated watermark strategy
    with its tabu set. The history server, the sink, the enrichment plugin and the
    clock are collaborators: their answers are the parameters `Env` and `now`, and
    every effect on the outside world is an `Event` appended to the state's trace. */
module Crawler {
  import opened Wrappers
  import opened Strings

  // ---------------------------------------------------------------------------
  // Configuration, collaborators and state

  datatype Strategy = AllNewRuns | SinceLatest

  /** The constructor's method dispatch: `latest` selects the watermark strategy, and
      `all` or any unrecognised name the window-diff strategy. */
  function SelectStrategy(crawlerMethod: string): (s: Strategy)
    ensures s == SinceLatest <==> crawlerMethod == "latest"
  {
    if crawlerMethod == "latest" then SinceLatest else AllNewRuns
  }

  /** Times are whole seconds. */
  datatype Config = Config(
    crawlerMethod: string,
    historyHost: string,
    skipExceptions: bool,
    retryAttempts: nat,
    retrySleepSeconds: nat,
    timeStepSeconds: int,
    lookbackHours: int,
    completionTimeoutSeconds: int)

  /** An exception: its class name and message. */
  datatype Fault = Fault(kind: string, message: string)

  /** The malformed answer of a history server in a bad state. */
  predicate IsTransient(f: Fault) {
    f.kind == "JSONDecodeError" && StartsWith(f.message, "Expecting value:")
  }

  /** A listed application: its id, its name and its attempts' end times. */
  datatype ListedApp = ListedApp(id: string, name: string, endTimes: seq<Option<int>>)

  /** What iterating the listing produced: some applications, then possibly an exception. */
  datatype Listing = Listing(apps: seq<ListedApp>, fault: Option<Fault>)

  /** How flattening and saving the aggregations went: the documents saved before an
      exception, if one was raised. */
  datatype AggsOutcome = AggsOutcome(docs: nat, fault: Option<Fault>)

  /** The collaborators. `raw(id, k)` is the outcome of the `k`-th attempt at fetching,
      enriching and saving application `id`. */
  datatype Env = Env(
    listing: (Option<int>, int) -> Listing,
    processedIds: (int, int) -> set<string>,
    raw: (string, nat) -> Option<Fault>,
    aggs: string -> AggsOutcome,
    nameFilter: string -> bool)

  /** Where an exception was caught. */
  datatype Phase = RawPhase | AggregationsPhase | ListingPhase {
    function Name(): string {
      match this
      case RawPhase => "raw"
      case AggregationsPhase => "aggregations"
      case ListingPhase => "listing"
    }
  }

  datatype Event =
    | SavedApp(appId: string, historyHost: string)
    | SavedAggs(appId: string, docs: nat)
    | SavedErr(appId: string, host: string, kind: string, message: string, stage: string)
    | Slept(seconds: nat)

  datatype CrawlState = CrawlState(
    retriesLeft: nat,
    latestSeen: Option<int>,
    previousTabu: set<string>,
    newTabu: set<string>,
    trace: seq<Event>)

  /** A call either returns a value or raises, in both cases leaving a state behind. */
  datatype Outcome<T> = Done(value: T, state: CrawlState) | Raised(fault: Fault, state: CrawlState)

  predicate Extends(st: CrawlState, s: CrawlState) {
    |st.trace| <= |s.trace| && s.trace[..|st.trace|] == st.trace
  }

  /** The last thing recorded was `e`. */
  predicate EndsWith(trace: seq<Event>, e: Event) {
    |trace| > 0 && trace[|trace| - 1] == e
  }

  function NewEvents(st: CrawlState, s: CrawlState): seq<Event>
    requires Extends(st, s)
  {
    s.trace[|st.trace|..]
  }

  lemma ExtendsTransitive(a: CrawlState, b: CrawlState, c: CrawlState)
    requires Extends(a, b) && Extends(b, c)
    ensures Extends(a, c)
    ensures NewEvents(a, c) == NewEvents(a, b) + NewEvents(b, c)
  {
    assert c.trace[..|a.trace|] == c.trace[..|b.trace|][..|a.trace|];
    assert c.trace[|a.trace|..|b.trace|] == c.trace[..|b.trace|][|a.trace|..];
    assert c.trace[|a.trace|..] == c.trace[|a.trace|..|b.trace|] + c.trace[|b.trace|..];
  }

  /** Application processing leaves the watermark and the tabu sets alone. */
  predicate SameWatermark(st: CrawlState, s: CrawlState) {
    s.latestSeen == st.latestSeen && s.previousTabu == st.previousTabu && s.newTabu == st.newTabu
  }

  function Sleeps(es: seq<Event>): nat {
    if |es| == 0 then 0 else (if es[0].Slept? then 1 else 0) + Sleeps(es[1..])
  }

  lemma {:induction false} SleepsAppend(a: seq<Event>, b: seq<Event>)
    ensures Sleeps(a + b) == Sleeps(a) + Sleeps(b)
  {
    if |a| == 0 {
      assert a + b == b;
    } else {
      assert (a + b)[1..] == a[1..] + b;
      SleepsAppend(a[1..], b);
    }
  }

  /** The error document of `_handle_processing_exception_`. */
  function ErrorDoc(cfg: Config, f: Fault, phase: Phase, appId: string): Event {
    SavedErr(appId, cfg.historyHost, f.kind, f.message, phase.Name())
  }

  /** The last thing recorded is the error document of a fault that is not transient. */
  predicate EndsWithLastingError(cfg: Config, trace: seq<Event>, phase: Phase, appId: string) {
    && |trace| > 0
    && var e := trace[|trace| - 1];
       && e.SavedErr?
       && e == ErrorDoc(cfg, Fault(e.kind, e.message), phase, appId)
       && !IsTransient(Fault(e.kind, e.message))
  }

  /** A saved application or a `raw` error document: the mark that an application's
      raw processing took place. */
  predicate IsRawRecord(e: Event) {
    e.SavedApp? || (e.SavedErr? && e.stage == RawPhase.Name())
  }

  /** The applications whose raw processing the events record. */
  function RawIds(es: seq<Event>): set<string> {
    if |es| == 0 then {}
    else
      var e := es[|es| - 1];
      RawIds(es[..|es| - 1]) + (if IsRawRecord(e) then {e.appId} else {})
  }

  lemma {:induction false} RawIdsAppend(a: seq<Event>, b: seq<Event>)
    ensures RawIds(a + b) == RawIds(a) + RawIds(b)
    decreases |b|
  {
    if |b| == 0 {
      assert a + b == a;
    } else {
      var n := |b| - 1;
      assert (a + b)[..|a + b| - 1] == a + b[..n];
      RawIdsAppend(a, b[..n]);
    }
  }

  lemma RawIdsOne(e: Event)
    ensures RawIds([e]) == if IsRawRecord(e) then {e.appId} else {}
  {
    assert [e][..0] == [];
  }

  lemma {:induction false} RawIdsNone(es: seq<Event>)
    requires forall e :: e in es ==> !IsRawRecord(e)
    ensures RawIds(es) == {}
  {
    if |es| > 0 {
      assert forall e :: e in es[..|es| - 1] ==> e in es;
      RawIdsNone(es[..|es| - 1]);
    }
  }

  /** The events record the raw processing of exactly the applications `ids`. */
  ghost predicate RecordsExactly(es: seq<Event>, ids: seq<string>) {
    forall id :: id in ids <==> id in RawIds(es)
  }

  /** An id is among those recorded exactly when some event is that application's
      saved raw document or raw error document. */
  lemma {:induction false} RawIdsIff(es: seq<Event>, id: string)
    ensures id in RawIds(es) <==> exists e :: e in es && IsRawRecord(e) && e.appId == id
  {
    if |es| > 0 {
      var n := |es| - 1;
      RawIdsIff(es[..n], id);
      assert es == es[..n] + [es[n]];
      assert forall e :: e in es <==> e in es[..n] || e == es[n];
    }
  }

  /** What the processing loops promise about the trace, spelled out: an id is among
      those processed exactly when the new events hold its saved raw document or its
      raw error document. */
  lemma RecordedIff(es: seq<Event>, ids: seq<string>, id: string)
    requires RecordsExactly(es, ids)
    ensures id in ids <==> exists e :: e in es && IsRawRecord(e) && e.appId == id
  {
    RawIdsIff(es, id);
  }

  // ---------------------------------------------------------------------------
  // Processing one application

  /** `_handle_processing_exception_`: the error document is saved first; then the
      exception is re-raised unless exceptions are skipped. */
  function HandleProcessingException(cfg: Config, st: CrawlState, f: Fault, phase: Phase, appId: string)
    : (r: Outcome<()>)
    ensures r.state == st.(trace := st.trace + [ErrorDoc(cfg, f, phase, appId)])
    ensures r.Raised? <==> !cfg.skipExceptions
    ensures r.Raised? ==> r.fault == f
  {
    var s := st.(trace := st.trace + [ErrorDoc(cfg, f, phase, appId)]);
    if cfg.skipExceptions then Done((), s) else Raised(f, s)
  }

  /** An event raw processing may produce. */
  predicate RawEvent(e: Event) {
    e.SavedApp? || e.Slept? || (e.SavedErr? && e.stage == RawPhase.Name())
  }

  /** `_process_raw`, on its `attempt`-th try. Success resets the retry counter. A
      failure saves an error document and re-raises unless exceptions are skipped;
      a skipped transient failure sleeps, spends one retry and tries again, and with
      no retry left re-raises; any other skipped failure returns False. */
  function ProcessRaw(cfg: Config, env: Env, st: CrawlState, app: ListedApp, attempt: nat): (r: Outcome<bool>)
    decreases st.retriesLeft
    ensures Extends(st, r.state) && SameWatermark(st, r.state)
    ensures forall e :: e in NewEvents(st, r.state) ==> RawEvent(e)
    ensures Sleeps(NewEvents(st, r.state)) <= st.retriesLeft
    ensures !cfg.skipExceptions ==> Sleeps(NewEvents(st, r.state)) == 0
    ensures r.Done? && r.value ==>
              r.state.retriesLeft == cfg.retryAttempts && EndsWith(r.state.trace, SavedApp(app.id, cfg.historyHost))
    ensures r.Done? && !r.value ==> cfg.skipExceptions && EndsWithLastingError(cfg, r.state.trace, RawPhase, app.id)
    ensures r.Raised? ==>
              && EndsWith(r.state.trace, ErrorDoc(cfg, r.fault, RawPhase, app.id))
              && (cfg.skipExceptions ==> IsTransient(r.fault) && r.state.retriesLeft == 0)
    ensures RawIds(NewEvents(st, r.state)) == {app.id}
  {
    match env.raw(app.id, attempt)
    case None =>
      var saved := SavedApp(app.id, cfg.historyHost);
      var s := st.(retriesLeft := cfg.retryAttempts, trace := st.trace + [saved]);
      assert NewEvents(st, s) == [saved];
      RawIdsOne(saved);
      Done(true, s)
    case Some(f) =>
      var err := ErrorDoc(cfg, f, RawPhase, app.id);
      var h := HandleProcessingException(cfg, st, f, RawPhase, app.id);
      assert NewEvents(st, h.state) == [err];
      RawIdsOne(err);
      match h
      case Raised(e, s) => Raised(e, s)
      case Done(_, s) =>
        if IsTransient(f) then
          if s.retriesLeft > 0 then
            var sleep := Slept(cfg.retrySleepSeconds);
            var next := s.(retriesLeft := s.retriesLeft - 1, trace := s.trace + [sleep]);
            var r := ProcessRaw(cfg, env, next, app, attempt + 1);
            RetryEvents(st, next, r.state, err, sleep);
            r
          else Raised(f, s)
        else
          assert Fault(err.kind, err.message) == f;
          Done(false, s)
  }

  lemma RetryRawIds(err: Event, sleep: Event, rest: seq<Event>)
    requires IsRawRecord(err) && sleep.Slept?
    ensures RawIds([err, sleep] + rest) == {err.appId} + RawIds(rest)
  {
    RawIdsAppend([err, sleep], rest);
    RawIdsAppend([err], [sleep]);
    assert [err] + [sleep] == [err, sleep];
    RawIdsOne(err);
    RawIdsOne(sleep);
  }

  /** The events of a retry: the error document and the sleep, then the next try's. */
  lemma RetryEvents(st: CrawlState, next: CrawlState, last: CrawlState, err: Event, sleep: Event)
    requires next.trace == st.trace + [err, sleep]
    requires Extends(next, last)
    requires IsRawRecord(err) && sleep.Slept?
    requires forall e :: e in NewEvents(next, last) ==> RawEvent(e)
    ensures Extends(st, last)
    ensures NewEvents(st, last) == [err, sleep] + NewEvents(next, last)
    ensures forall e :: e in NewEvents(st, last) ==> RawEvent(e)
    ensures Sleeps(NewEvents(st, last)) == 1 + Sleeps(NewEvents(next, last))
    ensures RawIds(NewEvents(st, last)) == {err.appId} + RawIds(NewEvents(next, last))
  {
    var rest := NewEvents(next, last);
    assert last.trace == next.trace + rest;
    assert last.trace == st.trace + ([err, sleep] + rest);
    SleepsAppend([err, sleep], rest);
    assert Sleeps([err, sleep]) == 1;
    RetryRawIds(err, sleep, rest);
  }

  /** The history server fails transiently on tries `from` to `from + count`. */
  predicate KeepsFailing(env: Env, id: string, from: nat, count: nat) {
    forall k :: from <= k <= from + count ==> env.raw(id, k).Some? && IsTransient(env.raw(id, k).value)
  }

  /** A skipped transient failure with a retry left: the error document and a sleep
      are recorded, one retry is spent, and the next try decides the outcome. */
  lemma RawRetryStep(cfg: Config, env: Env, st: CrawlState, app: ListedApp, attempt: nat)
    requires cfg.skipExceptions && st.retriesLeft > 0
    requires env.raw(app.id, attempt).Some? && IsTransient(env.raw(app.id, attempt).value)
    ensures var err := ErrorDoc(cfg, env.raw(app.id, attempt).value, RawPhase, app.id);
            var next := st.(retriesLeft := st.retriesLeft - 1, trace := st.trace + [err, Slept(cfg.retrySleepSeconds)]);
            ProcessRaw(cfg, env, st, app, attempt) == ProcessRaw(cfg, env, next, app, attempt + 1)
  {
    var err := ErrorDoc(cfg, env.raw(app.id, attempt).value, RawPhase, app.id);
    assert st.trace + [err] + [Slept(cfg.retrySleepSeconds)] == st.trace + [err, Slept(cfg.retrySleepSeconds)];
  }

  /** With exceptions skipped, a history server that keeps failing transiently is
      retried exactly as often as the counter allows, and then the failure is raised. */
  lemma {:induction false} RetriesExhaust(cfg: Config, env: Env, st: CrawlState, app: ListedApp, attempt: nat)
    requires cfg.skipExceptions
    requires KeepsFailing(env, app.id, attempt, st.retriesLeft)
    ensures ProcessRaw(cfg, env, st, app, attempt).Raised?
    ensures Sleeps(NewEvents(st, ProcessRaw(cfg, env, st, app, attempt).state)) == st.retriesLeft
    decreases st.retriesLeft
  {
    assert env.raw(app.id, attempt).Some?;
    var f := env.raw(app.id, attempt).value;
    var err := ErrorDoc(cfg, f, RawPhase, app.id);
    if st.retriesLeft > 0 {
      var next := st.(retriesLeft := st.retriesLeft - 1, trace := st.trace + [err, Slept(cfg.retrySleepSeconds)]);
      RawRetryStep(cfg, env, st, app, attempt);
      assert KeepsFailing(env, app.id, attempt + 1, next.retriesLeft);
      RetriesExhaust(cfg, env, next, app, attempt + 1);
      RetryEvents(st, next, ProcessRaw(cfg, env, next, app, attempt + 1).state, err, Slept(cfg.retrySleepSeconds));
    } else {
      var s := st.(trace := st.trace + [err]);
      assert ProcessRaw(cfg, env, st, app, attempt) == Raised(f, s);
      assert NewEvents(st, s) == [err];
    }
  }

  /** A transient failure followed by a success costs one sleep and leaves the counter
      at its configured maximum. */
  lemma RecoversAfterOneRetry(cfg: Config, env: Env, st: CrawlState, app: ListedApp)
    requires cfg.skipExceptions && st.retriesLeft > 0
    requires env.raw(app.id, 0).Some? && IsTransient(env.raw(app.id, 0).value)
    requires env.raw(app.id, 1).None?
    ensures var r := ProcessRaw(cfg, env, st, app, 0);
            && r == Done(true, r.state)
            && r.state.retriesLeft == cfg.retryAttempts
            && Sleeps(NewEvents(st, r.state)) == 1
  {
    var f := env.raw(app.id, 0).value;
    var next := st.(retriesLeft := st.retriesLeft - 1,
                    trace := st.trace + [ErrorDoc(cfg, f, RawPhase, app.id), Slept(cfg.retrySleepSeconds)]);
    var r := ProcessRaw(cfg, env, next, app, 1);
    RawRetryStep(cfg, env, st, app, 0);
    assert NewEvents(next, r.state) == [SavedApp(app.id, cfg.historyHost)];
    RetryEvents(st, next, r.state, ErrorDoc(cfg, f, RawPhase, app.id), Slept(cfg.retrySleepSeconds));
  }

  /** `_process_aggs`: the documents saved before any exception stay saved; an
      exception is handled like a raw one but never retried. */
  function ProcessAggs(cfg: Config, env: Env, st: CrawlState, app: ListedApp): (r: Outcome<bool>)
    ensures Extends(st, r.state) && SameWatermark(st, r.state) && r.state.retriesLeft == st.retriesLeft
    ensures Sleeps(NewEvents(st, r.state)) == 0
    ensures r.Done? && r.value <==> env.aggs(app.id).fault.None?
    ensures r.Raised? <==> env.aggs(app.id).fault.Some? && !cfg.skipExceptions
    ensures env.aggs(app.id).fault.Some? ==>
              EndsWith(r.state.trace, ErrorDoc(cfg, env.aggs(app.id).fault.value, AggregationsPhase, app.id))
    ensures forall e :: e in NewEvents(st, r.state) ==>
              || e == SavedAggs(app.id, env.aggs(app.id).docs)
              || (env.aggs(app.id).fault.Some? && e == ErrorDoc(cfg, env.aggs(app.id).fault.value, AggregationsPhase, app.id))
    ensures SavedAggs(app.id, env.aggs(app.id).docs) in NewEvents(st, r.state) <==> env.aggs(app.id).docs > 0
    ensures r.Done? && r.value && env.aggs(app.id).docs > 0 ==>
              EndsWith(r.state.trace, SavedAggs(app.id, env.aggs(app.id).docs))
  {
    var outcome := env.aggs(app.id);
    var saved := if outcome.docs > 0 then [SavedAggs(app.id, outcome.docs)] else [];
    var s := st.(trace := st.trace + saved);
    assert NewEvents(st, s) == saved;
    match outcome.fault
    case None => Done(true, s)
    case Some(f) =>
      var h := HandleProcessingException(cfg, s, f, AggregationsPhase, app.id);
      assert NewEvents(st, h.state) == saved + [ErrorDoc(cfg, f, AggregationsPhase, app.id)];
      SleepsAppend(saved, [ErrorDoc(cfg, f, AggregationsPhase, app.id)]);
      match h
      case Raised(e, s2) => Raised(e, s2)
      case Done(_, s2) => Done(false, s2)
  }

  /** `_process_app`: the aggregations are attempted only when raw processing
      returned True. */
  function ProcessApp(cfg: Config, env: Env, st: CrawlState, app: ListedApp): (r: Outcome<()>)
    ensures Extends(st, r.state) && SameWatermark(st, r.state)
    ensures var raw := ProcessRaw(cfg, env, st, app, 0);
            && (raw.Raised? ==> r == Raised(raw.fault, raw.state))
            && (raw.Done? && !raw.value ==> r == Done((), raw.state))
            && (raw.Done? && raw.value ==>
                  var aggs := ProcessAggs(cfg, env, raw.state, app);
                  r.state == aggs.state && (r.Raised? <==> aggs.Raised?))
    ensures RawIds(NewEvents(st, r.state)) == {app.id}
  {
    match ProcessRaw(cfg, env, st, app, 0)
    case Raised(e, s) => Raised(e, s)
    case Done(ok, s) =>
      if !ok then Done((), s)
      else
        var aggs := ProcessAggs(cfg, env, s, app);
        ExtendsTransitive(st, s, aggs.state);
        RawIdsNone(NewEvents(s, aggs.state));
        RawIdsAppend(NewEvents(st, s), NewEvents(s, aggs.state));
        match aggs
        case Raised(e, s2) => Raised(e, s2)
        case Done(_, s2) => Done((), s2)
  }

  /** Nothing is recorded about the aggregations of an application whose raw
      processing did not succeed. */
  lemma NoAggregationsWithoutRaw(cfg: Config, env: Env, st: CrawlState, app: ListedApp)
    requires !(ProcessRaw(cfg, env, st, app, 0).Done? && ProcessRaw(cfg, env, st, app, 0).value)
    ensures var r := ProcessApp(cfg, env, st, app);
            forall e :: e in NewEvents(st, r.state) ==> !e.SavedAggs? && !(e.SavedErr? && e.stage == "aggregations")
  {
  }

  // ---------------------------------------------------------------------------
  // The listing

  /** The end of `_get_next_completed_app` after an exception: the error document is
      saved; a transient failure with a retry left sleeps and spends the retry, and
      the new listing it returns is never iterated, so the listing just ends; any
      other failure, or one with no retry left, is raised, skipped or not. */
  function ListingFault(cfg: Config, st: CrawlState, f: Fault): (r: Outcome<()>)
    ensures Extends(st, r.state) && SameWatermark(st, r.state)
    ensures r.Done? <==> cfg.skipExceptions && IsTransient(f) && st.retriesLeft > 0
    ensures r.Done? ==>
              && r.state.retriesLeft == st.retriesLeft - 1
              && NewEvents(st, r.state) == [ErrorDoc(cfg, f, ListingPhase, "n/a"), Slept(cfg.retrySleepSeconds)]
    ensures r.Raised? ==>
              && r.fault == f && r.state.retriesLeft == st.retriesLeft
              && NewEvents(st, r.state) == [ErrorDoc(cfg, f, ListingPhase, "n/a")]
  {
    match HandleProcessingException(cfg, st, f, ListingPhase, "n/a")
    case Raised(e, s) => Raised(e, s)
    case Done(_, s) =>
      if IsTransient(f) && s.retriesLeft > 0 then
        Done((), s.(retriesLeft := s.retriesLeft - 1, trace := s.trace + [Slept(cfg.retrySleepSeconds)]))
      else Raised(f, s)
  }

  /** The application is wanted: its name passes the filter and its id is not tabu. */
  predicate Wanted(env: Env, tabu: set<string>, app: ListedApp) {
    env.nameFilter(app.name) && app.id !in tabu
  }

  /** The ids of the wanted applications, in listing order. */
  function Selected(env: Env, tabu: set<string>, apps: seq<ListedApp>): (ids: seq<string>)
    ensures |ids| <= |apps|
  {
    if |apps| == 0 then []
    else
      var n := |apps| - 1;
      Selected(env, tabu, apps[..n]) + (if Wanted(env, tabu, apps[n]) then [apps[n].id] else [])
  }

  /** How many listed applications pass the name filter. */
  function Matched(env: Env, apps: seq<ListedApp>): (k: nat)
    ensures k <= |apps|
  {
    if |apps| == 0 then 0
    else
      var n := |apps| - 1;
      Matched(env, apps[..n]) + (if env.nameFilter(apps[n].name) then 1 else 0)
  }

  /** The selected ids are exactly those of wanted listed applications. */
  lemma {:induction false} SelectedIff(env: Env, tabu: set<string>, apps: seq<ListedApp>, id: string)
    ensures id in Selected(env, tabu, apps) <==> exists a :: a in apps && Wanted(env, tabu, a) && a.id == id
  {
    if |apps| > 0 {
      var n := |apps| - 1;
      SelectedIff(env, tabu, apps[..n], id);
      assert apps == apps[..n] + [apps[n]];
      assert forall a :: a in apps <==> a in apps[..n] || a == apps[n];
    }
  }

  /** No more are selected than pass the name filter. */
  lemma {:induction false} SelectedWithinMatched(env: Env, tabu: set<string>, apps: seq<ListedApp>)
    ensures |Selected(env, tabu, apps)| <= Matched(env, apps) <= |apps|
  {
    if |apps| > 0 {
      SelectedWithinMatched(env, tabu, apps[..|apps| - 1]);
    }
  }

  /** Selecting from a longer prefix of the listing extends the selection. */
  lemma {:induction false} SelectedPrefix(env: Env, tabu: set<string>, apps: seq<ListedApp>, i: nat, j: nat)
    requires i <= j <= |apps|
    ensures var a, b := Selected(env, tabu, apps[..i]), Selected(env, tabu, apps[..j]);
            |a| <= |b| && b[..|a|] == a
  {
    if i < j {
      SelectedPrefix(env, tabu, apps, i, j - 1);
      assert apps[..j][..j - 1] == apps[..j - 1];
    }
  }

  // ---------------------------------------------------------------------------
  // One time step

  /** The counters of a time step: listed, passing the name filter, and new. */
  datatype StepCounts = StepCounts(total: nat, matched: nat, newRuns: nat)

  /** One application yielded by the listing: the retry counter is reset, and the
      application is processed when it is wanted. */
  function VisitApp(cfg: Config, env: Env, tabu: set<string>, st: CrawlState, app: ListedApp): (r: Outcome<()>)
    ensures Extends(st, r.state) && SameWatermark(st, r.state)
    ensures !Wanted(env, tabu, app) ==> r == Done((), st.(retriesLeft := cfg.retryAttempts))
    ensures Wanted(env, tabu, app) ==> r == ProcessApp(cfg, env, st.(retriesLeft := cfg.retryAttempts), app)
    ensures r.Raised? ==> Wanted(env, tabu, app)
    ensures RawIds(NewEvents(st, r.state)) == if Wanted(env, tabu, app) then {app.id} else {}
  {
    var s := st.(retriesLeft := cfg.retryAttempts);
    assert NewEvents(st, s) == [];
    if Wanted(env, tabu, app) then ProcessApp(cfg, env, s, app) else Done((), s)
  }

  /** The end of the listing: nothing more to do, or its exception handled. */
  function EndListing(cfg: Config, st: CrawlState, fault: Option<Fault>): (r: Outcome<()>)
    ensures Extends(st, r.state) && SameWatermark(st, r.state)
    ensures fault.None? ==> r == Done((), st)
    ensures fault.Some? && r.Done? ==> cfg.skipExceptions && IsTransient(fault.value)
    ensures RawIds(NewEvents(st, r.state)) == {}
  {
    match fault
    case None =>
      assert NewEvents(st, st) == [];
      Done((), st)
    case Some(f) =>
      var r := ListingFault(cfg, st, f);
      RawIdsNone(NewEvents(st, r.state));
      r
  }

  /** One application of a listing: with `seeing`, its end times are first folded
      into the watermark; then it is visited. */
  function VisitNext(cfg: Config, env: Env, tabu: set<string>, seeing: bool, st: CrawlState, app: ListedApp)
    : (r: Outcome<()>)
    ensures Extends(st, r.state) && r.state.previousTabu == st.previousTabu
    ensures !seeing ==> SameWatermark(st, r.state)
    ensures seeing ==>
              Watermark(r.state.latestSeen, r.state.newTabu) == See(Watermark(st.latestSeen, st.newTabu), SightingsOf(app))
    ensures RawIds(NewEvents(st, r.state)) == if Wanted(env, tabu, app) then {app.id} else {}
    ensures r.Raised? ==> Wanted(env, tabu, app)
  {
    VisitApp(cfg, env, tabu, if seeing then UpdateLatestSeen(st, app) else st, app)
  }

  /** The applications of a listing visited in order, up to the first one that raises. */
  function VisitListed(cfg: Config, env: Env, tabu: set<string>, seeing: bool, st: CrawlState, apps: seq<ListedApp>)
    : (r: Outcome<()>)
    ensures Extends(st, r.state) && r.state.previousTabu == st.previousTabu
    ensures !seeing ==> SameWatermark(st, r.state)
    ensures r.Done? ==> RecordsExactly(NewEvents(st, r.state), Selected(env, tabu, apps))
    ensures seeing && r.Done? ==>
              Watermark(r.state.latestSeen, r.state.newTabu) == See(Watermark(st.latestSeen, st.newTabu), Sightings(apps))
  {
    if |apps| == 0 then
      assert NewEvents(st, st) == [];
      Done((), st)
    else
      var n := |apps| - 1;
      match VisitListed(cfg, env, tabu, seeing, st, apps[..n])
      case Raised(f, s) => Raised(f, s)
      case Done(_, s) =>
        VisitStep(cfg, env, tabu, seeing, st, s, Selected(env, tabu, apps[..n]), apps[n]);
        SeeAppend(Watermark(st.latestSeen, st.newTabu), Sightings(apps[..n]), SightingsOf(apps[n]));
        VisitNext(cfg, env, tabu, seeing, s, apps[n])
  }

  /** What two stretches of a trace record, one after the other. */
  lemma RecordsAppend(st: CrawlState, s: CrawlState, last: CrawlState, ids: seq<string>, more: seq<string>)
    requires Extends(st, s) && RecordsExactly(NewEvents(st, s), ids)
    requires Extends(s, last) && RecordsExactly(NewEvents(s, last), more)
    ensures Extends(st, last) && RecordsExactly(NewEvents(st, last), ids + more)
  {
    ExtendsTransitive(st, s, last);
    RawIdsAppend(NewEvents(st, s), NewEvents(s, last));
  }

  /** Visiting one more application adds its id to the recorded ones exactly when it
      is wanted. */
  lemma VisitStep(cfg: Config, env: Env, tabu: set<string>, seeing: bool, st: CrawlState, s: CrawlState,
                  ids: seq<string>, app: ListedApp)
    requires Extends(st, s) && RecordsExactly(NewEvents(st, s), ids)
    ensures var o := VisitNext(cfg, env, tabu, seeing, s, app);
            && Extends(st, o.state)
            && RecordsExactly(NewEvents(st, o.state), ids + (if Wanted(env, tabu, app) then [app.id] else []))
  {
    var o := VisitNext(cfg, env, tabu, seeing, s, app);
    ExtendsTransitive(st, s, o.state);
    RawIdsAppend(NewEvents(st, s), NewEvents(s, o.state));
  }

  /** Once an application has raised, the rest of the listing is not visited. */
  lemma {:induction false} VisitListedStaysRaised(cfg: Config, env: Env, tabu: set<string>, seeing: bool,
                                                 st: CrawlState, apps: seq<ListedApp>, k: nat)
    requires k <= |apps| && VisitListed(cfg, env, tabu, seeing, st, apps[..k]).Raised?
    ensures VisitListed(cfg, env, tabu, seeing, st, apps) == VisitListed(cfg, env, tabu, seeing, st, apps[..k])
    decreases |apps|
  {
    if k == |apps| {
      assert apps[..k] == apps;
    } else {
      var n := |apps| - 1;
      assert apps[..n][..k] == apps[..k];
      VisitListedStaysRaised(cfg, env, tabu, seeing, st, apps[..n], k);
    }
  }

  /** An application that raises ends the visit of the listing with its own outcome;
      what is recorded then is the selection up to and including it, a prefix of the
      whole listing's selection. */
  lemma RaisedAt(cfg: Config, env: Env, tabu: set<string>, seeing: bool, st: CrawlState,
                 apps: seq<ListedApp>, i: nat, s: CrawlState, processed: seq<string>)
    requires i < |apps| && VisitListed(cfg, env, tabu, seeing, st, apps[..i]) == Done((), s)
    requires VisitNext(cfg, env, tabu, seeing, s, apps[i]).Raised?
    requires processed == Selected(env, tabu, apps[..i]) + (if Wanted(env, tabu, apps[i]) then [apps[i].id] else [])
    ensures var o := VisitNext(cfg, env, tabu, seeing, s, apps[i]);
            && VisitListed(cfg, env, tabu, seeing, st, apps) == o
            && Extends(st, o.state) && o.state.previousTabu == st.previousTabu
            && (!seeing ==> SameWatermark(st, o.state))
            && RecordsExactly(NewEvents(st, o.state), processed)
    ensures var all := Selected(env, tabu, apps);
            0 < |processed| <= |all| && processed == all[..|processed|]
  {
    VisitedOneMore(cfg, env, tabu, seeing, st, apps, i, s);
    VisitStep(cfg, env, tabu, seeing, st, s, Selected(env, tabu, apps[..i]), apps[i]);
    VisitListedStaysRaised(cfg, env, tabu, seeing, st, apps, i + 1);
    SelectedPrefix(env, tabu, apps, i + 1, |apps|);
    assert apps[..|apps|] == apps;
  }

  /** Visiting one more application of the listing. */
  lemma VisitedOneMore(cfg: Config, env: Env, tabu: set<string>, seeing: bool, st: CrawlState,
                       apps: seq<ListedApp>, i: nat, s: CrawlState)
    requires i < |apps| && VisitListed(cfg, env, tabu, seeing, st, apps[..i]) == Done((), s)
    ensures VisitListed(cfg, env, tabu, seeing, st, apps[..i + 1]) == VisitNext(cfg, env, tabu, seeing, s, apps[i])
    ensures Selected(env, tabu, apps[..i + 1])
         == Selected(env, tabu, apps[..i]) + (if Wanted(env, tabu, apps[i]) then [apps[i].id] else [])
  {
    assert apps[..i + 1][..i] == apps[..i];
  }

  /** Ending a listing visited to its end records nothing more. */
  lemma EndAfter(cfg: Config, env: Env, tabu: set<string>, seeing: bool, st: CrawlState,
                 apps: seq<ListedApp>, s: CrawlState, fault: Option<Fault>)
    requires VisitListed(cfg, env, tabu, seeing, st, apps) == Done((), s)
    ensures var o := EndListing(cfg, s, fault);
            && Extends(st, o.state) && o.state.previousTabu == st.previousTabu
            && (!seeing ==> SameWatermark(st, o.state))
            && (seeing ==>
                  Watermark(o.state.latestSeen, o.state.newTabu) == See(Watermark(st.latestSeen, st.newTabu), Sightings(apps)))
            && RecordsExactly(NewEvents(st, o.state), Selected(env, tabu, apps))
  {
    var o := EndListing(cfg, s, fault);
    ExtendsTransitive(st, s, o.state);
    RawIdsAppend(NewEvents(st, s), NewEvents(s, o.state));
  }

  /** One turn of the loop over a listing: either the application raises, and that
      is the outcome of the whole listing, or the fold goes one application further. */
  lemma VisitTurn(cfg: Config, env: Env, tabu: set<string>, seeing: bool, st: CrawlState,
                  apps: seq<ListedApp>, i: nat, s: CrawlState, processed: seq<string>,
                  o: Outcome<()>, more: seq<string>)
    requires i < |apps| && VisitListed(cfg, env, tabu, seeing, st, apps[..i]) == Done((), s)
    requires processed == Selected(env, tabu, apps[..i])
    requires o == VisitNext(cfg, env, tabu, seeing, s, apps[i])
    requires more == processed + (if Wanted(env, tabu, apps[i]) then [apps[i].id] else [])
    ensures o.Raised? ==>
              var all := Selected(env, tabu, apps);
              && o == VisitListed(cfg, env, tabu, seeing, st, apps)
              && 0 < |more| <= |all| && more == all[..|more|]
              && RecordsExactly(NewEvents(st, o.state), more)
    ensures o.Done? ==>
              && VisitListed(cfg, env, tabu, seeing, st, apps[..i + 1]) == Done((), o.state)
              && more == Selected(env, tabu, apps[..i + 1])
  {
    if o.Raised? {
      RaisedAt(cfg, env, tabu, seeing, st, apps, i, s, more);
    } else {
      VisitedOneMore(cfg, env, tabu, seeing, st, apps, i, s);
    }
  }

  /** The loop over a listing: visits its applications in order, up to the first one
      that raises. `processed` lists the ids processed; when the loop raises, they
      are a non-empty prefix of the whole listing's selection, the last one being the
      application that raised. */
  method VisitEach(cfg: Config, env: Env, tabu: set<string>, seeing: bool, st: CrawlState, apps: seq<ListedApp>)
    returns (r: Outcome<()>, processed: seq<string>)
    ensures r == VisitListed(cfg, env, tabu, seeing, st, apps)
    ensures r.Done? ==> processed == Selected(env, tabu, apps)
    ensures r.Raised? ==>
              var all := Selected(env, tabu, apps);
              && 0 < |processed| <= |all| && processed == all[..|processed|]
              && RecordsExactly(NewEvents(st, r.state), processed)
  {
    var s := st;
    processed := [];
    var i := 0;
    while i < |apps|
      invariant 0 <= i <= |apps|
      invariant VisitListed(cfg, env, tabu, seeing, st, apps[..i]) == Done((), s)
      invariant processed == Selected(env, tabu, apps[..i])
    {
      var o := VisitNext(cfg, env, tabu, seeing, s, apps[i]);
      var more := processed + (if Wanted(env, tabu, apps[i]) then [apps[i].id] else []);
      VisitTurn(cfg, env, tabu, seeing, st, apps, i, s, processed, o, more);
      if o.Raised? {
        return o, more;
      }
      processed, s, i := more, o.state, i + 1;
    }
    assert apps[..i] == apps;
    r := Done((), s);
  }

  /** `process_runs_within_time_step`: every listed application resets the retry
      counter; those passing the name filter whose id the sink does not hold for the
      step are processed, in listing order. `processed` lists their ids, and the
      trace records the raw processing of exactly those ids. The state left is that
      of visiting the listing, then ending it. */
  method ProcessRunsWithinTimeStep(cfg: Config, env: Env, st: CrawlState, stepStart: int, stepEnd: int)
    returns (r: Outcome<StepCounts>, processed: seq<string>)
    ensures Extends(st, r.state) && SameWatermark(st, r.state)
    ensures RecordsExactly(NewEvents(st, r.state), processed)
    ensures var listing := env.listing(Some(stepStart), stepEnd);
            var visits := VisitListed(cfg, env, env.processedIds(stepStart, stepEnd), false, st, listing.apps);
            && (visits.Raised? ==> r.Raised? && r.fault == visits.fault && r.state == visits.state)
            && (visits.Done? ==>
                  var end := EndListing(cfg, visits.state, listing.fault);
                  && r.state == end.state && (r.Raised? <==> end.Raised?) && (r.Raised? ==> r.fault == end.fault))
    ensures r.Done? ==>
              var listing := env.listing(Some(stepStart), stepEnd);
              && processed == Selected(env, env.processedIds(stepStart, stepEnd), listing.apps)
              && r.value == StepCounts(|listing.apps|, Matched(env, listing.apps), |processed|)
    ensures r.Raised? ==>
              var all := Selected(env, env.processedIds(stepStart, stepEnd), env.listing(Some(stepStart), stepEnd).apps);
              |processed| <= |all| && processed == all[..|processed|]
    ensures r.Done? && env.listing(Some(stepStart), stepEnd).fault.Some? ==>
              cfg.skipExceptions && IsTransient(env.listing(Some(stepStart), stepEnd).fault.value)
    ensures r.Raised? && env.listing(Some(stepStart), stepEnd).fault.None? ==> |processed| > 0
  {
    var listing := env.listing(Some(stepStart), stepEnd);
    var tabu := env.processedIds(stepStart, stepEnd);
    var visits;
    visits, processed := VisitEach(cfg, env, tabu, false, st, listing.apps);
    if visits.Raised? {
      return Raised(visits.fault, visits.state), processed;
    }
    EndAfter(cfg, env, tabu, false, st, listing.apps, visits.state, listing.fault);
    var o := EndListing(cfg, visits.state, listing.fault);
    if o.Raised? {
      r := Raised(o.fault, o.state);
    } else {
      r := Done(StepCounts(|listing.apps|, Matched(env, listing.apps), |processed|), o.state);
    }
  }

  // ---------------------------------------------------------------------------
  // The window, step by step

  datatype Step = Step(start: int, end: int)

  function Min(a: int, b: int): int {
    if a <= b then a else b
  }

  /** Steps laid end to end from `lo`, each `d` long or cut off at `hi`. */
  predicate Chain(steps: seq<Step>, lo: int, hi: int, d: int) {
    && (|steps| > 0 ==> steps[0].start == lo)
    && (forall i :: 0 <= i < |steps| ==> steps[i].start < steps[i].end == Min(steps[i].start + d, hi))
    && (forall i :: 0 <= i < |steps| - 1 ==> steps[i + 1].start == steps[i].end)
  }

  /** The steps cover the window `[lo, hi)` exactly. */
  predicate Tiles(steps: seq<Step>, lo: int, hi: int, d: int) {
    Chain(steps, lo, hi, d) && |steps| > 0 && steps[|steps| - 1].end == hi
  }

  /** The ids a step selects: the wanted ones among those listed for it. */
  function SelectedIn(env: Env, step: Step): seq<string> {
    Selected(env, env.processedIds(step.start, step.end), env.listing(Some(step.start), step.end).apps)
  }

  /** The ids the steps select, step after step. */
  function AllSelected(env: Env, steps: seq<Step>): seq<string> {
    if |steps| == 0 then [] else AllSelected(env, steps[..|steps| - 1]) + SelectedIn(env, steps[|steps| - 1])
  }

  lemma ChainExtend(steps: seq<Step>, lo: int, hi: int, d: int, step: Step)
    requires Chain(steps, lo, hi, d)
    requires |steps| == 0 ==> step.start == lo
    requires |steps| > 0 ==> step.start == steps[|steps| - 1].end
    requires step.start < step.end == Min(step.start + d, hi)
    ensures Chain(steps + [step], lo, hi, d)
  {
  }

  lemma AllSelectedAppend(env: Env, steps: seq<Step>, step: Step)
    ensures AllSelected(env, steps + [step]) == AllSelected(env, steps) + SelectedIn(env, step)
  {
    assert (steps + [step])[..|steps|] == steps;
  }

  /** `process_window_by_steps`: an empty or inverted window processes nothing;
      otherwise the window is cut into steps of `timeStepSeconds`, the last one
      shortened to end at the window's end, and the new applications of all steps are
      processed and counted. A step that raises ends the window. `processed` lists
      the ids processed, and the trace records the raw processing of exactly those. */
  method ProcessWindowBySteps(cfg: Config, env: Env, st: CrawlState, windowStart: int, windowEnd: int)
    returns (r: Outcome<nat>, steps: seq<Step>, processed: seq<string>)
    requires cfg.timeStepSeconds > 0
    ensures windowStart >= windowEnd ==> r == Done(0, st) && steps == [] && processed == []
    ensures Extends(st, r.state) && SameWatermark(st, r.state)
    ensures RecordsExactly(NewEvents(st, r.state), processed)
    ensures Chain(steps, windowStart, windowEnd, cfg.timeStepSeconds)
    ensures r.Done? && windowStart < windowEnd ==> Tiles(steps, windowStart, windowEnd, cfg.timeStepSeconds)
    ensures r.Done? ==> processed == AllSelected(env, steps) && r.value == |processed|
    ensures r.Raised? ==> |steps| > 0 && StoppedWithin(AllSelected(env, steps[..|steps| - 1]), AllSelected(env, steps), processed)
  {
    processed := [];
    if !(windowStart < windowEnd) {
      return Done(0, st), [], processed;
    }
    var d := cfg.timeStepSeconds;
    var stepStart := windowStart;
    var s := st;
    var total := 0;
    steps := [];
    while stepStart < windowEnd
      invariant windowStart <= stepStart <= windowEnd
      invariant Chain(steps, windowStart, windowEnd, d)
      invariant |steps| == 0 <==> stepStart == windowStart
      invariant |steps| > 0 ==> steps[|steps| - 1].end == stepStart
      invariant processed == AllSelected(env, steps) && total == |processed|
      invariant Extends(st, s) && SameWatermark(st, s)
      invariant RecordsExactly(NewEvents(st, s), processed)
      decreases windowEnd - stepStart
    {
      var stepEnd := stepStart + d;
      if stepEnd > windowEnd {
        stepEnd := windowEnd;
      }
      var step := Step(stepStart, stepEnd);
      var o, inStep := ProcessRunsWithinTimeStep(cfg, env, s, stepStart, stepEnd);
      RecordsAppend(st, s, o.state, processed, inStep);
      ChainExtend(steps, windowStart, windowEnd, d, step);
      AllSelectedAppend(env, steps, step);
      assert (steps + [step])[..|steps|] == steps;
      if o.Raised? {
        StoppedInStep(processed, SelectedIn(env, step), inStep);
        steps := steps + [step];
        return Raised(o.fault, o.state), steps, processed + inStep;
      }
      steps := steps + [step];
      processed := processed + inStep;
      total := total + o.value.newRuns;
      s := o.state;
      stepStart := stepEnd;
    }
    return Done(total, s), steps, processed;
  }

  /** `done` lies between `before` and `all`: it extends `before` and is a prefix of
      `all`. */
  predicate StoppedWithin(before: seq<string>, all: seq<string>, done: seq<string>) {
    |before| <= |done| <= |all| && done == all[..|done|] && done[..|before|] == before
  }

  lemma StoppedInStep(before: seq<string>, step: seq<string>, part: seq<string>)
    requires |part| <= |step| && part == step[..|part|]
    ensures StoppedWithin(before, before + step, before + part)
  {
    assert (before + part)[..|before|] == before;
    assert (before + step)[..|before + part|] == before + part;
  }

  /** Every step but the last is a full step, and the k-th starts k steps into the window. */
  lemma {:induction false} ChainStarts(steps: seq<Step>, lo: int, hi: int, d: int, k: nat)
    requires Tiles(steps, lo, hi, d) && k < |steps|
    ensures steps[k].start == lo + k * d
  {
    if k > 0 {
      ChainStarts(steps, lo, hi, d, k - 1);
      assert steps[k].start == steps[k - 1].end == steps[k - 1].start + d;
    }
  }

  /** Each instant of the window lies in exactly one step. */
  lemma TilesCover(steps: seq<Step>, lo: int, hi: int, d: int, t: int)
    requires Tiles(steps, lo, hi, d) && lo <= t < hi
    ensures exists k :: 0 <= k < |steps| && steps[k].start <= t < steps[k].end
    ensures forall k, m ::
              (0 <= k < |steps| && 0 <= m < |steps| &&
               steps[k].start <= t < steps[k].end && steps[m].start <= t < steps[m].end) ==> k == m
  {
    ChainOrdered(steps, lo, hi, d);
    CoverFrom(steps, lo, hi, d, t, 0);
  }

  /** The steps are in increasing order: a later step starts where or after an earlier
      one ends. */
  lemma {:induction false} ChainOrdered(steps: seq<Step>, lo: int, hi: int, d: int)
    requires Chain(steps, lo, hi, d)
    ensures forall k, m :: 0 <= k < m < |steps| ==> steps[k].end <= steps[m].start
  {
    if |steps| > 1 {
      var n := |steps| - 1;
      ChainOrdered(steps[..n], lo, hi, d);
      forall k | 0 <= k < n
        ensures steps[k].end <= steps[n].start
      {
        assert steps[..n][k] == steps[k];
        assert steps[..n][n - 1] == steps[n - 1];
      }
    }
  }

  /** An instant at or after the start of step `k` lies in some step from `k` on. */
  lemma {:induction false} CoverFrom(steps: seq<Step>, lo: int, hi: int, d: int, t: int, k: nat)
    requires Tiles(steps, lo, hi, d) && k < |steps| && steps[k].start <= t < hi
    ensures exists j :: k <= j < |steps| && steps[j].start <= t < steps[j].end
    decreases |steps| - k
  {
    if t >= steps[k].end {
      CoverFrom(steps, lo, hi, d, t, k + 1);
    }
  }

  /** A window of length `hi - lo` takes the least number of steps of length `d` that
      covers it. */
  lemma StepCount(steps: seq<Step>, lo: int, hi: int, d: int)
    requires Tiles(steps, lo, hi, d)
    ensures (|steps| - 1) * d < hi - lo <= |steps| * d
  {
    var n := |steps| - 1;
    ChainStarts(steps, lo, hi, d, n);
    assert steps[n].start == lo + n * d < hi;
    assert hi <= lo + n * d + d;
    assert |steps| * d == n * d + d;
  }

  /** `process_all_new_runs`: the window of completion times runs from `lookbackHours`
      before `now` to `completionTimeoutSeconds` before it. */
  method ProcessAllNewRuns(cfg: Config, env: Env, st: CrawlState, now: int)
    returns (r: Outcome<nat>, steps: seq<Step>, processed: seq<string>)
    requires cfg.timeStepSeconds > 0
    ensures Extends(st, r.state) && SameWatermark(st, r.state)
    ensures RecordsExactly(NewEvents(st, r.state), processed)
    ensures var lo, hi := now - cfg.lookbackHours * 3600, now - cfg.completionTimeoutSeconds;
            && (lo >= hi ==> r == Done(0, st) && steps == [] && processed == [])
            && (r.Done? && lo < hi ==> Tiles(steps, lo, hi, cfg.timeStepSeconds))
            && (r.Done? ==> processed == AllSelected(env, steps) && r.value == |processed|)
  {
    r, steps, processed := ProcessWindowBySteps(cfg, env, st, now - cfg.lookbackHours * 3600, now - cfg.completionTimeoutSeconds);
  }

  // ---------------------------------------------------------------------------
  // The watermark strategy

  /** The latest completion time seen and the ids of the applications completed then. */
  datatype Watermark = Watermark(latest: Option<int>, tabu: set<string>)

  /** One attempt's end time seen for an application. */
  datatype Sighting = Sighting(id: string, end: Option<int>)

  /** `_update_latest_seen_date` for one end time: a missing one changes nothing; a
      later one (or the first) starts a new tabu set; an equal one joins it. */
  function SeeEnd(w: Watermark, x: Sighting): (r: Watermark)
    ensures x.end.None? ==> r == w
    ensures x.end.Some? ==> r.latest.Some? && r.latest.value >= x.end.value
    ensures w.latest.Some? ==> r.latest.Some? && r.latest.value >= w.latest.value
    ensures x.end.Some? && (w.latest.None? || x.end.value > w.latest.value) ==> r == Watermark(x.end, {x.id})
    ensures x.end.Some? && w.latest == x.end ==> r == w.(tabu := w.tabu + {x.id})
    ensures x.end.Some? && w.latest.Some? && x.end.value < w.latest.value ==> r == w
  {
    match x.end
    case None => w
    case Some(e) =>
      if w.latest.None? || e > w.latest.value then Watermark(Some(e), {x.id})
      else if e == w.latest.value then w.(tabu := w.tabu + {x.id})
      else w
  }

  function See(w: Watermark, xs: seq<Sighting>): Watermark {
    if |xs| == 0 then w else SeeEnd(See(w, xs[..|xs| - 1]), xs[|xs| - 1])
  }

  lemma {:induction false} SeeAppend(w: Watermark, xs: seq<Sighting>, ys: seq<Sighting>)
    ensures See(w, xs + ys) == See(See(w, xs), ys)
    decreases |ys|
  {
    if |ys| == 0 {
      assert xs + ys == xs;
    } else {
      var n := |ys| - 1;
      assert (xs + ys)[..|xs + ys| - 1] == xs + ys[..n];
      SeeAppend(w, xs, ys[..n]);
    }
  }

  /** The end times of an application's attempts, in the order they are listed. */
  function SightingsOf(app: ListedApp): (xs: seq<Sighting>)
    ensures |xs| == |app.endTimes|
    ensures forall j :: 0 <= j < |xs| ==> xs[j] == Sighting(app.id, app.endTimes[j])
  {
    seq(|app.endTimes|, j requires 0 <= j < |app.endTimes| => Sighting(app.id, app.endTimes[j]))
  }

  function Sightings(apps: seq<ListedApp>): seq<Sighting> {
    if |apps| == 0 then [] else Sightings(apps[..|apps| - 1]) + SightingsOf(apps[|apps| - 1])
  }

  /** What the watermark fold keeps, relative to the starting time `start` and the
      sightings `xs` folded so far from an empty tabu set: the latest time bounds the
      start and every sighting, is the start or one of the sightings, and the tabu set
      holds exactly the ids seen at the latest time. */
  ghost predicate WatermarkOf(w: Watermark, start: Option<int>, xs: seq<Sighting>) {
    && (start.Some? ==> w.latest.Some? && start.value <= w.latest.value)
    && (forall x :: x in xs && x.end.Some? ==> w.latest.Some? && x.end.value <= w.latest.value)
    && (w.latest == start || exists x :: x in xs && x.end == w.latest)
    && (forall id :: id in w.tabu <==> exists x :: x in xs && x.id == id && x.end.Some? && x.end == w.latest)
  }

  lemma {:induction false} SeeCharacterised(start: Option<int>, xs: seq<Sighting>)
    ensures WatermarkOf(See(Watermark(start, {}), xs), start, xs)
  {
    if |xs| > 0 {
      var n := |xs| - 1;
      var prev := xs[..n];
      SeeCharacterised(start, prev);
      assert xs == prev + [xs[n]];
      assert forall x :: x in xs <==> x in prev || x == xs[n];
      SeeStep(See(Watermark(start, {}), prev), start, prev, xs[n]);
    }
  }

  lemma SeeStep(w: Watermark, start: Option<int>, prev: seq<Sighting>, x: Sighting)
    requires WatermarkOf(w, start, prev)
    ensures WatermarkOf(SeeEnd(w, x), start, prev + [x])
  {
    var xs := prev + [x];
    assert forall y :: y in xs <==> y in prev || y == x;
    var r := SeeEnd(w, x);
    if x.end.Some? && (w.latest.None? || x.end.value > w.latest.value) {
      forall id
        ensures id in r.tabu <==> exists y :: y in xs && y.id == id && y.end.Some? && y.end == r.latest
      {
        if exists y :: y in xs && y.id == id && y.end.Some? && y.end == r.latest {
          var y :| y in xs && y.id == id && y.end.Some? && y.end == r.latest;
          assert y == x;
        }
      }
    }
  }

  /** `_update_latest_seen_date`: every attempt's end time, in order. */
  function UpdateLatestSeen(st: CrawlState, app: ListedApp): (r: CrawlState)
    ensures r.trace == st.trace && r.retriesLeft == st.retriesLeft && r.previousTabu == st.previousTabu
    ensures Watermark(r.latestSeen, r.newTabu) == See(Watermark(st.latestSeen, st.newTabu), SightingsOf(app))
  {
    var w := See(Watermark(st.latestSeen, st.newTabu), SightingsOf(app));
    st.(latestSeen := w.latest, newTabu := w.tabu)
  }

  /** How many listed applications are not in the tabu set. */
  function Unseen(tabu: set<string>, apps: seq<ListedApp>): (k: nat)
    ensures k <= |apps|
  {
    if |apps| == 0 then 0
    else Unseen(tabu, apps[..|apps| - 1]) + (if apps[|apps| - 1].id in tabu then 0 else 1)
  }

  /** `process_new_runs_since_latest_processed`: lists the applications completed since
      the watermark, folds every one of them into a new watermark, and processes those
      that pass the name filter and were not in the previous tabu set. The count it
      returns is of applications outside the previous tabu set, whether or not they
      pass the name filter. The new tabu set becomes the previous one only when the
      listing ends without raising. `processed` lists the ids processed, and the trace
      records the raw processing of exactly those ids. The state left is that of
      visiting the listing from an empty new tabu set, then ending it. */
  method ProcessSinceLatest(cfg: Config, env: Env, st: CrawlState, now: int)
    returns (r: Outcome<nat>, processed: seq<string>)
    ensures Extends(st, r.state)
    ensures RecordsExactly(NewEvents(st, r.state), processed)
    ensures var listing := env.listing(st.latestSeen, now - cfg.completionTimeoutSeconds);
            var visits := VisitListed(cfg, env, st.previousTabu, true, st.(newTabu := {}), listing.apps);
            && (visits.Raised? ==> r.Raised? && r.fault == visits.fault && r.state == visits.state)
            && (visits.Done? ==>
                  var end := EndListing(cfg, visits.state, listing.fault);
                  && (r.Raised? <==> end.Raised?)
                  && (r.Raised? ==> r.fault == end.fault && r.state == end.state)
                  && (r.Done? ==> r.state == end.state.(previousTabu := end.state.newTabu)))
    ensures r.Done? ==>
              var apps := env.listing(st.latestSeen, now - cfg.completionTimeoutSeconds).apps;
              && r.value == Unseen(st.previousTabu, apps)
              && processed == Selected(env, st.previousTabu, apps)
              && r.state.previousTabu == r.state.newTabu
              && Watermark(r.state.latestSeen, r.state.newTabu) == See(Watermark(st.latestSeen, {}), Sightings(apps))
    ensures r.Raised? ==>
              var all := Selected(env, st.previousTabu, env.listing(st.latestSeen, now - cfg.completionTimeoutSeconds).apps);
              && r.state.previousTabu == st.previousTabu
              && |processed| <= |all| && processed == all[..|processed|]
  {
    var listing := env.listing(st.latestSeen, now - cfg.completionTimeoutSeconds);
    var tabu := st.previousTabu;
    var start := st.(newTabu := {});
    var visits;
    visits, processed := VisitEach(cfg, env, tabu, true, start, listing.apps);
    if visits.Raised? {
      SinceLatestRecords(env, st, start, visits.state, processed);
      return Raised(visits.fault, visits.state), processed;
    }
    EndAfter(cfg, env, tabu, true, start, listing.apps, visits.state, listing.fault);
    var o := EndListing(cfg, visits.state, listing.fault);
    if o.Raised? {
      SinceLatestRecords(env, st, start, o.state, processed);
      r := Raised(o.fault, o.state);
    } else {
      r := Done(Unseen(tabu, listing.apps), o.state.(previousTabu := o.state.newTabu));
      SinceLatestRecords(env, st, start, r.state, processed);
    }
  }

  /** Clearing the new tabu set records nothing, so what is recorded from it is what is
      recorded from the state before. */
  lemma SinceLatestRecords(env: Env, st: CrawlState, start: CrawlState, last: CrawlState, ids: seq<string>)
    requires start.trace == st.trace && Extends(start, last) && RecordsExactly(NewEvents(start, last), ids)
    ensures Extends(st, last) && RecordsExactly(NewEvents(st, last), ids)
  {
  }

  /** After a run of the watermark strategy that did not raise, the watermark is the
      latest completion time listed (or the old one), and the tabu set for the next run
      holds exactly the listed applications that completed at that time. */
  lemma SinceLatestWatermark(start: Option<int>, apps: seq<ListedApp>, w: Watermark)
    requires w == See(Watermark(start, {}), Sightings(apps))
    ensures WatermarkOf(w, start, Sightings(apps))
  {
    SeeCharacterised(start, Sightings(apps));
  }

  /** An application in the tabu set is neither processed nor counted again. */
  lemma TabuNotProcessed(env: Env, tabu: set<string>, apps: seq<ListedApp>, id: string)
    requires id in tabu
    ensures id !in Selected(env, tabu, apps)
  {
    SelectedIff(env, tabu, apps, id);
  }

  /** `process_new_runs`: the strategy the configuration selects. The window strategy
      leaves the watermark and the tabu sets alone. `processed` lists the ids
      processed, and the trace records the raw processing of exactly those ids; every
      one of them is counted, and with the window strategy nothing else is. */
  method ProcessNewRuns(cfg: Config, env: Env, st: CrawlState, now: int) returns (r: Outcome<nat>, processed: seq<string>)
    requires SelectStrategy(cfg.crawlerMethod) == AllNewRuns ==> cfg.timeStepSeconds > 0
    ensures Extends(st, r.state)
    ensures RecordsExactly(NewEvents(st, r.state), processed)
    ensures r.Done? ==> |processed| <= r.value
    ensures SelectStrategy(cfg.crawlerMethod) == AllNewRuns ==> SameWatermark(st, r.state)
    ensures SelectStrategy(cfg.crawlerMethod) == AllNewRuns && r.Done? ==> r.value == |processed|
    ensures SelectStrategy(cfg.crawlerMethod) == SinceLatest && r.Done? ==> r.state.previousTabu == r.state.newTabu
    ensures SelectStrategy(cfg.crawlerMethod) == SinceLatest && r.Raised? ==> r.state.previousTabu == st.previousTabu
  {
    match SelectStrategy(cfg.crawlerMethod)
    case AllNewRuns =>
      var steps;
      r, steps, processed := ProcessAllNewRuns(cfg, env, st, now);
    case SinceLatest =>
      r, processed := ProcessSinceLatest(cfg, env, st, now);
      if r.Done? {
        SelectedWithinUnseen(env, st.previousTabu, env.listing(st.latestSeen, now - cfg.completionTimeoutSeconds).apps);
      }
  }

  /** Every application processed is one outside the tabu set. */
  lemma {:induction false} SelectedWithinUnseen(env: Env, tabu: set<string>, apps: seq<ListedApp>)
    ensures |Selected(env, tabu, apps)| <= Unseen(tabu, apps)
  {
    if |apps| > 0 {
      SelectedWithinUnseen(env, tabu, apps[..|apps| - 1]);
    }
  }

}

=== FILE: enceladus_setter.dfy ===
/** Construction of the HDFS input path of an Enceladus dataset for one
    information date and version. */
module EnceladusSetter {
  import opened Strings

  /** `get_input_path`: `<dir>/<yyyy>/<mm>/<dd>/v<version>`, the date's dashes
      becoming path separators. */
  function GetInputPath(dir: string, infoDate: string, infoVersion: int): (path: string)
    ensures |path| == |dir| + 1 + |infoDate| + 2 + |IntToString(infoVersion)|
    ensures StartsWith(path, dir + "/")
    ensures path[|dir| + 1..|dir| + 1 + |infoDate|] == ReplaceChar(infoDate, '-', '/')
    ensures path[|path| - |IntToString(infoVersion)| - 2..] == "/v" + IntToString(infoVersion)
  {
    var head, middle, tail := dir + "/", ReplaceChar(infoDate, '-', '/'), "/v" + IntToString(infoVersion);
    var path := head + middle + tail;
    assert path[..|head|] == head;
    assert path[|head|..|head| + |middle|] == middle;
    assert path[|head| + |middle|..] == tail;
    path
  }

  /** Every dash of the date, and only a dash, becomes a separator in the middle segment. */
  lemma InputPathDateSegment(dir: string, infoDate: string, infoVersion: int, i: nat)
    requires i < |infoDate|
    ensures var path := GetInputPath(dir, infoDate, infoVersion);
            path[|dir| + 1 + i] == (if infoDate[i] == '-' then '/' else infoDate[i])
  {
    var path := GetInputPath(dir, infoDate, infoVersion);
    assert path[|dir| + 1 + i] == path[|dir| + 1..|dir| + 1 + |infoDate|][i];
  }
}

=== FILE: flattener.dfy ===
/** Flattening of an application into one document per attempt, each carrying the
    attempt's aggregations and summary instead of its raw executors and stages. */
module Flattener {
  import opened Wrappers
  import opened Commons
  import opened Records
  import opened Columns
  import opened Metrics
  import opened Summary

  /** `{'allexecutors': ..., 'stages': ..., 'summary': ...}`; a summary of `None` is
      the empty dictionary. */
  datatype AttemptAggregations = AttemptAggregations(
    allexecutors: ExecutorsAggregation,
    stages: Aggregation<StageField>,
    summary: Option<AttemptSummary>)

  /** `get_attempt_aggregations`: executors first, then stages, then the summary;
      the first error is the attempt's error. */
  function GetAttemptAggregations(attempt: Attempt): (r: Result<AttemptAggregations, PyError>)
    ensures r.Success? <==>
              && FlattenExecutors(attempt.startTime, attempt.endTime, attempt.executors).Success?
              && FlattenStages(attempt.sparkProperties, attempt.stages).Success?
              && CalculateSummary(attempt,
                                  FlattenExecutors(attempt.startTime, attempt.endTime, attempt.executors).value.executors,
                                  FlattenStages(attempt.sparkProperties, attempt.stages).value).Success?
    ensures r.Success? ==>
              && r.value.allexecutors == FlattenExecutors(attempt.startTime, attempt.endTime, attempt.executors).value
              && r.value.stages == FlattenStages(attempt.sparkProperties, attempt.stages).value
              && r.value.summary == CalculateSummary(attempt, r.value.allexecutors.executors, r.value.stages).value
    ensures FlattenExecutors(attempt.startTime, attempt.endTime, attempt.executors).Failure? ==>
              r == Failure(FlattenExecutors(attempt.startTime, attempt.endTime, attempt.executors).error)
  {
    var ex :- FlattenExecutors(attempt.startTime, attempt.endTime, attempt.executors);
    var st :- FlattenStages(attempt.sparkProperties, attempt.stages);
    var summary :- CalculateSummary(attempt, ex.executors, st);
    Success(AttemptAggregations(ex, st, summary))
  }

  /** The attempt as stored: its own fields and aggregations, without `allexecutors`
      and `stages`. */
  datatype FlatAttempt = FlatAttempt(
    attemptId: Option<string>,
    startTime: int,
    endTime: Option<int>,
    duration: int,
    completed: bool,
    sparkProperties: map<string, Value>,
    enceladusRun: Option<Option<Run>>,
    aggs: AttemptAggregations)

  /** One flat document: the application's fields except `attempts`, the final-attempt
      mark and one attempt. */
  datatype FlatDoc = FlatDoc(
    id: string,
    name: string,
    appSpecific: Option<AppSpecificData>,
    isFinalAttempt: bool,
    attempt: FlatAttempt)

  /** What the generator produced before it stopped, and the error that stopped it. */
  datatype Flattened = Flattened(docs: seq<FlatDoc>, error: Option<PyError>)

  /** The final attempt is the one listed first; an attempt without an id also counts
      as final. */
  predicate IsFinal(attempt: Attempt, lastAttemptId: Option<string>) {
    attempt.attemptId.None? || attempt.attemptId == lastAttemptId
  }

  function FlatDocOf(app: App, attempt: Attempt, lastAttemptId: Option<string>, aggs: AttemptAggregations): FlatDoc {
    FlatDoc(app.id, app.name, app.appSpecific, IsFinal(attempt, lastAttemptId),
            FlatAttempt(attempt.attemptId, attempt.startTime, attempt.endTime, attempt.duration,
                        attempt.completed, attempt.sparkProperties, attempt.enceladusRun, aggs))
  }

  /** The documents of `attempts`, in order, up to the first attempt whose aggregation
      fails; `results[i]` is the aggregation of `attempts[i]`. */
  function FlattenAttempts(app: App, attempts: seq<Attempt>, results: seq<Result<AttemptAggregations, PyError>>,
                           lastAttemptId: Option<string>): (r: Flattened)
    requires |results| == |attempts|
    ensures |r.docs| <= |attempts|
    ensures r.error.None? <==> |r.docs| == |attempts|
    ensures forall i :: 0 <= i < |r.docs| ==>
              && results[i].Success?
              && r.docs[i] == FlatDocOf(app, attempts[i], lastAttemptId, results[i].value)
    ensures r.error.Some? ==> results[|r.docs|] == Failure(r.error.value)
  {
    if |attempts| == 0 then Flattened([], None)
    else
      match results[0]
      case Failure(e) => Flattened([], Some(e))
      case Success(aggs) =>
        var rest := FlattenAttempts(app, attempts[1..], results[1..], lastAttemptId);
        Flattened([FlatDocOf(app, attempts[0], lastAttemptId, aggs)] + rest.docs, rest.error)
  }

  /** `flatten_app`: an application without attempts fails before producing anything;
      otherwise one document per attempt, in order, until an attempt fails. */
  function FlattenApp(app: App): (r: Flattened)
    ensures |app.attempts| == 0 ==> r == Flattened([], Some(IndexError))
    ensures |r.docs| <= |app.attempts|
    ensures r.error.None? <==> |app.attempts| > 0 && |r.docs| == |app.attempts|
    ensures r.error.Some? && |app.attempts| > 0 ==>
              GetAttemptAggregations(app.attempts[|r.docs|]) == Failure(r.error.value)
    ensures forall i :: 0 <= i < |r.docs| ==>
              && r.docs[i].id == app.id && r.docs[i].name == app.name
              && r.docs[i].attempt.attemptId == app.attempts[i].attemptId
              && (r.docs[i].isFinalAttempt <==>
                    app.attempts[i].attemptId.None? || app.attempts[i].attemptId == app.attempts[0].attemptId)
              && Success(r.docs[i].attempt.aggs) == GetAttemptAggregations(app.attempts[i])
  {
    match GetLastAttempt(app.attempts)
    case Failure(e) => Flattened([], Some(e))
    case Success(last) =>
      var results := seq(|app.attempts|, i requires 0 <= i < |app.attempts| => GetAttemptAggregations(app.attempts[i]));
      FlattenAttempts(app, app.attempts, results, last.attemptId)
  }

  /** The first attempt is always final, and so is every attempt sharing its id. */
  lemma FirstAttemptIsFinal(app: App)
    requires |FlattenApp(app).docs| > 0
    ensures FlattenApp(app).docs[0].isFinalAttempt
  {
  }

  /** When the attempt ids are distinct and present, exactly one document is final. */
  lemma ExactlyOneFinal(app: App, i: nat)
    requires forall j :: 0 <= j < |app.attempts| ==> app.attempts[j].attemptId.Some?
    requires forall j, k :: 0 <= j < k < |app.attempts| ==> app.attempts[j].attemptId != app.attempts[k].attemptId
    requires i < |FlattenApp(app).docs|
    ensures FlattenApp(app).docs[i].isFinalAttempt <==> i == 0
  {
  }
}

=== FILE: history_aggregator.dfy ===
/** The document clean-up helpers of the history aggregator: removal of unwanted
    keys, normalisation of configuration property lists, the order in which listed
    applications are handed out, and the rendering of optional dates in requests. */
module HistoryAggregator {
  import opened Wrappers
  import opened Strings
  import opened Commons

  /** The keys dropped from each kind of document before it is stored. */
  const RemoveKeysConfig: map<string, seq<string>> := map[
    "executor" := ["hostPort", "executorLogs"],
    "attempt" := [],
    "environment" := ["systemProperties", "classpathEntries"],
    "sparkProperties" := [
      "spark_driver_host",
      "spark_driver_port",
      "spark_jars",
      "spark_eventLog_dir",
      "spark_driver_appUIAddress",
      "spark_ui_filters",
      "spark_org_apache_hadoop_yarn_server_webproxy_amfilter_AmIpFilter_param_PROXY_HOSTS",
      "spark_org_apache_hadoop_yarn_server_webproxy_amfilter_AmIpFilter_param_PROXY_URI_BASES",
      "spark_yarn_app_container_log_dir"],
    "runtime" := ["javaHome"]
  ]

  function KeySet(keys: seq<string>): (s: set<string>)
    ensures forall k :: k in s <==> k in keys
  {
    set k | k in keys
  }

  /** `_remove_keys`: drops the keys configured for `docType`; a missing document or a
      document type with no configuration is returned as it is. */
  function RemoveKeys<V>(doc: Option<map<string, V>>, docType: string,
                         config: map<string, seq<string>>): (r: Option<map<string, V>>)
    ensures r.None? <==> doc.None?
    ensures docType !in config ==> r == doc
    ensures doc.Some? && docType in config ==>
              && r.value.Keys == doc.value.Keys - KeySet(config[docType])
              && forall k :: k in r.value ==> r.value[k] == doc.value[k]
  {
    match doc
    case None => None
    case Some(d) =>
      if docType in config then Some(d - KeySet(config[docType])) else doc
  }

  /** Removing the configured keys a second time changes nothing. */
  lemma RemoveKeysIdempotent<V>(doc: Option<map<string, V>>, docType: string,
                                config: map<string, seq<string>>)
    ensures RemoveKeys(RemoveKeys(doc, docType, config), docType, config)
            == RemoveKeys(doc, docType, config)
  {
    if doc.Some? && docType in config {
      var once := RemoveKeys(doc, docType, config).value;
      var twice := RemoveKeys(Some(once), docType, config).value;
      assert twice.Keys == once.Keys;
      assert forall k :: k in twice ==> twice[k] == once[k];
      assert twice == once;
    }
  }

  /** The storage-safe form of a property name: every `.` becomes `_`. */
  function MongoKey(key: string): (r: string)
    ensures '.' !in r
    ensures |r| == |key|
    ensures forall i :: 0 <= i < |key| ==> r[i] == (if key[i] == '.' then '_' else key[i])
  {
    var r := ReplaceChar(key, '.', '_');
    assert forall i :: 0 <= i < |r| ==> r[i] != '.';
    r
  }

  /** A property value as stored: a digit string becomes its integer, anything
      else is kept. */
  function PropertyValue(v: Value): (r: Value)
    ensures v.Str? && IsDigits(v.s) ==> r == Int(DigitsValue(v.s))
    ensures !(v.Str? && IsDigits(v.s)) ==> r == v
  {
    match v
    case Str(s) => CastStringToValue(s)
    case _ => v
  }

  /** `_tuple_list_to_valid_mongo_dict`: the (name, value) pairs of a property list
      as a map from storage-safe names to stored values. */
  function TupleListToMongoDict(pairs: seq<(string, Value)>): (r: map<string, Value>)
    ensures forall k :: k in r ==> '.' !in k
    ensures r.Keys == set i | 0 <= i < |pairs| :: MongoKey(pairs[i].0)
  {
    if |pairs| == 0 then map[]
    else
      var n := |pairs| - 1;
      var prefix := TupleListToMongoDict(pairs[..n]);
      assert (set i | 0 <= i < |pairs| :: MongoKey(pairs[i].0))
             == (set i | 0 <= i < n :: MongoKey(pairs[..n][i].0)) + {MongoKey(pairs[n].0)} by {
        forall i | 0 <= i < n ensures pairs[..n][i] == pairs[i] { }
      }
      prefix[MongoKey(pairs[n].0) := PropertyValue(pairs[n].1)]
  }

  /** A later pair overwrites an earlier one with the same storage-safe name: the
      value stored under a name is that of the last pair carrying it. */
  lemma {:induction false} TupleListLastPairWins(pairs: seq<(string, Value)>, i: nat)
    requires i < |pairs|
    requires forall j :: i < j < |pairs| ==> MongoKey(pairs[j].0) != MongoKey(pairs[i].0)
    ensures var r := TupleListToMongoDict(pairs);
            MongoKey(pairs[i].0) in r && r[MongoKey(pairs[i].0)] == PropertyValue(pairs[i].1)
  {
    var n := |pairs| - 1;
    if i < n {
      assert pairs[..n][i] == pairs[i];
      forall j | i < j < n ensures MongoKey(pairs[..n][j].0) != MongoKey(pairs[..n][i].0) {
        assert pairs[..n][j] == pairs[j];
      }
      TupleListLastPairWins(pairs[..n], i);
    }
  }

  /** `next_app` hands out the listed applications in the reverse of the order the
      history server returned them (the server lists newest first). */
  function ListingOrder<T>(apps: seq<T>): (r: seq<T>)
    ensures |r| == |apps|
    ensures forall i :: 0 <= i < |apps| ==> r[i] == apps[|apps| - 1 - i]
  {
    if |apps| == 0 then [] else [apps[|apps| - 1]] + ListingOrder(apps[..|apps| - 1])
  }

  /** Reversing the listing twice gives the server's order back. */
  lemma ListingOrderInvolutive<T>(apps: seq<T>)
    ensures ListingOrder(ListingOrder(apps)) == apps
  {
  }

  /** `_datetime_to_str`: a missing date stays missing; a present one is rendered by
      `render` (ISO format to the millisecond) and suffixed with `GMT`. */
  function DatetimeToStr<T>(dt: Option<T>, render: T -> string): (r: Option<string>)
    ensures r.None? <==> dt.None?
    ensures r.Some? ==> r.value == render(dt.value) + "GMT"
  {
    match dt
    case None => None
    case Some(d) => Some(render(d) + "GMT")
  }
}

=== FILE: menas_aggregator.dfy ===
/** The Enceladus enrichment: matching a run record against the classification of a
    Spark application, pairing runs with attempts, casting the run's additional info
    and stripping its checkpoints. Fetching the runs is a network call; the runs are
    a parameter here. */
module MenasAggregator {
  import opened Wrappers
  import opened Commons
  import opened Classification
  import opened Records
  import opened Strings

  // ---------------------------------------------------------------------------
  // Matching

  /** Python's `==` on the values a run or a classification holds: a boolean equals
      the integer it stands for, a string never equals a number. */
  predicate PyEq(a: Value, b: Value) {
    match (a, b)
    case (Bool(x), Int(i)) => (if x then 1 else 0) == i
    case (Int(i), Bool(x)) => (if x then 1 else 0) == i
    case _ => a == b
  }

  /** `_match_values`: equal values match; a boolean matches the
      integer it stands for; a string matches only the same string, and `None` only
      `None`. */
  predicate MatchValues(left: Value, right: Value)
    ensures left == right ==> MatchValues(left, right)
    ensures left.Bool? && right.Int? ==> (MatchValues(left, right) <==> right.i == if left.b then 1 else 0)
    ensures left.Str? ==> (MatchValues(left, right) <==> right == left)
    ensures left.Null? ==> (MatchValues(left, right) <==> right.Null?)
  {
    PyEq(left, right)
  }

  /** Matching does not depend on the order of the two values. */
  lemma MatchValuesSymmetric(left: Value, right: Value)
    ensures MatchValues(left, right) <==> MatchValues(right, left)
  {
  }

  /** `dict.get`: a missing key reads as `None`. */
  function Get(m: map<string, Value>, key: string): (v: Value)
    ensures key in m ==> v == m[key]
    ensures key !in m ==> v == Null
  {
    if key in m then m[key] else Null
  }

  const StdApplicationId: string := "std_application_id"
  const ConformApplicationId: string := "conform_application_id"
  const StdEnceladusVersion: string := "std_enceladus_version"

  /** The application id a run records for the classification's type: the
      standardisation id for a standardisation or combined run, the conformance id for
      a conformance run, the empty string for any other type. */
  function RunAppId(addInfo: map<string, Value>, appType: string): (v: Value)
    ensures appType == "standardization" || appType == "standardization&conformance" ==>
              v == Get(addInfo, StdApplicationId)
    ensures appType == "conformance" ==> v == Get(addInfo, ConformApplicationId)
    ensures appType !in {"standardization", "standardization&conformance", "conformance"} ==> v == Str("")
  {
    var combined := if appType == "standardization&conformance" then Get(addInfo, StdApplicationId) else Str("");
    if appType == "standardization" then Get(addInfo, StdApplicationId)
    else if appType == "conformance" then Get(addInfo, ConformApplicationId)
    else combined
  }

  /** `_match_run`: the run's dataset, dataset version, info version, application
      version and application id against the classification's and the app's. */
  predicate MatchRun(run: Run, appId: string, c: Classification)
    ensures MatchRun(run, appId, c) ==>
              var addInfo := run.controlMeasure.metadata.additionalInfo;
              && run.dataset == Str(c.dataset)
              && MatchValues(run.datasetVersion, c.datasetVersion)
              && MatchValues(run.controlMeasure.metadata.version, c.infoVersion)
              && Get(addInfo, StdEnceladusVersion) == Str(c.appVersion)
              && RunAppId(addInfo, c.appType) == Str(appId)
    ensures c.appType !in {"standardization", "standardization&conformance", "conformance"} && appId != "" ==>
              !MatchRun(run, appId, c)
  {
    var metadata := run.controlMeasure.metadata;
    var addInfo := metadata.additionalInfo;
    && MatchValues(run.dataset, Str(c.dataset))
    && MatchValues(run.datasetVersion, c.datasetVersion)
    && MatchValues(metadata.version, c.infoVersion)
    && MatchValues(Get(addInfo, StdEnceladusVersion), Str(c.appVersion))
    && MatchValues(RunAppId(addInfo, c.appType), Str(appId))
  }

  /** The run the enrichment service would record for a classified application. */
  function RecordedRun(uniqueId: string, appId: string, c: Classification, checkpoints: Option<seq<Checkpoint>>): Run {
    var idKey := if c.appType == "conformance" then ConformApplicationId else StdApplicationId;
    var addInfo := map[StdEnceladusVersion := Str(c.appVersion), idKey := Str(appId)];
    Run(uniqueId, Str(c.dataset), c.datasetVersion,
        ControlMeasure(Metadata(c.infoVersion, c.infoDate, addInfo), checkpoints))
  }

  /** A run recorded for the application matches it, whatever its other fields. */
  lemma RecordedRunMatches(uniqueId: string, appId: string, c: Classification, checkpoints: Option<seq<Checkpoint>>)
    requires c.appType in {"standardization", "standardization&conformance", "conformance"}
    ensures MatchRun(RecordedRun(uniqueId, appId, c, checkpoints), appId, c)
  {
    var run := RecordedRun(uniqueId, appId, c, checkpoints);
    var addInfo := run.controlMeasure.metadata.additionalInfo;
    assert Get(addInfo, StdEnceladusVersion) == Str(c.appVersion);
    assert RunAppId(addInfo, c.appType) == Str(appId);
  }

  /** A run recorded for another application does not match. */
  lemma OtherAppDoesNotMatch(uniqueId: string, appId: string, otherId: string, c: Classification,
                             checkpoints: Option<seq<Checkpoint>>)
    requires c.appType in {"standardization", "standardization&conformance", "conformance"}
    requires otherId != appId
    ensures !MatchRun(RecordedRun(uniqueId, otherId, c, checkpoints), appId, c)
  {
    var addInfo := RecordedRun(uniqueId, otherId, c, checkpoints).controlMeasure.metadata.additionalInfo;
    assert RunAppId(addInfo, c.appType) == Str(otherId);
  }

  /** A run of a classified application matches only when its fields agree with the
      name the application was classified from. */
  lemma MatchRunNeedsNameFields(run: Run, appId: string, name: string)
    requires IsEnceladusApp(name)
    requires MatchRun(run, appId, GetClassification(name))
    ensures run.dataset == Str(GetClassification(name).dataset)
    ensures PyEq(run.datasetVersion, GetClassification(name).datasetVersion)
  {
  }

  // ---------------------------------------------------------------------------
  // Casting the additional info

  /** `cast_run_data`: every additional-info value goes through `cast_string_to_value`,
      which calls `str.isdigit` and so fails on a value that is not a string. */
  function CastRunData(run: Run): (r: Result<Run, PyError>)
    ensures var info := run.controlMeasure.metadata.additionalInfo;
            r.Success? <==> forall k :: k in info ==> info[k].Str?
    ensures r.Failure? ==> r.error == AttributeError
    ensures r.Success? ==>
              var info := run.controlMeasure.metadata.additionalInfo;
              var cast := r.value.controlMeasure.metadata.additionalInfo;
              && cast.Keys == info.Keys
              && (forall k :: k in info ==> cast[k] == CastStringToValue(info[k].s))
              && r.value.uniqueId == run.uniqueId && r.value.dataset == run.dataset
              && r.value.datasetVersion == run.datasetVersion
              && r.value.controlMeasure.checkpoints == run.controlMeasure.checkpoints
              && r.value.controlMeasure.metadata.version == run.controlMeasure.metadata.version
  {
    var info := run.controlMeasure.metadata.additionalInfo;
    if exists k :: k in info && !info[k].Str? then Failure(AttributeError)
    else
      var cast := map k | k in info :: CastStringToValue(info[k].s);
      var metadata := run.controlMeasure.metadata.(additionalInfo := cast);
      Success(run.(controlMeasure := run.controlMeasure.(metadata := metadata)))
  }

  /** Casting is not re-entrant: a second pass fails exactly when the first turned a
      digit string into a number. */
  lemma CastTwice(run: Run)
    requires CastRunData(run).Success?
    ensures var info := run.controlMeasure.metadata.additionalInfo;
            CastRunData(CastRunData(run).value).Success? <==> forall k :: k in info ==> !IsDigits(info[k].s)
  {
    var info := run.controlMeasure.metadata.additionalInfo;
    var cast := CastRunData(run).value.controlMeasure.metadata.additionalInfo;
    if !forall k :: k in info ==> !IsDigits(info[k].s) {
      var k :| k in info && IsDigits(info[k].s);
      assert !cast[k].Str?;
    }
  }

  // ---------------------------------------------------------------------------
  // Pairing runs with attempts

  /** The index Python's `runs[-i]` reads, for `0 <= i < n`. */
  function NegativeIndex(i: nat, n: nat): (k: nat)
    requires i < n
    ensures k < n
    ensures i == 0 ==> k == 0
    ensures i > 0 ==> k == n - i
  {
    if i == 0 then 0 else n - i
  }

  /** The attempts with their `enceladus_run` set as written: attempt `i` gets
      `runs[-i]` while there are runs, `None` after. */
  function EnrichAttempts(attempts: seq<Attempt>, runs: seq<Run>): (r: seq<Attempt>)
    ensures |r| == |attempts|
    ensures forall i :: 0 <= i < |attempts| ==>
              && r[i] == attempts[i].(enceladusRun := r[i].enceladusRun)
              && r[i].enceladusRun.Some?
              && (i < |runs| ==> r[i].enceladusRun.value == Some(runs[NegativeIndex(i, |runs|)]))
              && (i >= |runs| ==> r[i].enceladusRun.value.None?)
  {
    seq(|attempts|, i requires 0 <= i < |attempts| =>
      attempts[i].(enceladusRun := Some(if i < |runs| then Some(runs[NegativeIndex(i, |runs|)]) else None)))
  }

  /** As written, three runs go to the first three attempts in the order 0, 2, 1: the
      pairing follows neither the runs' order nor its reverse. */
  lemma WrittenPairingIsNeitherOrder(attempts: seq<Attempt>, runs: seq<Run>)
    requires |attempts| == 3 && |runs| == 3
    ensures var r := EnrichAttempts(attempts, runs);
            && r[0].enceladusRun == Some(Some(runs[0]))
            && r[1].enceladusRun == Some(Some(runs[2]))
            && r[2].enceladusRun == Some(Some(runs[1]))
  {
  }

  /** The pairing the code's comment describes: runs are listed in the opposite order
      to the attempts, so attempt `i` takes `runs[-(i + 1)]`. */
  function EnrichAttemptsReversed(attempts: seq<Attempt>, runs: seq<Run>): (r: seq<Attempt>)
    ensures |r| == |attempts|
    ensures forall i :: 0 <= i < |attempts| ==>
              && r[i] == attempts[i].(enceladusRun := r[i].enceladusRun)
              && r[i].enceladusRun.Some?
              && (i < |runs| ==> r[i].enceladusRun.value == Some(runs[|runs| - 1 - i]))
              && (i >= |runs| ==> r[i].enceladusRun.value.None?)
  {
    seq(|attempts|, i requires 0 <= i < |attempts| =>
      attempts[i].(enceladusRun := Some(if i < |runs| then Some(runs[|runs| - 1 - i]) else None)))
  }

  /** The corrected pairing reverses the order: a later attempt gets an earlier run,
      and with as many runs as attempts every run is used exactly once. */
  lemma ReversedPairingReversesOrder(attempts: seq<Attempt>, runs: seq<Run>, i: nat, j: nat)
    requires i < j < |attempts| && j < |runs|
    ensures var r := EnrichAttemptsReversed(attempts, runs);
            exists a, b :: 0 <= b < a < |runs| &&
                           r[i].enceladusRun == Some(Some(runs[a])) && r[j].enceladusRun == Some(Some(runs[b]))
  {
    var n := |runs|;
    assert EnrichAttemptsReversed(attempts, runs)[i].enceladusRun == Some(Some(runs[n - 1 - i]));
    assert EnrichAttemptsReversed(attempts, runs)[j].enceladusRun == Some(Some(runs[n - 1 - j]));
  }

  lemma ReversedPairingUsesEveryRun(attempts: seq<Attempt>, runs: seq<Run>, k: nat)
    requires |attempts| == |runs| && k < |runs|
    ensures var r := EnrichAttemptsReversed(attempts, runs);
            r[|runs| - 1 - k].enceladusRun == Some(Some(runs[k]))
  {
  }

  /** As written, with as many runs as attempts, every run still goes to exactly one
      attempt. */
  lemma WrittenPairingUsesEveryRun(attempts: seq<Attempt>, runs: seq<Run>, k: nat)
    requires |attempts| == |runs| && k < |runs|
    ensures var r := EnrichAttempts(attempts, runs);
            r[NegativeIndex(k, |runs|)].enceladusRun == Some(Some(runs[k]))
  {
    var n := |runs|;
    assert k > 0 ==> NegativeIndex(n - k, n) == k;
  }

  // ---------------------------------------------------------------------------
  // Enrich and aggregate

  /** `enrich` of an Enceladus application, given the runs matched for it: the
      classification and tag from the name, and the runs paired with the attempts. */
  function Enrich(app: App, runs: seq<Run>): (r: App)
    requires IsEnceladusApp(app.name)
    ensures r.id == app.id && r.name == app.name
    ensures r.appSpecific == Some(AppSpecificData(GetClassification(app.name), GetTag(GetClassification(app.name))))
    ensures r.attempts == EnrichAttempts(app.attempts, runs)
    ensures forall i :: 0 <= i < |r.attempts| ==> r.attempts[i].enceladusRun.Some?
  {
    var c := GetClassification(app.name);
    App(app.id, app.name, EnrichAttempts(app.attempts, runs), Some(AppSpecificData(c, GetTag(c))))
  }

  /** The run with its `checkpoints` removed. */
  function StripCheckpoints(run: Run): (r: Run)
    ensures r.controlMeasure.checkpoints.None?
    ensures r.(controlMeasure := r.controlMeasure.(checkpoints := run.controlMeasure.checkpoints)) == run
  {
    run.(controlMeasure := run.controlMeasure.(checkpoints := None))
  }

  function StripAttempt(a: Attempt): (r: Result<Attempt, PyError>)
    ensures r.Success? <==> a.enceladusRun.Some?
  {
    match a.enceladusRun
    case None => Failure(AttributeError)
    case Some(None) => Success(a)
    case Some(Some(run)) => Success(a.(enceladusRun := Some(Some(StripCheckpoints(run)))))
  }

  /** `aggregate`: every attempt must carry `app_specific_data` (reading it from a
      missing one is an AttributeError); every attached run loses its checkpoints;
      attempts without a run are left as they are. */
  function Aggregate(app: App): (r: Result<App, PyError>)
    ensures r.Success? <==> forall i :: 0 <= i < |app.attempts| ==> app.attempts[i].enceladusRun.Some?
    ensures r.Failure? ==> r.error == AttributeError
    ensures r.Success? ==>
              && r.value == app.(attempts := r.value.attempts)
              && |r.value.attempts| == |app.attempts|
              && forall i :: 0 <= i < |app.attempts| ==>
                   var a, b := app.attempts[i], r.value.attempts[i];
                   && b == a.(enceladusRun := b.enceladusRun)
                   && (a.enceladusRun == Some(None) ==> b.enceladusRun == Some(None))
                   && (a.enceladusRun.Some? && a.enceladusRun.value.Some? ==>
                         b.enceladusRun == Some(Some(StripCheckpoints(a.enceladusRun.value.value))))
  {
    if exists i :: 0 <= i < |app.attempts| && app.attempts[i].enceladusRun.None? then Failure(AttributeError)
    else
      Success(app.(attempts := seq(|app.attempts|, i requires 0 <= i < |app.attempts| =>
                                      StripAttempt(app.attempts[i]).value)))
  }

  /** Aggregating twice changes nothing more. */
  lemma AggregateIdempotent(app: App)
    requires Aggregate(app).Success?
    ensures Aggregate(Aggregate(app).value) == Aggregate(app)
  {
    var once := Aggregate(app).value;
    var twice := Aggregate(once).value;
    assert twice.attempts == once.attempts;
  }

  /** An enriched application always aggregates, and afterwards no attached run keeps
      its checkpoints. */
  lemma EnrichThenAggregate(app: App, runs: seq<Run>)
    requires IsEnceladusApp(app.name)
    ensures Aggregate(Enrich(app, runs)).Success?
    ensures var r := Aggregate(Enrich(app, runs)).value;
            forall i :: 0 <= i < |r.attempts| && r.attempts[i].enceladusRun.value.Some? ==>
              r.attempts[i].enceladusRun.value.value.controlMeasure.checkpoints.None?
  {
  }
}

=== FILE: metrics.dfy ===
/** The derived per-stage and per-executor metrics, and the frames the typed
    aggregator reduces: one row per stage, and one row per non-driver executor. */
module Metrics {
  import opened Wrappers
  import opened Commons
  import opened Records
  import opened Columns

  // ---------------------------------------------------------------------------
  // Stage metrics

  /** `x_scheduling_overhead`, `x_duration`, `x_executorCpuTime_ms`, `throughput_bytes`
      and `throughput_records` of one stage. */
  datatype StageMetrics = StageMetrics(
    schedulingOverhead: real,
    duration: real,
    cpuTimeMs: real,
    throughputBytes: real,
    throughputRecords: real)

  /** The property naming the application, read by the incomplete-stage warning. */
  const AppIdProperty: string := "spark_app_id"

  /** `add_custom_stage_metrics`. A complete stage needs its submission time (else
      KeyError) and a non-zero duration (the throughputs divide by it). An incomplete
      stage gets zero overhead and duration and throughputs of -1, but its warning
      message reads the application id, so a missing `spark_app_id` is a KeyError. */
  function AddStageMetrics(props: map<string, Value>, st: Stage): (r: Result<StageMetrics, PyError>)
    ensures r.Success? ==> r.value.cpuTimeMs * 1000000.0 == st.executorCpuTime as real
    ensures !st.IsComplete() ==>
              if AppIdProperty in props then
                r.Success? && r.value.duration == 0.0 && r.value.schedulingOverhead == 0.0
                && r.value.throughputBytes == -1.0 && r.value.throughputRecords == -1.0
              else r == Failure(KeyError(AppIdProperty))
    ensures st.IsComplete() && st.submissionTime.None? ==> r == Failure(KeyError("submissionTime"))
    ensures st.IsComplete() && st.submissionTime.Some? ==>
              var first, completion := st.firstTaskLaunchedTime.value, st.completionTime.value;
              if first == completion then r == Failure(ZeroDivisionError)
              else
                && r.Success?
                && r.value.duration == (completion - first) as real
                && r.value.schedulingOverhead == (first - st.submissionTime.value) as real
                && r.value.throughputBytes * r.value.duration == st.inputBytes as real
                && r.value.throughputRecords * r.value.duration == st.inputRecords as real
  {
    var cpu := st.executorCpuTime as real / 1000000.0;
    if st.IsComplete() then
      if st.submissionTime.None? then Failure(KeyError("submissionTime"))
      else
        var overhead := (st.firstTaskLaunchedTime.value - st.submissionTime.value) as real;
        var duration := (st.completionTime.value - st.firstTaskLaunchedTime.value) as real;
        if duration == 0.0 then Failure(ZeroDivisionError)
        else Success(StageMetrics(overhead, duration, cpu,
                                  st.inputBytes as real / duration, st.inputRecords as real / duration))
    else if AppIdProperty !in props then Failure(KeyError(AppIdProperty))
    else Success(StageMetrics(0.0, 0.0, cpu, -1.0, -1.0))
  }

  /** The metrics of every stage, in order; the first failing stage's error otherwise. */
  function AllStageMetrics(props: map<string, Value>, stages: seq<Stage>): (r: Result<seq<StageMetrics>, PyError>)
    ensures r.Success? ==>
              && |r.value| == |stages|
              && forall i :: 0 <= i < |stages| ==> AddStageMetrics(props, stages[i]) == Success(r.value[i])
    ensures r.Failure? ==>
              exists i :: 0 <= i < |stages| && AddStageMetrics(props, stages[i]) == Failure(r.error)
                          && forall j :: 0 <= j < i ==> AddStageMetrics(props, stages[j]).Success?
  {
    if |stages| == 0 then Success([])
    else
      match AddStageMetrics(props, stages[0])
      case Failure(e) => Failure(e)
      case Success(m) =>
        match AllStageMetrics(props, stages[1..])
        case Failure(e) =>
          ghost var i :| 0 <= i < |stages[1..]| && AddStageMetrics(props, stages[1..][i]) == Failure(e)
                        && forall j :: 0 <= j < i ==> AddStageMetrics(props, stages[1..][j]).Success?;
          assert AddStageMetrics(props, stages[i + 1]) == Failure(e);
          assert forall j :: 1 <= j < i + 1 ==> stages[j] == stages[1..][j - 1];
          Failure(e)
        case Success(ms) => Success([m] + ms)
  }

  // ---------------------------------------------------------------------------
  // Executor metrics

  /** `x_startTime`, `x_stopTime`, `x_durationMilliseconds` and `x_coreCost`. */
  datatype ExecutorMetrics = ExecutorMetrics(startTime: int, stopTime: int, durationMs: int, coreCost: int)

  /** `add_custom_executor_metrics` against an attempt that started at `attemptStart`
      and ended at `attemptEnd`. A missing `addTime` or `removeTime` falls back to the
      attempt's bound; an executor still running in an attempt with no end time
      cannot be measured (TypeError). */
  function AddExecutorMetrics(attemptStart: int, attemptEnd: Option<int>, ex: Executor): (r: Result<ExecutorMetrics, PyError>)
    ensures r.Failure? <==> ex.removeTime.None? && attemptEnd.None?
    ensures r.Failure? ==> r.error == TypeError
    ensures r.Success? ==>
              && r.value.startTime == ex.addTime.GetOr(attemptStart)
              && (ex.removeTime.Some? ==> r.value.stopTime == ex.removeTime.value)
              && (ex.removeTime.None? ==> r.value.stopTime == attemptEnd.value)
              && r.value.startTime + r.value.durationMs == r.value.stopTime
              && r.value.coreCost == ex.totalCores * r.value.durationMs
  {
    var start := ex.addTime.GetOr(attemptStart);
    var stop := if ex.removeTime.Some? then ex.removeTime else attemptEnd;
    if stop.None? then Failure(TypeError)
    else
      var duration := stop.value - start;
      Success(ExecutorMetrics(start, stop.value, duration, ex.totalCores * duration))
  }

  function AllExecutorMetrics(attemptStart: int, attemptEnd: Option<int>, executors: seq<Executor>)
    : (r: Result<seq<ExecutorMetrics>, PyError>)
    ensures r.Failure? <==>
              exists i :: 0 <= i < |executors| && AddExecutorMetrics(attemptStart, attemptEnd, executors[i]).Failure?
    ensures r.Success? ==>
              && |r.value| == |executors|
              && forall i :: 0 <= i < |executors| ==>
                   AddExecutorMetrics(attemptStart, attemptEnd, executors[i]) == Success(r.value[i])
  {
    if |executors| == 0 then Success([])
    else
      match AddExecutorMetrics(attemptStart, attemptEnd, executors[0])
      case Failure(e) => Failure(e)
      case Success(m) =>
        match AllExecutorMetrics(attemptStart, attemptEnd, executors[1..])
        case Failure(e) =>
          ghost var i :| 0 <= i < |executors[1..]| && AddExecutorMetrics(attemptStart, attemptEnd, executors[1..][i]).Failure?;
          assert executors[i + 1] == executors[1..][i];
          Failure(e)
        case Success(ms) =>
          assert forall i :: 1 <= i < |executors| ==> executors[i] == executors[1..][i - 1];
          Success([m] + ms)
  }

  // ---------------------------------------------------------------------------
  // Frames

  /** The columns of the stage frame, by the field names they carry. */
  datatype StageField =
    | StageId | StageAttemptId | Status | SubmissionTime | FirstTaskLaunchedTime | CompletionTime
    | InputBytes | OutputBytes | InputRecords | ExecutorCpuTime
    | SchedulingOverhead | StageDuration | CpuTimeMs | ThroughputBytes | ThroughputRecords
  {
    function Key(): string {
      match this
      case StageId => "stageId"
      case StageAttemptId => "attemptId"
      case Status => "status"
      case SubmissionTime => "submissionTime"
      case FirstTaskLaunchedTime => "firstTaskLaunchedTime"
      case CompletionTime => "completionTime"
      case InputBytes => "inputBytes"
      case OutputBytes => "outputBytes"
      case InputRecords => "inputRecords"
      case ExecutorCpuTime => "executorCpuTime"
      case SchedulingOverhead => "x_scheduling_overhead"
      case StageDuration => "x_duration"
      case CpuTimeMs => "x_executorCpuTime_ms"
      case ThroughputBytes => "throughput_bytes"
      case ThroughputRecords => "throughput_records"
    }
  }

  /** The columns of the executor frame. */
  datatype ExecutorField =
    | Id | IsActive | AddTime | RemoveTime | TotalCores | MaxMemory | TotalInputBytes | TotalDuration
    | StartTime | StopTime | DurationMs | CoreCost
  {
    function Key(): string {
      match this
      case Id => "id"
      case IsActive => "isActive"
      case AddTime => "addTime"
      case RemoveTime => "removeTime"
      case TotalCores => "totalCores"
      case MaxMemory => "maxMemory"
      case TotalInputBytes => "totalInputBytes"
      case TotalDuration => "totalDuration"
      case StartTime => "x_startTime"
      case StopTime => "x_stopTime"
      case DurationMs => "x_durationMilliseconds"
      case CoreCost => "x_coreCost"
    }
  }

  /** A numeric column from one integer per row. */
  function Numbers(xs: seq<int>): (c: Column)
    ensures c.Length() == |xs|
  {
    Numeric(seq(|xs|, i requires 0 <= i < |xs| => Some(xs[i] as real)))
  }

  /** Some record carries the timestamp. */
  predicate AnyTime(times: seq<Option<int>>) {
    exists i :: 0 <= i < |times| && times[i].Some?
  }

  /** One timestamp field of every stage, in order. */
  function Submitted(stages: seq<Stage>): (ts: seq<Option<int>>)
    ensures |ts| == |stages| && forall i :: 0 <= i < |stages| ==> ts[i] == stages[i].submissionTime
  {
    seq(|stages|, i requires 0 <= i < |stages| => stages[i].submissionTime)
  }

  function Launched(stages: seq<Stage>): (ts: seq<Option<int>>)
    ensures |ts| == |stages| && forall i :: 0 <= i < |stages| ==> ts[i] == stages[i].firstTaskLaunchedTime
  {
    seq(|stages|, i requires 0 <= i < |stages| => stages[i].firstTaskLaunchedTime)
  }

  function Completed(stages: seq<Stage>): (ts: seq<Option<int>>)
    ensures |ts| == |stages| && forall i :: 0 <= i < |stages| ==> ts[i] == stages[i].completionTime
  {
    seq(|stages|, i requires 0 <= i < |stages| => stages[i].completionTime)
  }

  /** `json_normalize` of the stages after their metrics were added: a timestamp field
      becomes a column only when some stage carries it. */
  function StageFrame(stages: seq<Stage>, ms: seq<StageMetrics>): (f: Frame<StageField>)
    requires |ms| == |stages|
    ensures WellFormed(f)
    ensures f.rows == |stages|
    ensures |stages| > 0 ==>
              forall k :: k in f.columns <==>
                match k
                case SubmissionTime => AnyTime(Submitted(stages))
                case FirstTaskLaunchedTime => AnyTime(Launched(stages))
                case CompletionTime => AnyTime(Completed(stages))
                case _ => true
  {
    if |stages| == 0 then Frame(0, map[])
    else Frame(|stages|, map k: StageField | StageColumnPresent(stages, k) :: StageColumn(stages, ms, k))
  }

  /** Whether `json_normalize` yields the column: only the optional timestamps can be absent. */
  predicate StageColumnPresent(stages: seq<Stage>, k: StageField) {
    match k
    case SubmissionTime => AnyTime(Submitted(stages))
    case FirstTaskLaunchedTime => AnyTime(Launched(stages))
    case CompletionTime => AnyTime(Completed(stages))
    case _ => true
  }

  /** One column of the stage frame, one entry per stage. */
  function StageColumn(stages: seq<Stage>, ms: seq<StageMetrics>, k: StageField): (c: Column)
    requires |ms| == |stages|
    ensures c.Length() == |stages|
  {
    var n := |stages|;
    match k
    case StageId => Numbers(seq(n, i requires 0 <= i < n => stages[i].stageId))
    case StageAttemptId => Numbers(seq(n, i requires 0 <= i < n => stages[i].attemptId))
    case Status => Text(seq(n, i requires 0 <= i < n => stages[i].status))
    case SubmissionTime => Timestamp(Submitted(stages))
    case FirstTaskLaunchedTime => Timestamp(Launched(stages))
    case CompletionTime => Timestamp(Completed(stages))
    case InputBytes => Numbers(seq(n, i requires 0 <= i < n => stages[i].inputBytes))
    case OutputBytes => Numbers(seq(n, i requires 0 <= i < n => stages[i].outputBytes))
    case InputRecords => Numbers(seq(n, i requires 0 <= i < n => stages[i].inputRecords))
    case ExecutorCpuTime => Numbers(seq(n, i requires 0 <= i < n => stages[i].executorCpuTime))
    case SchedulingOverhead => Numeric(seq(n, i requires 0 <= i < n => Some(ms[i].schedulingOverhead)))
    case StageDuration => Numeric(seq(n, i requires 0 <= i < n => Some(ms[i].duration)))
    case CpuTimeMs => Numeric(seq(n, i requires 0 <= i < n => Some(ms[i].cpuTimeMs)))
    case ThroughputBytes => Numeric(seq(n, i requires 0 <= i < n => Some(ms[i].throughputBytes)))
    case ThroughputRecords => Numeric(seq(n, i requires 0 <= i < n => Some(ms[i].throughputRecords)))
  }

  function IsDriver(ex: Executor): bool { ex.id == DriverId }

  /** The executors other than the driver, with their metrics, in order. */
  function Workers(executors: seq<Executor>, ms: seq<ExecutorMetrics>): (r: seq<(Executor, ExecutorMetrics)>)
    requires |ms| == |executors|
    ensures |r| <= |executors|
    ensures forall p :: p in r ==> !IsDriver(p.0)
    ensures forall i :: 0 <= i < |executors| && !IsDriver(executors[i]) ==> (executors[i], ms[i]) in r
    ensures forall p :: p in r ==> exists i :: 0 <= i < |executors| && p == (executors[i], ms[i])
  {
    if |executors| == 0 then []
    else
      var rest := Workers(executors[1..], ms[1..]);
      assert forall i :: 1 <= i < |executors| ==> executors[i] == executors[1..][i - 1] && ms[i] == ms[1..][i - 1];
      assert forall p :: p in rest ==> exists i :: 1 <= i < |executors| && p == (executors[i], ms[i]) by {
        forall p | p in rest ensures exists i :: 1 <= i < |executors| && p == (executors[i], ms[i]) {
          var j :| 0 <= j < |executors[1..]| && p == (executors[1..][j], ms[1..][j]);
          assert p == (executors[j + 1], ms[j + 1]);
        }
      }
      if IsDriver(executors[0]) then rest else [(executors[0], ms[0])] + rest
  }

  /** `json_normalize` of all executors, then the driver's row dropped: the columns are
      those of the whole list, the rows those of the workers. */
  function ExecutorFrame(executors: seq<Executor>, ms: seq<ExecutorMetrics>): (f: Frame<ExecutorField>)
    requires |executors| > 0 && |ms| == |executors|
    ensures WellFormed(f)
    ensures f.rows == |Workers(executors, ms)|
    ensures forall k :: k in f.columns <==>
              match k
              case AddTime => exists i :: 0 <= i < |executors| && executors[i].addTime.Some?
              case RemoveTime => exists i :: 0 <= i < |executors| && executors[i].removeTime.Some?
              case _ => true
  {
    var w := Workers(executors, ms);
    var n := |w|;
    // a timestamp column exists when any executor, the driver included, carries the field
    var present := (k: ExecutorField) =>
      match k
      case AddTime => exists i :: 0 <= i < |executors| && executors[i].addTime.Some?
      case RemoveTime => exists i :: 0 <= i < |executors| && executors[i].removeTime.Some?
      case _ => true;
    var column := (k: ExecutorField) =>
      match k
      case Id => Text(seq(n, i requires 0 <= i < n => w[i].0.id))
      case IsActive => Boolean(seq(n, i requires 0 <= i < n => w[i].0.isActive))
      case AddTime => Timestamp(seq(n, i requires 0 <= i < n => w[i].0.addTime))
      case RemoveTime => Timestamp(seq(n, i requires 0 <= i < n => w[i].0.removeTime))
      case TotalCores => Numbers(seq(n, i requires 0 <= i < n => w[i].0.totalCores))
      case MaxMemory => Numbers(seq(n, i requires 0 <= i < n => w[i].0.maxMemory))
      case TotalInputBytes => Numbers(seq(n, i requires 0 <= i < n => w[i].0.totalInputBytes))
      case TotalDuration => Numbers(seq(n, i requires 0 <= i < n => w[i].0.totalDuration))
      case StartTime => Timestamp(seq(n, i requires 0 <= i < n => Some(w[i].1.startTime)))
      case StopTime => Timestamp(seq(n, i requires 0 <= i < n => Some(w[i].1.stopTime)))
      case DurationMs => Numbers(seq(n, i requires 0 <= i < n => w[i].1.durationMs))
      case CoreCost => Numbers(seq(n, i requires 0 <= i < n => w[i].1.coreCost));
    Frame(n, map k: ExecutorField | present(k) :: column(k))
  }

  /** The driver entry reported next to the aggregation: the last executor named
      `driver`, with its metrics. */
  function LastDriver(executors: seq<Executor>, ms: seq<ExecutorMetrics>): (r: Option<(Executor, ExecutorMetrics)>)
    requires |ms| == |executors|
    ensures r.None? <==> forall i :: 0 <= i < |executors| ==> !IsDriver(executors[i])
    ensures r.Some? ==> exists i :: 0 <= i < |executors| && IsDriver(executors[i]) && r.value == (executors[i], ms[i])
                                    && forall j :: i < j < |executors| ==> !IsDriver(executors[j])
  {
    if |executors| == 0 then None
    else
      var n := |executors| - 1;
      if IsDriver(executors[n]) then Some((executors[n], ms[n]))
      else
        var r := LastDriver(executors[..n], ms[..n]);
        assert forall i :: 0 <= i < n ==> executors[..n][i] == executors[i] && ms[..n][i] == ms[i];
        r
  }

  /** `{'driver': ..., 'executors': ...}` of `flatten_executors`. */
  datatype ExecutorsAggregation = ExecutorsAggregation(driver: Option<(Executor, ExecutorMetrics)>, executors: Aggregation<ExecutorField>)

  /** `flatten_executors`: metrics for every executor, then the aggregation of the
      workers. An attempt without executors has no `id` column to filter on (KeyError). */
  function FlattenExecutors(attemptStart: int, attemptEnd: Option<int>, executors: seq<Executor>)
    : (r: Result<ExecutorsAggregation, PyError>)
    ensures |executors| == 0 ==> r == Failure(KeyError("id"))
    ensures r.Success? ==>
              var ms := AllExecutorMetrics(attemptStart, attemptEnd, executors);
              && ms.Success?
              && r.value.driver == LastDriver(executors, ms.value)
              && r.value.executors.elementsCount == |Workers(executors, ms.value)|
              && r.value.executors == AggregateByColType(ExecutorFrame(executors, ms.value))
    ensures r.Success? <==> |executors| > 0 && AllExecutorMetrics(attemptStart, attemptEnd, executors).Success?
  {
    var ms :- AllExecutorMetrics(attemptStart, attemptEnd, executors);
    if |executors| == 0 then Failure(KeyError("id"))
    else
      Success(ExecutorsAggregation(LastDriver(executors, ms), AggregateByColType(ExecutorFrame(executors, ms))))
  }

  /** `flatten_stages`: metrics for every stage, then the aggregation of all stages. */
  function FlattenStages(props: map<string, Value>, stages: seq<Stage>): (r: Result<Aggregation<StageField>, PyError>)
    ensures r.Success? ==>
              var ms := AllStageMetrics(props, stages);
              && ms.Success?
              && r.value == AggregateByColType(StageFrame(stages, ms.value))
              && r.value.elementsCount == |stages|
    ensures r.Success? <==> AllStageMetrics(props, stages).Success?
  {
    var ms :- AllStageMetrics(props, stages);
    Success(AggregateByColType(StageFrame(stages, ms)))
  }
}

=== FILE: parallelism.dfy ===
/** The "parallel part" of an attempt: the merged length of the running intervals
    `[firstTaskLaunchedTime, completionTime)` of its complete stages, and whether two
    of them overlapped. Times are integer milliseconds. */
module Parallelism {
  import opened Wrappers
  import opened Records

  /** A half-open running interval `[start, end)`. */
  datatype Interval = Interval(start: int, end: int)

  /** The outcome of the merge: covered length and the overlap flag. */
  datatype Parallelism = Parallelism(total: int, overlap: bool)

  function IntervalOf(st: Stage): Interval
    requires st.IsComplete()
  {
    Interval(st.firstTaskLaunchedTime.value, st.completionTime.value)
  }

  /** The intervals of the complete stages, in input order; incomplete stages are dropped. */
  function Intervals(stages: seq<Stage>): (r: seq<Interval>)
    ensures |r| <= |stages|
    ensures forall iv :: iv in r <==> exists st :: st in stages && st.IsComplete() && IntervalOf(st) == iv
  {
    if |stages| == 0 then []
    else
      var rest := Intervals(stages[1..]);
      assert forall st :: st in stages <==> st == stages[0] || st in stages[1..];
      if stages[0].IsComplete() then [IntervalOf(stages[0])] + rest else rest
  }

  /** Every complete stage finished no earlier than its first task started. */
  predicate WellTimed(stages: seq<Stage>) {
    forall st :: st in stages && st.IsComplete() ==> st.firstTaskLaunchedTime.value <= st.completionTime.value
  }

  predicate WellFormed(ivs: seq<Interval>) {
    forall iv :: iv in ivs ==> iv.start <= iv.end
  }

  predicate SortedByStart(ivs: seq<Interval>) {
    forall i, j :: 0 <= i < j < |ivs| ==> ivs[i].start <= ivs[j].start
  }

  // ---------------------------------------------------------------------------
  // Sorting by start (Python's `sorted` is stable; so is this insertion)

  /** Places `x` after every element whose start is not greater than its own. */
  function InsertByStart(s: seq<Interval>, x: Interval): (r: seq<Interval>)
    requires SortedByStart(s)
    ensures SortedByStart(r)
    ensures multiset(r) == multiset(s) + multiset{x}
    ensures forall y :: y in r ==> y in s || y == x
    ensures |r| == |s| + 1
  {
    if |s| == 0 then [x]
    else
      var n := |s| - 1;
      if s[n].start <= x.start then s + [x]
      else
        var front := InsertByStart(s[..n], x);
        assert s == s[..n] + [s[n]];
        InsertedBelow(s, x, front);
        front + [s[n]]
  }

  /** Appending the last element of `s` keeps the insertion into the rest sorted. */
  lemma InsertedBelow(s: seq<Interval>, x: Interval, front: seq<Interval>)
    requires |s| > 0 && SortedByStart(s) && x.start < s[|s| - 1].start
    requires SortedByStart(front)
    requires forall y :: y in front ==> y in s[..|s| - 1] || y == x
    ensures SortedByStart(front + [s[|s| - 1]])
  {
    var n := |s| - 1;
    forall i | 0 <= i < |front| ensures front[i].start <= s[n].start {
      assert front[i] in front;
      if front[i] != x {
        var k :| 0 <= k < n && s[..n][k] == front[i];
        assert s[k] == front[i];
      }
    }
  }

  /** Sorted by start, a permutation of the input, and stable: the intervals sharing a
      start keep their input order. */
  function SortByStart(ivs: seq<Interval>): (r: seq<Interval>)
    ensures SortedByStart(r)
    ensures multiset(r) == multiset(ivs)
    ensures |r| == |ivs|
    ensures forall t :: WithStart(r, t) == WithStart(ivs, t)
  {
    if |ivs| == 0 then []
    else
      var n := |ivs| - 1;
      assert ivs == ivs[..n] + [ivs[n]];
      var sorted := SortByStart(ivs[..n]);
      forall t ensures WithStart(InsertByStart(sorted, ivs[n]), t) == WithStart(ivs, t) {
        InsertKeepsTies(sorted, ivs[n], t);
        WithStartAppend(ivs[..n], ivs[n], t);
      }
      InsertByStart(sorted, ivs[n])
  }

  /** The intervals starting at `t`, in order. */
  function WithStart(s: seq<Interval>, t: int): seq<Interval> {
    if |s| == 0 then []
    else
      var n := |s| - 1;
      WithStart(s[..n], t) + (if s[n].start == t then [s[n]] else [])
  }

  lemma WithStartAppend(s: seq<Interval>, x: Interval, t: int)
    ensures WithStart(s + [x], t) == WithStart(s, t) + (if x.start == t then [x] else [])
  {
    assert (s + [x])[..|s|] == s;
  }

  /** Inserting `x` puts it after every interval with its start: among the intervals
      starting at `t`, it comes last. */
  lemma {:induction false} InsertKeepsTies(s: seq<Interval>, x: Interval, t: int)
    requires SortedByStart(s)
    ensures WithStart(InsertByStart(s, x), t) == WithStart(s, t) + (if x.start == t then [x] else [])
    decreases |s|
  {
    if |s| == 0 {
      assert WithStart([x], t) == WithStart([], t) + (if x.start == t then [x] else []) by {
        WithStartAppend([], x, t);
      }
    } else {
      var n := |s| - 1;
      if s[n].start <= x.start {
        WithStartAppend(s, x, t);
      } else {
        var front := InsertByStart(s[..n], x);
        assert s == s[..n] + [s[n]];
        assert InsertByStart(s, x) == front + [s[n]];
        InsertKeepsTies(s[..n], x, t);
        WithStartAppend(front, s[n], t);
        WithStartAppend(s[..n], s[n], t);
      }
    }
  }

  // ---------------------------------------------------------------------------
  // The merge

  function Min(a: int, b: int): int { if a <= b then a else b }
  function Max(a: int, b: int): int { if a >= b then a else b }

  /** The sweep over the sorted intervals with the running cursor `cur`: an interval
      starting strictly before the cursor's end is merged into it and raises the
      flag; otherwise the cursor's length is added and the interval becomes the
      cursor. The last cursor is added at the end. */
  function Sweep(cur: Interval, rest: seq<Interval>): Parallelism
    decreases |rest|
  {
    if |rest| == 0 then Parallelism(cur.end - cur.start, false)
    else
      var s := rest[0];
      if s.start < cur.end then
        var r := Sweep(Interval(Min(cur.start, s.start), Max(cur.end, s.end)), rest[1..]);
        Parallelism(r.total, true)
      else
        var r := Sweep(s, rest[1..]);
        Parallelism(cur.end - cur.start + r.total, r.overlap)
  }

  /** `calculate_parallelism`: merge the complete stages' intervals in start order;
      `(0, false)` when no stage is complete. */
  function CalculateParallelism(stages: seq<Stage>): (r: Parallelism)
    ensures Intervals(stages) == [] ==> r == Parallelism(0, false)
  {
    var s := SortByStart(Intervals(stages));
    if |s| == 0 then Parallelism(0, false) else Sweep(s[0], s[1..])
  }

  // ---------------------------------------------------------------------------
  // The reference: the number of milliseconds during which some stage runs

  ghost predicate Covered(ivs: seq<Interval>, t: int) {
    exists iv :: iv in ivs && iv.start <= t < iv.end
  }

  /** The instants of `[lo, hi)` covered by some interval of `ivs`. */
  ghost function CountCovered(ivs: seq<Interval>, lo: int, hi: int): nat
    decreases hi - lo
  {
    if lo >= hi then 0 else (if Covered(ivs, lo) then 1 else 0) + CountCovered(ivs, lo + 1, hi)
  }

  /** The busy time of an attempt inside `[lo, hi)`: the milliseconds in which at least
      one complete stage is running. */
  ghost function BusyTime(stages: seq<Stage>, lo: int, hi: int): nat {
    CountCovered(Intervals(stages), lo, hi)
  }

  lemma {:induction false} CountSplit(ivs: seq<Interval>, lo: int, mid: int, hi: int)
    requires lo <= mid <= hi
    ensures CountCovered(ivs, lo, hi) == CountCovered(ivs, lo, mid) + CountCovered(ivs, mid, hi)
    decreases mid - lo
  {
    if lo < mid {
      CountSplit(ivs, lo + 1, mid, hi);
    }
  }

  lemma {:induction false} CountExt(a: seq<Interval>, b: seq<Interval>, lo: int, hi: int)
    requires forall t :: lo <= t < hi ==> Covered(a, t) == Covered(b, t)
    ensures CountCovered(a, lo, hi) == CountCovered(b, lo, hi)
    decreases hi - lo
  {
    if lo < hi {
      CountExt(a, b, lo + 1, hi);
    }
  }

  lemma {:induction false} CountAll(ivs: seq<Interval>, lo: int, hi: int)
    requires lo <= hi
    requires forall t :: lo <= t < hi ==> Covered(ivs, t)
    ensures CountCovered(ivs, lo, hi) == hi - lo
    decreases hi - lo
  {
    if lo < hi {
      CountAll(ivs, lo + 1, hi);
    }
  }

  lemma {:induction false} CountNone(ivs: seq<Interval>, lo: int, hi: int)
    requires forall t :: lo <= t < hi ==> !Covered(ivs, t)
    ensures CountCovered(ivs, lo, hi) == 0
    decreases hi - lo
  {
    if lo < hi {
      CountNone(ivs, lo + 1, hi);
    }
  }

  /** Merging an interval that starts inside the cursor covers the same instants. */
  lemma MergeCoversSame(cur: Interval, s: Interval, rest: seq<Interval>)
    requires cur.start <= s.start < cur.end
    requires s.start <= s.end
    ensures forall t :: Covered([cur] + ([s] + rest), t) == Covered([Interval(Min(cur.start, s.start), Max(cur.end, s.end))] + rest, t)
  {
    var m := Interval(Min(cur.start, s.start), Max(cur.end, s.end));
    forall t
      ensures Covered([cur] + ([s] + rest), t) == Covered([m] + rest, t)
    {
      if Covered([cur] + ([s] + rest), t) {
        var iv :| iv in [cur] + ([s] + rest) && iv.start <= t < iv.end;
        if iv == cur || iv == s {
          assert m in [m] + rest;
        } else {
          assert iv in [m] + rest;
        }
      }
      if Covered([m] + rest, t) {
        var iv :| iv in [m] + rest && iv.start <= t < iv.end;
        if iv == m {
          if t < cur.end {
            assert cur in [cur] + ([s] + rest);
          } else {
            assert s in [cur] + ([s] + rest);
          }
        } else {
          assert iv in [cur] + ([s] + rest);
        }
      }
    }
  }

  /** The sweep from cursor `cur` counts exactly the instants from `cur.start` up to
      any bound `hi` covered by the cursor or by the remaining intervals. */
  lemma {:induction false} SweepCounts(cur: Interval, rest: seq<Interval>, hi: int)
    requires cur.start <= cur.end <= hi
    requires WellFormed(rest) && SortedByStart(rest)
    requires forall iv :: iv in rest ==> cur.start <= iv.start && iv.end <= hi
    ensures Sweep(cur, rest).total == CountCovered([cur] + rest, cur.start, hi)
    decreases |rest|
  {
    if |rest| == 0 {
      assert [cur] + rest == [cur];
      CountSplit([cur], cur.start, cur.end, hi);
      forall t | cur.start <= t < cur.end ensures Covered([cur], t) {
        assert cur in [cur];
      }
      CountAll([cur], cur.start, cur.end);
      CountNone([cur], cur.end, hi);
    } else {
      var s, rest1 := rest[0], rest[1..];
      SortedTail(rest);
      assert s in rest;
      if s.start < cur.end {
        var m := Interval(Min(cur.start, s.start), Max(cur.end, s.end));
        SweepCounts(m, rest1, hi);
        MergeCoversSame(cur, s, rest1);
        CountExt([cur] + rest, [m] + rest1, cur.start, hi);
      } else {
        SweepCounts(s, rest1, hi);
        FlushCounts(cur, s, rest1, hi);
      }
    }
  }

  /** The facts about the tail of a sorted, well-formed sequence the sweep needs. */
  lemma SortedTail(rest: seq<Interval>)
    requires |rest| > 0 && WellFormed(rest) && SortedByStart(rest)
    ensures rest == [rest[0]] + rest[1..]
    ensures WellFormed(rest[1..]) && SortedByStart(rest[1..])
    ensures forall iv :: iv in rest[1..] ==> iv in rest && rest[0].start <= iv.start
  {
    assert rest == [rest[0]] + rest[1..];
    forall iv | iv in rest[1..] ensures iv in rest && rest[0].start <= iv.start {
      var j :| 0 <= j < |rest[1..]| && rest[1..][j] == iv;
      assert rest[j + 1] == iv;
    }
  }

  /** When the next interval starts at or after the cursor's end, the instants counted
      from the cursor's start are the cursor's length plus those counted from the next
      interval's start. */
  lemma FlushCounts(cur: Interval, s: Interval, rest1: seq<Interval>, hi: int)
    requires cur.start <= cur.end <= s.start <= hi
    requires forall iv :: iv in rest1 ==> s.start <= iv.start
    ensures CountCovered([cur] + ([s] + rest1), cur.start, hi)
            == (cur.end - cur.start) + CountCovered([s] + rest1, s.start, hi)
  {
    var all := [cur] + ([s] + rest1);
    CountSplit(all, cur.start, cur.end, hi);
    CountSplit(all, cur.end, s.start, hi);
    forall t | cur.start <= t < cur.end ensures Covered(all, t) {
      assert cur in all;
    }
    CountAll(all, cur.start, cur.end);
    forall t | cur.end <= t < s.start ensures !Covered(all, t) { }
    CountNone(all, cur.end, s.start);
    forall t | s.start <= t < hi ensures Covered(all, t) == Covered([s] + rest1, t) {
      if Covered(all, t) {
        var iv :| iv in all && iv.start <= t < iv.end;
        assert iv in [s] + rest1;
      }
      if Covered([s] + rest1, t) {
        var iv :| iv in [s] + rest1 && iv.start <= t < iv.end;
        assert iv in all;
      }
    }
    CountExt(all, [s] + rest1, s.start, hi);
  }

  /** Sequences with the same elements cover the same instants. */
  lemma SameElementsSameCount(a: seq<Interval>, b: seq<Interval>, lo: int, hi: int)
    requires forall iv :: iv in a <==> iv in b
    ensures CountCovered(a, lo, hi) == CountCovered(b, lo, hi)
  {
    forall t | lo <= t < hi ensures Covered(a, t) == Covered(b, t) {
      if Covered(a, t) {
        var iv :| iv in a && iv.start <= t < iv.end;
        assert iv in b;
      }
      if Covered(b, t) {
        var iv :| iv in b && iv.start <= t < iv.end;
        assert iv in a;
      }
    }
    CountExt(a, b, lo, hi);
  }

  /** The parallel part is the attempt's busy time: the length of the union of the
      complete stages' running intervals, measured over any window holding them all. */
  lemma ParallelPartIsBusyTime(stages: seq<Stage>, lo: int, hi: int)
    requires WellTimed(stages)
    requires forall st :: st in stages && st.IsComplete() ==>
               lo <= st.firstTaskLaunchedTime.value && st.completionTime.value <= hi
    ensures CalculateParallelism(stages).total == BusyTime(stages, lo, hi)
  {
    var ivs := Intervals(stages);
    var s := SortByStart(ivs);
    SortKeepsElements(ivs);
    SameElementsSameCount(s, ivs, lo, hi);
    if |s| == 0 {
      CountNone(s, lo, hi);
    } else {
      SweepCountsFrom(s, lo, hi);
    }
  }

  lemma SortKeepsElements(ivs: seq<Interval>)
    ensures forall iv :: iv in SortByStart(ivs) <==> iv in ivs
  {
    var s := SortByStart(ivs);
    forall iv ensures iv in s <==> iv in ivs {
      assert iv in s <==> iv in multiset(s);
      assert iv in ivs <==> iv in multiset(ivs);
    }
  }

  /** The sweep over a whole sorted sequence counts the instants of any window holding it. */
  lemma SweepCountsFrom(s: seq<Interval>, lo: int, hi: int)
    requires |s| > 0 && WellFormed(s) && SortedByStart(s)
    requires forall iv :: iv in s ==> lo <= iv.start && iv.end <= hi
    ensures Sweep(s[0], s[1..]).total == CountCovered(s, lo, hi)
  {
    SortedTail(s);
    assert s[0] in s;
    SweepCounts(s[0], s[1..], hi);
    CountSplit(s, lo, s[0].start, hi);
    forall t | lo <= t < s[0].start ensures !Covered(s, t) { }
    CountNone(s, lo, s[0].start);
  }

  // ---------------------------------------------------------------------------
  // The sum of the stage durations, and the overlap flag

  function Duration(iv: Interval): int { iv.end - iv.start }

  /** The sum of the individual durations, which counts overlapping time repeatedly. */
  function SumDurations(ivs: seq<Interval>): int {
    if |ivs| == 0 then 0 else Duration(ivs[0]) + SumDurations(ivs[1..])
  }

  lemma {:induction false} SumDurationsAppend(a: seq<Interval>, b: seq<Interval>)
    ensures SumDurations(a + b) == SumDurations(a) + SumDurations(b)
  {
    if |a| > 0 {
      assert (a + b)[1..] == a[1..] + b;
      SumDurationsAppend(a[1..], b);
    } else {
      assert a + b == b;
    }
  }

  lemma {:induction false} SumDurationsInsert(s: seq<Interval>, x: Interval)
    requires SortedByStart(s)
    ensures SumDurations(InsertByStart(s, x)) == SumDurations(s) + Duration(x)
  {
    if |s| > 0 {
      var n := |s| - 1;
      assert s == s[..n] + [s[n]];
      SumDurationsAppend(s[..n], [s[n]]);
      if s[n].start <= x.start {
        SumDurationsAppend(s, [x]);
      } else {
        SumDurationsInsert(s[..n], x);
        SumDurationsAppend(InsertByStart(s[..n], x), [s[n]]);
      }
    }
  }

  /** Sorting does not change the sum of the durations. */
  lemma {:induction false} SumDurationsSort(ivs: seq<Interval>)
    ensures SumDurations(SortByStart(ivs)) == SumDurations(ivs)
  {
    if |ivs| > 0 {
      var n := |ivs| - 1;
      assert ivs == ivs[..n] + [ivs[n]];
      SumDurationsSort(ivs[..n]);
      SumDurationsInsert(SortByStart(ivs[..n]), ivs[n]);
      SumDurationsAppend(ivs[..n], [ivs[n]]);
    }
  }

  /** Merging never counts more than the cursor plus the remaining durations. */
  lemma {:induction false} SweepAtMostSum(cur: Interval, rest: seq<Interval>)
    requires cur.start <= cur.end
    requires WellFormed(rest) && SortedByStart(rest)
    requires forall iv :: iv in rest ==> cur.start <= iv.start
    ensures Sweep(cur, rest).total <= Duration(cur) + SumDurations(rest)
    decreases |rest|
  {
    if |rest| > 0 {
      var s := rest[0];
      SortedTail(rest);
      assert s in rest;
      if s.start < cur.end {
        SweepAtMostSum(Interval(Min(cur.start, s.start), Max(cur.end, s.end)), rest[1..]);
      } else {
        SweepAtMostSum(s, rest[1..]);
      }
    }
  }

  /** Without a merge the sweep adds up every duration. */
  lemma {:induction false} SweepWithoutOverlap(cur: Interval, rest: seq<Interval>)
    requires !Sweep(cur, rest).overlap
    ensures Sweep(cur, rest).total == Duration(cur) + SumDurations(rest)
    decreases |rest|
  {
    if |rest| > 0 {
      SweepWithoutOverlap(rest[0], rest[1..]);
    }
  }

  /** Some interval starts strictly before its predecessor (or the cursor) ends. */
  predicate StartsInsidePrevious(cur: Interval, rest: seq<Interval>) {
    exists i :: 0 <= i < |rest| && rest[i].start < ([cur] + rest)[i].end
  }

  /** The sweep raises the flag exactly when some interval starts strictly before its
      predecessor in the sorted order ends: until the first merge the cursor is the
      predecessor itself. */
  lemma {:induction false} SweepOverlapIff(cur: Interval, rest: seq<Interval>)
    ensures Sweep(cur, rest).overlap <==> StartsInsidePrevious(cur, rest)
    decreases |rest|
  {
    if |rest| > 0 {
      var s, rest1 := rest[0], rest[1..];
      assert ([cur] + rest)[0] == cur;
      if s.start >= cur.end {
        SweepOverlapIff(s, rest1);
        if StartsInsidePrevious(s, rest1) {
          var i :| 0 <= i < |rest1| && rest1[i].start < ([s] + rest1)[i].end;
          assert rest[i + 1] == rest1[i] && ([cur] + rest)[i + 1] == ([s] + rest1)[i];
        }
        if StartsInsidePrevious(cur, rest) {
          var i :| 0 <= i < |rest| && rest[i].start < ([cur] + rest)[i].end;
          assert i > 0;
          assert rest1[i - 1] == rest[i] && ([s] + rest1)[i - 1] == ([cur] + rest)[i];
        }
      }
    }
  }

  /** The parallel part never exceeds the sum of the complete stages' durations. */
  lemma ParallelPartAtMostStageSum(stages: seq<Stage>)
    requires WellTimed(stages)
    ensures CalculateParallelism(stages).total <= SumDurations(Intervals(stages))
  {
    var ivs := Intervals(stages);
    var s := SortByStart(ivs);
    SumDurationsSort(ivs);
    if |s| > 0 {
      SortKeepsElements(ivs);
      SortedTail(s);
      SweepAtMostSum(s[0], s[1..]);
    }
  }

  /** When no stage starts before the previous one ends, the parallel part is the sum
      of the complete stages' durations. */
  lemma NoOverlapMeansSum(stages: seq<Stage>)
    requires !CalculateParallelism(stages).overlap
    ensures CalculateParallelism(stages).total == SumDurations(Intervals(stages))
  {
    var ivs := Intervals(stages);
    var s := SortByStart(ivs);
    SumDurationsSort(ivs);
    if |s| > 0 {
      assert s == [s[0]] + s[1..];
      SweepWithoutOverlap(s[0], s[1..]);
    }
  }

  /** The overlap flag is set exactly when, in start order, some complete stage starts
      strictly before the previous one completes; touching intervals do not count. */
  lemma OverlapFlagIff(stages: seq<Stage>)
    ensures var s := SortByStart(Intervals(stages));
            CalculateParallelism(stages).overlap <==> StartsBeforePreviousEnds(s)
  {
    var s := SortByStart(Intervals(stages));
    if |s| > 0 {
      SweepFlagIff(s);
    }
  }

  predicate StartsBeforePreviousEnds(s: seq<Interval>) {
    exists i :: 1 <= i < |s| && s[i].start < s[i - 1].end
  }

  lemma SweepFlagIff(s: seq<Interval>)
    requires |s| > 0
    ensures Sweep(s[0], s[1..]).overlap <==> StartsBeforePreviousEnds(s)
  {
    SweepOverlapIff(s[0], s[1..]);
    assert s == [s[0]] + s[1..];
    if StartsInsidePrevious(s[0], s[1..]) {
      var i :| 0 <= i < |s[1..]| && s[1..][i].start < ([s[0]] + s[1..])[i].end;
      assert s[i + 1].start < s[i].end;
    }
    if StartsBeforePreviousEnds(s) {
      var i :| 1 <= i < |s| && s[i].start < s[i - 1].end;
      assert s[1..][i - 1].start < ([s[0]] + s[1..])[i - 1].end;
    }
  }

  /** Lower and upper ends of a window holding every interval. */
  function LowBound(ivs: seq<Interval>): (lo: int)
    ensures forall iv :: iv in ivs ==> lo <= iv.start
  {
    if |ivs| == 0 then 0
    else
      assert forall iv :: iv in ivs ==> iv == ivs[0] || iv in ivs[1..];
      Min(ivs[0].start, LowBound(ivs[1..]))
  }

  function HighBound(ivs: seq<Interval>): (hi: int)
    ensures forall iv :: iv in ivs ==> iv.end <= hi
  {
    if |ivs| == 0 then 0
    else
      assert forall iv :: iv in ivs ==> iv == ivs[0] || iv in ivs[1..];
      Max(ivs[0].end, HighBound(ivs[1..]))
  }

  /** Reordering the stages does not change the parallel part. */
  lemma ParallelPartOrderIndependent(a: seq<Stage>, b: seq<Stage>)
    requires multiset(a) == multiset(b)
    requires WellTimed(a)
    ensures CalculateParallelism(a).total == CalculateParallelism(b).total
  {
    assert forall st :: st in a <==> st in b by {
      forall st ensures st in a <==> st in b {
        assert st in a <==> st in multiset(a);
        assert st in b <==> st in multiset(b);
      }
    }
    var ivs := Intervals(a);
    assert forall iv :: iv in ivs <==> iv in Intervals(b);
    var lo, hi := LowBound(ivs), HighBound(ivs);
    forall st | st in a && st.IsComplete()
      ensures lo <= st.firstTaskLaunchedTime.value && st.completionTime.value <= hi
    {
      assert IntervalOf(st) in ivs;
    }
    ParallelPartIsBusyTime(a, lo, hi);
    ParallelPartIsBusyTime(b, lo, hi);
    SameElementsSameCount(ivs, Intervals(b), lo, hi);
  }

  // ---------------------------------------------------------------------------
  // Worked examples

  /** A complete stage that ran over `[first, completion)`; its other fields do not matter. */
  function RanOver(first: int, completion: int): (st: Stage)
    ensures st.IsComplete() && IntervalOf(st) == Interval(first, completion)
  {
    Stage(0, 0, "COMPLETE", Some(first), Some(first), Some(completion), 0, 0, 0, 0)
  }

  /** `[0, 100)`, `[50, 150)` and `[200, 250)` merge into 200 ms with an overlap. */
  lemma MergeExample()
    ensures CalculateParallelism([RanOver(0, 100), RanOver(50, 150), RanOver(200, 250)])
            == Parallelism(200, true)
  {
    var stages := [RanOver(0, 100), RanOver(50, 150), RanOver(200, 250)];
    var ivs := [Interval(0, 100), Interval(50, 150), Interval(200, 250)];
    assert stages[1..][1..] == [RanOver(200, 250)];
    assert Intervals(stages) == ivs;
    assert ivs[..2] == [Interval(0, 100), Interval(50, 150)];
    assert ivs[..2][..1] == [Interval(0, 100)];
    assert SortByStart(ivs) == ivs;
    assert Sweep(ivs[0], ivs[1..]) == Parallelism(200, true);
  }

  /** Stages that merely touch are not overlapping. */
  lemma TouchingExample()
    ensures CalculateParallelism([RanOver(100, 200), RanOver(0, 100)]) == Parallelism(200, false)
  {
  }

  /** A stage recorded as completing before its first task launched counts with a
      negative length, so the parallel part then differs from the busy time. */
  lemma InvertedStageExample()
    ensures CalculateParallelism([RanOver(100, 50)]) == Parallelism(-50, false)
    ensures BusyTime([RanOver(100, 50)], 0, 200) == 0
  {
    var ivs := Intervals([RanOver(100, 50)]);
    assert ivs == [Interval(100, 50)];
    NothingCovered(ivs, 0, 200);
  }

  lemma {:induction false} NothingCovered(ivs: seq<Interval>, lo: int, hi: int)
    requires forall iv :: iv in ivs ==> iv.end <= iv.start
    ensures CountCovered(ivs, lo, hi) == 0
    decreases hi - lo
  {
    if lo < hi {
      NothingCovered(ivs, lo + 1, hi);
    }
  }

  /** The flag, unlike the total, can depend on the input order: a zero-length stage
      sharing its start with a longer one raises it only when listed second. */
  lemma FlagDependsOnTieOrder()
    ensures CalculateParallelism([RanOver(0, 0), RanOver(0, 10)]) == Parallelism(10, false)
    ensures CalculateParallelism([RanOver(0, 10), RanOver(0, 0)]) == Parallelism(10, true)
  {
  }
}

=== FILE: records.dfy ===
/** The nested run record as the history server and the enrichment service deliver
    it, after the aggregator's date casting: times are integer milliseconds. */
module Records {
  import opened Wrappers
  import opened Commons
  import opened Classification

  /** A scheduling unit inside an attempt. A pending or running stage lacks
      `firstTaskLaunchedTime` and/or `completionTime`. */
  datatype Stage = Stage(
    stageId: int,
    attemptId: int,
    status: string,
    submissionTime: Option<int>,
    firstTaskLaunchedTime: Option<int>,
    completionTime: Option<int>,
    inputBytes: int,
    outputBytes: int,
    inputRecords: int,
    executorCpuTime: int)
  {
    /** Both timing fields the interval arithmetic needs are present. */
    predicate IsComplete() {
      firstTaskLaunchedTime.Some? && completionTime.Some?
    }
  }

  /** A worker process, or the driver when `id == "driver"`. */
  datatype Executor = Executor(
    id: string,
    isActive: bool,
    addTime: Option<int>,
    removeTime: Option<int>,
    totalCores: int,
    maxMemory: int,
    totalInputBytes: int,
    totalDuration: int)

  const DriverId: string := "driver"

  /** The enrichment service's record of one Enceladus run. */
  datatype Checkpoint = Checkpoint(name: string, order: int)

  datatype Metadata = Metadata(version: Value, informationDate: string, additionalInfo: map<string, Value>)

  datatype ControlMeasure = ControlMeasure(metadata: Metadata, checkpoints: Option<seq<Checkpoint>>)

  datatype Run = Run(uniqueId: string, dataset: Value, datasetVersion: Value, controlMeasure: ControlMeasure)

  /** One execution of an application, with the detail the aggregator attaches.
      `enceladusRun` is the attempt's `app_specific_data`: absent (`None`), or
      present holding a run or `None`. */
  datatype Attempt = Attempt(
    attemptId: Option<string>,
    startTime: int,
    endTime: Option<int>,
    duration: int,
    completed: bool,
    executors: seq<Executor>,
    stages: seq<Stage>,
    sparkProperties: map<string, Value>,
    enceladusRun: Option<Option<Run>>)

  /** The application-level `app_specific_data` added by the enrichment plugin. */
  datatype AppSpecificData = AppSpecificData(classification: Classification, tag: string)

  /** One submitted application with its attempts, newest first. */
  datatype App = App(id: string, name: string, attempts: seq<Attempt>, appSpecific: Option<AppSpecificData>)
}

=== FILE: strings.dfy ===
/** Python string primitives the core relies on (`isdigit`, `int`, `str`, `split`,
    `join`, `startswith`, `replace`, `strip`, `upper`), defined once over `seq<char>`. */
module Strings {

  predicate IsDigit(c: char) {
    '0' <= c <= '9'
  }

  /** `s.isdigit()`: true for a non-empty string of decimal digits only. */
  predicate IsDigits(s: string) {
    |s| > 0 && forall i :: 0 <= i < |s| ==> IsDigit(s[i])
  }

  function DigitValue(c: char): nat
    requires IsDigit(c)
  {
    (c as int - '0' as int) as nat
  }

  /** `int(s)` for a string of decimal digits (leading zeros allowed). */
  function DigitsValue(s: string): nat
    requires forall i :: 0 <= i < |s| ==> IsDigit(s[i])
  {
    if |s| == 0 then 0 else DigitsValue(s[..|s| - 1]) * 10 + DigitValue(s[|s| - 1])
  }

  function DigitChar(d: nat): (c: char)
    requires d < 10
    ensures IsDigit(c) && DigitValue(c) == d
  {
    ('0' as int + d) as char
  }

  /** `str(n)` for a natural number: its decimal digits, without leading zeros. */
  function NatToString(n: nat): (s: string)
    ensures IsDigits(s)
    ensures DigitsValue(s) == n
    ensures |s| > 1 ==> s[0] != '0'
  {
    if n < 10 then [DigitChar(n)]
    else
      var prefix := NatToString(n / 10);
      assert (prefix + [DigitChar(n % 10)])[..|prefix|] == prefix;
      prefix + [DigitChar(n % 10)]
  }

  /** `str(i)` for an integer: a minus sign before the digits of a negative number. */
  function IntToString(i: int): (s: string)
    ensures |s| > 0
    ensures i >= 0 ==> s == NatToString(i)
    ensures i < 0 ==> s == "-" + NatToString(-i)
  {
    if i >= 0 then NatToString(i) else "-" + NatToString(-i)
  }

  predicate StartsWith(s: string, prefix: string) {
    |prefix| <= |s| && s[..|prefix|] == prefix
  }

  /** `s.replace(a, b)` for single characters: every `a` becomes `b`, all else stays. */
  function ReplaceChar(s: string, a: char, b: char): (r: string)
    ensures |r| == |s|
    ensures forall i :: 0 <= i < |s| ==> r[i] == (if s[i] == a then b else s[i])
  {
    if |s| == 0 then "" else [if s[0] == a then b else s[0]] + ReplaceChar(s[1..], a, b)
  }

  /** Number of occurrences of `c` in `s`. */
  function Count(s: string, c: char): nat {
    if |s| == 0 then 0 else (if s[0] == c then 1 else 0) + Count(s[1..], c)
  }

  /** `s.split(sep)` with an explicit one-character separator: every occurrence
      separates two fields, so adjacent separators give empty fields. */
  function Split(s: string, sep: char): (r: seq<string>)
    ensures |r| == Count(s, sep) + 1
    ensures forall k :: 0 <= k < |r| ==> sep !in r[k]
  {
    if |s| == 0 then [""]
    else if s[0] == sep then [""] + Split(s[1..], sep)
    else
      var rest := Split(s[1..], sep);
      [[s[0]] + rest[0]] + rest[1..]
  }

  /** `sep.join(parts)`. */
  function Join(sep: string, parts: seq<string>): string {
    if |parts| == 0 then ""
    else if |parts| == 1 then parts[0]
    else parts[0] + sep + Join(sep, parts[1..])
  }

  /** Splitting then joining on the same separator gives the string back. */
  lemma {:induction false} JoinSplit(s: string, sep: char)
    ensures Join([sep], Split(s, sep)) == s
  {
    if |s| == 0 {
    } else if s[0] == sep {
      JoinSplit(s[1..], sep);
      var rest := Split(s[1..], sep);
      assert Split(s, sep) == [""] + rest;
      assert ([""] + rest)[1..] == rest;
    } else {
      JoinSplit(s[1..], sep);
      var rest := Split(s[1..], sep);
      var r := [[s[0]] + rest[0]] + rest[1..];
      assert Split(s, sep) == r;
      if |rest| == 1 {
        assert r == [[s[0]] + rest[0]];
      } else {
        assert r[1..] == rest[1..];
        assert Join([sep], rest) == rest[0] + [sep] + Join([sep], rest[1..]);
      }
    }
  }

  /** Joining fields that contain no separator and splitting again gives the fields back. */
  lemma {:induction false} SplitJoin(parts: seq<string>, sep: char)
    requires |parts| > 0
    requires forall k :: 0 <= k < |parts| ==> sep !in parts[k]
    ensures Split(Join([sep], parts), sep) == parts
  {
    if |parts| == 1 {
      SplitNoSeparator(parts[0], sep);
    } else {
      SplitJoin(parts[1..], sep);
      SplitAfterField(parts[0], Join([sep], parts[1..]), sep);
      assert [parts[0]] + parts[1..] == parts;
    }
  }

  lemma {:induction false} SplitNoSeparator(s: string, sep: char)
    requires sep !in s
    ensures Split(s, sep) == [s]
  {
    if |s| > 0 {
      assert sep !in s[1..] by {
        forall i | 0 <= i < |s[1..]| ensures s[1..][i] != sep {
          assert s[1..][i] == s[i + 1];
        }
      }
      SplitNoSeparator(s[1..], sep);
      assert [s[0]] + s[1..] == s;
    }
  }

  /** A field free of the separator, then the separator, then the rest, splits
      into that field followed by the fields of the rest. */
  lemma {:induction false} SplitAfterField(field: string, rest: string, sep: char)
    requires sep !in field
    ensures Split(field + [sep] + rest, sep) == [field] + Split(rest, sep)
  {
    var s := field + [sep] + rest;
    if |field| == 0 {
      assert s == [sep] + rest;
      assert s[1..] == rest;
    } else {
      assert s[0] == field[0];
      assert s[1..] == field[1..] + [sep] + rest;
      assert sep !in field[1..] by {
        forall i | 0 <= i < |field[1..]| ensures field[1..][i] != sep {
          assert field[1..][i] == field[i + 1];
        }
      }
      SplitAfterField(field[1..], rest, sep);
      assert [field[0]] + field[1..] == field;
    }
  }

  /** Python's `str.isspace` for the characters `strip()` removes. */
  predicate IsSpace(c: char) {
    || c == ' ' || '\t' <= c <= '\r' || '\U{001C}' <= c <= '\U{001F}'
    || c == '\U{0085}' || c == '\U{00A0}' || c == '\U{1680}' || '\U{2000}' <= c <= '\U{200A}'
    || c == '\U{2028}' || c == '\U{2029}' || c == '\U{202F}' || c == '\U{205F}' || c == '\U{3000}'
  }

  predicate AllSpace(s: string) {
    forall i :: 0 <= i < |s| ==> IsSpace(s[i])
  }

  function StripLeft(s: string): (r: string)
    ensures |r| <= |s| && r == s[|s| - |r|..]
    ensures |r| > 0 ==> !IsSpace(r[0])
    ensures AllSpace(s[..|s| - |r|])
  {
    if |s| == 0 then s
    else if IsSpace(s[0]) then
      var r := StripLeft(s[1..]);
      var k := |s| - |r|;
      assert s[1..][|s[1..]| - |r|..] == s[k..];
      forall i | 0 <= i < k
        ensures IsSpace(s[..k][i])
      {
        if i > 0 {
          assert s[..k][i] == s[1..][..k - 1][i - 1];
        }
      }
      r
    else s
  }

  function StripRight(s: string): (r: string)
    ensures |r| <= |s| && r == s[..|r|]
    ensures |r| > 0 ==> !IsSpace(r[|r| - 1])
    ensures AllSpace(s[|r|..])
  {
    if |s| == 0 then s
    else if IsSpace(s[|s| - 1]) then
      var r := StripRight(s[..|s| - 1]);
      assert s[..|s| - 1][|r|..] == s[|r|..|s| - 1];
      r
    else s
  }

  /** `s.strip()`: the longest infix with no surrounding whitespace. */
  function Strip(s: string): (r: string)
    ensures |r| > 0 ==> !IsSpace(r[0]) && !IsSpace(r[|r| - 1])
  {
    StripRight(StripLeft(s))
  }

  function UpperChar(c: char): char {
    if 'a' <= c <= 'z' then (c as int - 32) as char else c
  }

  /** `s.upper()` on the ASCII letters. */
  function Upper(s: string): (r: string)
    ensures |r| == |s|
    ensures forall i :: 0 <= i < |s| ==> r[i] == UpperChar(s[i])
  {
    seq(|s|, i requires 0 <= i < |s| => UpperChar(s[i]))
  }
}

=== FILE: summary.dfy ===
/** The summary of one attempt, derived from the executor and stage aggregations and
    from the merged stage intervals. Ratios are exact quotients here; the source
    computes them in floating point. */
module Summary {
  import opened Wrappers
  import opened Strings
  import opened Commons
  import opened Records
  import opened Columns
  import opened Metrics
  import opened Parallelism

  /** The summary document; a ratio whose denominator is zero, or a memory setting the
      properties do not hold, is `None` (the key is absent). A memory setting that is
      present but does not parse is `Some(None)`. */
  datatype AttemptSummary = AttemptSummary(
    parallelWork: real,
    parallelPart: int,
    seqPart: int,
    estSeqTime: real,
    coreCost: real,
    stagesInParallel: bool,
    stagesSum: real,
    stagesInterval: int,
    stagesMaxInputBlocks: int,
    executorsTotalInputBlocks: int,
    unusedStorageMemory: real,
    estimatedSpeedup: Option<real>,
    parallelFraction: Option<real>,
    seqFraction: Option<real>,
    averageThroughput: Option<real>,
    estimatedCoreEfficiency: Option<real>,
    unusedCoreCost: Option<real>,
    executorMemoryBytes: Option<Option<int>>,
    driverMemoryBytes: Option<Option<int>>,
    storageMemoryUsage: Option<real>)

  const ExecutorMemoryProperty: string := "spark_executor_memory"
  const DriverMemoryProperty: string := "spark_driver_memory"

  /** `aggs[field][stat]` of an aggregation: a KeyError names the missing key. */
  function Lookup<K>(agg: Aggregation<K>, field: K, fieldKey: string, stat: StatName): (r: Result<Stat, PyError>)
    ensures r.Success? <==> field in agg.columns && stat in agg.columns[field]
    ensures r.Success? ==> r.value == agg.columns[field][stat]
    ensures field !in agg.columns ==> r == Failure(KeyError(fieldKey))
  {
    if field !in agg.columns then Failure(KeyError(fieldKey))
    else if stat !in agg.columns[field] then Failure(KeyError(stat.Key()))
    else Success(agg.columns[field][stat])
  }

  /** A statistic used in arithmetic: numbers and counts are numbers. */
  function Number(s: Stat): (r: Result<real, PyError>)
    ensures s.Num? ==> r == Success(s.x)
    ensures s.Count? ==> r == Success(s.n as real)
    ensures !s.Num? && !s.Count? ==> r.Failure?
  {
    match s
    case Num(x) => Success(x)
    case Count(n) => Success(n as real)
    case _ => Failure(TypeError)
  }

  function Instant(s: Stat): (r: Result<int, PyError>)
    ensures s.Time? <==> r.Success?
    ensures s.Time? ==> r.value == s.t
  {
    match s
    case Time(t) => Success(t)
    case _ => Failure(TypeError)
  }

  function StageNumber(agg: Aggregation<StageField>, field: StageField, stat: StatName): (r: Result<real, PyError>)
    ensures r.Success? ==> NumberAt(agg, field, stat) == Some(r.value)
  {
    var s :- Lookup(agg, field, field.Key(), stat);
    Number(s)
  }

  // The executor-side twin of StageNumber: each field type has its own `Key`, so the
  // two lookups are written once per field type.
  function ExecutorNumber(agg: Aggregation<ExecutorField>, field: ExecutorField, stat: StatName): (r: Result<real, PyError>)
    ensures r.Success? ==> NumberAt(agg, field, stat) == Some(r.value)
  {
    var s :- Lookup(agg, field, field.Key(), stat);
    Number(s)
  }

  /** The number an aggregation holds for `field` and `stat`, when it holds one. */
  function NumberAt<K>(agg: Aggregation<K>, field: K, stat: StatName): Option<real> {
    if field in agg.columns && stat in agg.columns[field] then
      match agg.columns[field][stat]
      case Num(x) => Some(x)
      case Count(n) => Some(n as real)
      case _ => None
    else None
  }

  /** `parse_to_bytes` of a memory property, when present. The value must be a string
      (an all-digit setting was already turned into an integer, which has no `strip`). */
  function MemoryBytes(props: map<string, Value>, key: string): (r: Result<Option<Option<int>>, PyError>)
    ensures key !in props ==> r == Success(None)
    ensures key in props && props[key].Str? ==> r == Success(Some(ParseToBytes(props[key].s)))
    ensures key in props && !props[key].Str? ==> r == Failure(AttributeError)
  {
    if key !in props then Success(None)
    else match props[key]
      case Str(s) => Success(Some(ParseToBytes(s)))
      case _ => Failure(AttributeError)
  }

  /** The condition under which the summary is computed at all. */
  predicate Summarisable(ex: Aggregation<ExecutorField>, st: Aggregation<StageField>) {
    && ex.elementsCount > 0
    && st.elementsCount > 0
    && FirstTaskLaunchedTime in st.columns
    && CompletionTime in st.columns
  }

  /** The guarded ratios of a summary: each is present exactly when its denominator is
      not zero, and then is the quotient it names. */
  predicate RatiosGuarded(s: AttemptSummary, duration: int) {
    && (s.estimatedSpeedup.Some? <==> duration != 0)
    && (s.parallelFraction.Some? <==> duration != 0)
    && (s.seqFraction.Some? <==> duration != 0)
    && (s.averageThroughput.Some? <==> duration != 0)
    && (duration != 0 ==>
          && s.estimatedSpeedup.value * duration as real == s.estSeqTime
          && s.parallelFraction.value * duration as real == s.parallelPart as real
          && s.seqFraction.value * duration as real == s.seqPart as real
          && s.averageThroughput.value * duration as real == s.stagesMaxInputBlocks as real)
    && (s.estimatedCoreEfficiency.Some? <==> s.coreCost != 0.0)
    && (s.unusedCoreCost.Some? <==> s.coreCost != 0.0)
    && (s.coreCost != 0.0 ==>
          && s.estimatedCoreEfficiency.value * s.coreCost == s.parallelWork
          && s.unusedCoreCost.value + s.parallelWork == s.coreCost)
  }

  /** The summary built from the looked-up totals. */
  function Derive(parallelWork: real, p: Parallelism, duration: int, coreCost: real, stagesSum: real,
                  firstStart: int, lastFinish: int, maxInput: real, totalInput: real, memory: real,
                  executorMemory: Option<Option<int>>, driverMemory: Option<Option<int>>)
    : (s: AttemptSummary)
    ensures RatiosGuarded(s, duration)
    ensures s.parallelPart == p.total && s.stagesInParallel == p.overlap
    ensures s.seqPart + s.parallelPart == duration
    ensures s.estSeqTime == s.seqPart as real + s.parallelWork
    ensures s.parallelWork == parallelWork && s.coreCost == coreCost && s.stagesSum == stagesSum
    ensures s.stagesInterval == lastFinish - firstStart
    ensures s.stagesMaxInputBlocks == BytesToHdfsBlock(maxInput)
    ensures s.unusedStorageMemory + maxInput == memory
    ensures s.executorMemoryBytes == executorMemory && s.driverMemoryBytes == driverMemory
    ensures s.storageMemoryUsage.Some? <==> memory != 0.0
    ensures s.storageMemoryUsage.Some? ==> s.storageMemoryUsage.value * memory == maxInput
  {
    var seqPart := duration - p.total;
    var estSeqTime := seqPart as real + parallelWork;
    var maxInputBlocks := BytesToHdfsBlock(maxInput);
    var byDuration := duration != 0;
    var byCores := coreCost != 0.0;
    AttemptSummary(
      parallelWork, p.total, seqPart, estSeqTime, coreCost, p.overlap, stagesSum,
      lastFinish - firstStart, maxInputBlocks, BytesToHdfsBlock(totalInput), memory - maxInput,
      if byDuration then Some(estSeqTime / duration as real) else None,
      if byDuration then Some(p.total as real / duration as real) else None,
      if byDuration then Some(seqPart as real / duration as real) else None,
      if byDuration then Some(maxInputBlocks as real / duration as real) else None,
      if byCores then Some(parallelWork / coreCost) else None,
      if byCores then Some(coreCost - parallelWork) else None,
      executorMemory, driverMemory,
      if memory != 0.0 then Some(maxInput / memory) else None)
  }

  /** `calculate_summary`: nothing unless there are workers, stages and complete stage
      timings; otherwise the derived metrics, with each ratio present only when its
      denominator is not zero. */
  function CalculateSummary(attempt: Attempt, ex: Aggregation<ExecutorField>, st: Aggregation<StageField>)
    : (r: Result<Option<AttemptSummary>, PyError>)
    ensures !Summarisable(ex, st) ==> r == Success(None)
    ensures Summarisable(ex, st) && r.Success? ==> r.value.Some?
    ensures r.Success? && r.value.Some? ==>
              var s := r.value.value;
              var p := CalculateParallelism(attempt.stages);
              && Summarisable(ex, st)
              && s.parallelPart == p.total && s.stagesInParallel == p.overlap
              && s.seqPart + s.parallelPart == attempt.duration
              && s.estSeqTime == s.seqPart as real + s.parallelWork
              && RatiosGuarded(s, attempt.duration)
              && Some(s.parallelWork) == NumberAt(ex, TotalDuration, Sum)
              && Some(s.coreCost) == NumberAt(ex, CoreCost, Sum)
              && Some(s.stagesSum) == NumberAt(st, StageDuration, Sum)
              && (s.executorMemoryBytes.Some? <==> ExecutorMemoryProperty in attempt.sparkProperties)
              && (s.driverMemoryBytes.Some? <==> DriverMemoryProperty in attempt.sparkProperties)
              && (s.storageMemoryUsage.Some? <==> NumberAt(ex, MaxMemory, Sum) != Some(0.0))
  {
    if !Summarisable(ex, st) then Success(None)
    else
      var parallelWork :- ExecutorNumber(ex, TotalDuration, Sum);
      var stagesSum :- StageNumber(st, StageDuration, Sum);
      var firstStat :- Lookup(st, FirstTaskLaunchedTime, FirstTaskLaunchedTime.Key(), Min);
      var firstStart :- Instant(firstStat);
      var lastStat :- Lookup(st, CompletionTime, CompletionTime.Key(), Max);
      var lastFinish :- Instant(lastStat);
      var coreCost :- ExecutorNumber(ex, CoreCost, Sum);
      var maxInput :- StageNumber(st, InputBytes, Max);
      var totalInput :- ExecutorNumber(ex, TotalInputBytes, Sum);
      var memory :- ExecutorNumber(ex, MaxMemory, Sum);
      var executorMemory :- MemoryBytes(attempt.sparkProperties, ExecutorMemoryProperty);
      var driverMemory :- MemoryBytes(attempt.sparkProperties, DriverMemoryProperty);
      Success(Some(Derive(parallelWork, CalculateParallelism(attempt.stages), attempt.duration, coreCost,
                          stagesSum, firstStart, lastFinish, maxInput, totalInput, memory,
                          executorMemory, driverMemory)))
  }
}

=== FILE: summary_links.dfy ===
/** What the summary of a flattened attempt says about the attempt's own records: the
    looked-up aggregates are sums over the workers and the complete stages, the summary
    exists exactly when there is something to summarise, and it fails only on a memory
    setting that is not a string. */
module SummaryLinks {
  import opened Wrappers
  import opened Commons
  import opened Records
  import opened Columns
  import opened Metrics
  import opened Parallelism
  import opened Summary
  import opened Flattener

  // ---------------------------------------------------------------------------
  // Reference sums over the records

  function Total(xs: seq<int>): int {
    if |xs| == 0 then 0 else xs[0] + Total(xs[1..])
  }

  /** The executors' own `totalDuration`, summed over everything but the driver. */
  function WorkTime(executors: seq<Executor>): int {
    if |executors| == 0 then 0
    else (if IsDriver(executors[0]) then 0 else executors[0].totalDuration) + WorkTime(executors[1..])
  }

  /** Some executor is not the driver. */
  predicate HasWorkers(executors: seq<Executor>) {
    exists i :: 0 <= i < |executors| && !IsDriver(executors[i])
  }

  // ---------------------------------------------------------------------------
  // Columns without missing cells

  /** A column in which every row is present. */
  function AllPresent<T>(ys: seq<T>): (c: seq<Option<T>>)
    ensures |c| == |ys| && forall i :: 0 <= i < |ys| ==> c[i] == Some(ys[i])
  {
    seq(|ys|, i requires 0 <= i < |ys| => Some(ys[i]))
  }

  lemma {:induction false} PresentOfSome<T(!new)>(ys: seq<T>)
    ensures Present(AllPresent(ys)) == ys
  {
    if |ys| > 0 {
      assert AllPresent(ys)[1..] == AllPresent(ys[1..]);
      PresentOfSome(ys[1..]);
      assert ys == [ys[0]] + ys[1..];
    }
  }

  function Reals(xs: seq<int>): (ys: seq<real>)
    ensures |ys| == |xs| && forall i :: 0 <= i < |xs| ==> ys[i] == xs[i] as real
  {
    seq(|xs|, i requires 0 <= i < |xs| => xs[i] as real)
  }

  lemma {:induction false} SumOfInts(xs: seq<int>)
    ensures SumReals(Reals(xs)) == Total(xs) as real
  {
    if |xs| > 0 {
      assert Reals(xs)[1..] == Reals(xs[1..]);
      SumOfInts(xs[1..]);
    }
  }

  lemma NumericSum(xs: seq<Option<real>>)
    ensures Statistic(Numeric(xs), Sum) == Some(Num(SumReals(Present(xs))))
  {
  }

  /** The sum of an integer column is the plain sum of its rows. */
  lemma NumbersSum(xs: seq<int>)
    ensures Statistic(Numbers(xs), Sum) == Some(Num(Total(xs) as real))
  {
    assert Numbers(xs).nums == AllPresent(Reals(xs));
    NumericSum(Numbers(xs).nums);
    PresentOfSome(Reals(xs));
    SumOfInts(xs);
  }

  /** The sum of a real column without missing cells is the plain sum of its rows. */
  lemma RealsSum(ys: seq<real>)
    ensures Statistic(Numeric(AllPresent(ys)), Sum) == Some(Num(SumReals(ys)))
  {
    NumericSum(AllPresent(ys));
    PresentOfSome(ys);
  }

  /** A column whose first row is present has a maximum. */
  lemma NumbersMax(xs: seq<int>)
    requires |xs| > 0
    ensures Statistic(Numbers(xs), Max).Some? && Statistic(Numbers(xs), Max).value.Num?
  {
    assert Numbers(xs).nums[0] == Some(xs[0] as real);
    assert xs[0] as real in Present(Numbers(xs).nums);
  }

  /** A timestamp column in which some row is set has an earliest and a latest time. */
  lemma TimesExtremes(ts: seq<Option<int>>)
    requires AnyTime(ts)
    ensures Statistic(Timestamp(ts), Min).Some? && Statistic(Timestamp(ts), Min).value.Time?
    ensures Statistic(Timestamp(ts), Max).Some? && Statistic(Timestamp(ts), Max).value.Time?
  {
    var i :| 0 <= i < |ts| && ts[i].Some?;
    assert ts[i].value in Present(ts);
  }

  // ---------------------------------------------------------------------------
  // Looking up an aggregated statistic

  lemma NumberFromFrame<K>(f: Frame<K>, field: K, stat: StatName)
    requires f.rows > 0 && field in f.columns
    requires stat in Registered(f.columns[field])
    requires Statistic(f.columns[field], stat).Some? && Statistic(f.columns[field], stat).value.Num?
    ensures NumberAt(AggregateByColType(f), field, stat) == Some(Statistic(f.columns[field], stat).value.x)
  {
  }

  lemma ExecutorNumberFromFrame(f: Frame<ExecutorField>, field: ExecutorField, stat: StatName)
    requires f.rows > 0 && field in f.columns
    requires stat in Registered(f.columns[field])
    requires Statistic(f.columns[field], stat).Some? && Statistic(f.columns[field], stat).value.Num?
    ensures ExecutorNumber(AggregateByColType(f), field, stat) == Success(Statistic(f.columns[field], stat).value.x)
  {
  }

  lemma StageNumberFromFrame(f: Frame<StageField>, field: StageField, stat: StatName)
    requires f.rows > 0 && field in f.columns
    requires stat in Registered(f.columns[field])
    requires Statistic(f.columns[field], stat).Some? && Statistic(f.columns[field], stat).value.Num?
    ensures StageNumber(AggregateByColType(f), field, stat) == Success(Statistic(f.columns[field], stat).value.x)
  {
  }

  lemma StageTimeFromFrame(f: Frame<StageField>, field: StageField, stat: StatName)
    requires f.rows > 0 && field in f.columns
    requires stat in Registered(f.columns[field])
    requires Statistic(f.columns[field], stat).Some? && Statistic(f.columns[field], stat).value.Time?
    ensures Lookup(AggregateByColType(f), field, field.Key(), stat) == Success(Statistic(f.columns[field], stat).value)
  {
  }

  // ---------------------------------------------------------------------------
  // Worker time

  function Durations(w: seq<(Executor, ExecutorMetrics)>): seq<int> {
    seq(|w|, i requires 0 <= i < |w| => w[i].0.totalDuration)
  }

  lemma {:induction false} WorkersTime(executors: seq<Executor>, ms: seq<ExecutorMetrics>)
    requires |ms| == |executors|
    ensures Total(Durations(Workers(executors, ms))) == WorkTime(executors)
  {
    if |executors| > 0 {
      var rest := Workers(executors[1..], ms[1..]);
      WorkersTime(executors[1..], ms[1..]);
      if !IsDriver(executors[0]) {
        var p := (executors[0], ms[0]);
        assert Durations([p] + rest)[1..] == Durations(rest);
      }
    }
  }

  /** The workers are exactly the executors that are not the driver. */
  lemma WorkersExist(executors: seq<Executor>, ms: seq<ExecutorMetrics>)
    requires |ms| == |executors|
    ensures |Workers(executors, ms)| > 0 <==> HasWorkers(executors)
  {
    var w := Workers(executors, ms);
    if HasWorkers(executors) {
      var i :| 0 <= i < |executors| && !IsDriver(executors[i]);
      assert (executors[i], ms[i]) in w;
    }
    if |w| > 0 {
      assert w[0] in w;
    }
  }

  /** The executor metrics of an attempt whose executors were flattened. */
  function ExecutorMetricsOf(attempt: Attempt): (ms: seq<ExecutorMetrics>)
    requires FlattenExecutors(attempt.startTime, attempt.endTime, attempt.executors).Success?
    ensures |ms| == |attempt.executors| > 0
    ensures FlattenExecutors(attempt.startTime, attempt.endTime, attempt.executors).value.executors
            == AggregateByColType(ExecutorFrame(attempt.executors, ms))
  {
    AllExecutorMetrics(attempt.startTime, attempt.endTime, attempt.executors).value
  }

  /** The numeric columns of the executor frame the summary reads. */
  lemma ExecutorFrameColumns(executors: seq<Executor>, ms: seq<ExecutorMetrics>)
    requires |executors| > 0 && |ms| == |executors|
    ensures var f := ExecutorFrame(executors, ms);
            && f.columns[TotalDuration] == Numbers(Durations(Workers(executors, ms)))
            && f.columns[CoreCost].Numeric?
            && f.columns[TotalInputBytes].Numeric?
            && f.columns[MaxMemory].Numeric?
  {
  }

  /** The aggregated `totalDuration` sum is the workers' own total. */
  lemma ExecutorDurationSum(attempt: Attempt)
    requires FlattenExecutors(attempt.startTime, attempt.endTime, attempt.executors).Success?
    requires FlattenExecutors(attempt.startTime, attempt.endTime, attempt.executors).value.executors.elementsCount > 0
    ensures NumberAt(FlattenExecutors(attempt.startTime, attempt.endTime, attempt.executors).value.executors,
                     TotalDuration, Sum) == Some(WorkTime(attempt.executors) as real)
  {
    var ms := ExecutorMetricsOf(attempt);
    var f := ExecutorFrame(attempt.executors, ms);
    var w := Workers(attempt.executors, ms);
    ExecutorFrameColumns(attempt.executors, ms);
    NumbersSum(Durations(w));
    NumberFromFrame(f, TotalDuration, Sum);
    WorkersTime(attempt.executors, ms);
  }

  /** Every executor aggregate the summary reads is there once there is a worker. */
  lemma ExecutorLookupsSucceed(attempt: Attempt)
    requires FlattenExecutors(attempt.startTime, attempt.endTime, attempt.executors).Success?
    requires FlattenExecutors(attempt.startTime, attempt.endTime, attempt.executors).value.executors.elementsCount > 0
    ensures var ex := FlattenExecutors(attempt.startTime, attempt.endTime, attempt.executors).value.executors;
            && ExecutorNumber(ex, TotalDuration, Sum).Success?
            && ExecutorNumber(ex, CoreCost, Sum).Success?
            && ExecutorNumber(ex, TotalInputBytes, Sum).Success?
            && ExecutorNumber(ex, MaxMemory, Sum).Success?
  {
    var ms := ExecutorMetricsOf(attempt);
    var f := ExecutorFrame(attempt.executors, ms);
    ExecutorFrameColumns(attempt.executors, ms);
    ExecutorSumOfNumeric(f, TotalDuration);
    ExecutorSumOfNumeric(f, CoreCost);
    ExecutorSumOfNumeric(f, TotalInputBytes);
    ExecutorSumOfNumeric(f, MaxMemory);
  }

  lemma ExecutorSumOfNumeric(f: Frame<ExecutorField>, field: ExecutorField)
    requires f.rows > 0 && field in f.columns && f.columns[field].Numeric?
    ensures ExecutorNumber(AggregateByColType(f), field, Sum).Success?
  {
    ExecutorNumberFromFrame(f, field, Sum);
  }

  // ---------------------------------------------------------------------------
  // Stage time

  /** The `x_duration` column of a stage frame. */
  function StageDurations(ms: seq<StageMetrics>): seq<real> {
    seq(|ms|, i requires 0 <= i < |ms| => ms[i].duration)
  }

  function InputBytesOf(stages: seq<Stage>): seq<int> {
    seq(|stages|, i requires 0 <= i < |stages| => stages[i].inputBytes)
  }

  lemma {:induction false} StageDurationsSum(props: map<string, Value>, stages: seq<Stage>, ms: seq<StageMetrics>)
    requires |ms| == |stages|
    requires forall i :: 0 <= i < |stages| ==> AddStageMetrics(props, stages[i]) == Success(ms[i])
    ensures SumReals(StageDurations(ms)) == SumDurations(Intervals(stages)) as real
  {
    if |stages| > 0 {
      assert AddStageMetrics(props, stages[0]) == Success(ms[0]);
      assert forall i :: 0 <= i < |stages[1..]| ==> AddStageMetrics(props, stages[1..][i]) == Success(ms[1..][i]) by {
        forall i | 0 <= i < |stages[1..]| ensures AddStageMetrics(props, stages[1..][i]) == Success(ms[1..][i]) {
          assert stages[1..][i] == stages[i + 1] && ms[1..][i] == ms[i + 1];
        }
      }
      StageDurationsSum(props, stages[1..], ms[1..]);
      assert StageDurations(ms)[1..] == StageDurations(ms[1..]);
      var rest := Intervals(stages[1..]);
      if stages[0].IsComplete() {
        assert ([IntervalOf(stages[0])] + rest)[1..] == rest;
      }
    }
  }

  /** The stage metrics of an attempt whose stages were flattened. */
  function StageMetricsOf(attempt: Attempt): (ms: seq<StageMetrics>)
    requires FlattenStages(attempt.sparkProperties, attempt.stages).Success?
    ensures |ms| == |attempt.stages|
    ensures forall i :: 0 <= i < |attempt.stages| ==>
              AddStageMetrics(attempt.sparkProperties, attempt.stages[i]) == Success(ms[i])
    ensures FlattenStages(attempt.sparkProperties, attempt.stages).value
            == AggregateByColType(StageFrame(attempt.stages, ms))
  {
    AllStageMetrics(attempt.sparkProperties, attempt.stages).value
  }

  /** The columns of the stage frame the summary reads. */
  lemma StageFrameColumns(stages: seq<Stage>, ms: seq<StageMetrics>)
    requires |stages| > 0 && |ms| == |stages|
    ensures var f := StageFrame(stages, ms);
            && f.columns[StageDuration] == Numeric(AllPresent(StageDurations(ms)))
            && f.columns[InputBytes] == Numbers(InputBytesOf(stages))
            && (FirstTaskLaunchedTime in f.columns ==> f.columns[FirstTaskLaunchedTime] == Timestamp(Launched(stages)))
            && (CompletionTime in f.columns ==> f.columns[CompletionTime] == Timestamp(Completed(stages)))
  {
    var f := StageFrame(stages, ms);
    var n := |stages|;
    assert f.columns[StageDuration] == Numeric(seq(n, i requires 0 <= i < n => Some(ms[i].duration)));
  }

  /** The aggregated `x_duration` sum is the sum of the complete stages' running times. */
  lemma StageDurationTotal(attempt: Attempt)
    requires FlattenStages(attempt.sparkProperties, attempt.stages).Success?
    requires |attempt.stages| > 0
    ensures NumberAt(FlattenStages(attempt.sparkProperties, attempt.stages).value, StageDuration, Sum)
            == Some(SumDurations(Intervals(attempt.stages)) as real)
  {
    var ms := StageMetricsOf(attempt);
    var f := StageFrame(attempt.stages, ms);
    StageFrameColumns(attempt.stages, ms);
    RealsSum(StageDurations(ms));
    NumberFromFrame(f, StageDuration, Sum);
    StageDurationsSum(attempt.sparkProperties, attempt.stages, ms);
  }

  /** Every stage aggregate the summary reads is there once the summary is due. */
  lemma StageLookupsSucceed(attempt: Attempt)
    requires FlattenStages(attempt.sparkProperties, attempt.stages).Success?
    requires |attempt.stages| > 0 && AnyTime(Launched(attempt.stages)) && AnyTime(Completed(attempt.stages))
    ensures var st := FlattenStages(attempt.sparkProperties, attempt.stages).value;
            && StageNumber(st, StageDuration, Sum).Success?
            && Lookup(st, FirstTaskLaunchedTime, FirstTaskLaunchedTime.Key(), Min).Success?
            && Lookup(st, FirstTaskLaunchedTime, FirstTaskLaunchedTime.Key(), Min).value.Time?
            && Lookup(st, CompletionTime, CompletionTime.Key(), Max).Success?
            && Lookup(st, CompletionTime, CompletionTime.Key(), Max).value.Time?
            && StageNumber(st, InputBytes, Max).Success?
  {
    var ms := StageMetricsOf(attempt);
    StageDurationLookup(attempt.stages, ms);
    StageTimeLookups(attempt.stages, ms);
    StageInputLookup(attempt.stages, ms);
  }

  lemma StageDurationLookup(stages: seq<Stage>, ms: seq<StageMetrics>)
    requires |stages| > 0 && |ms| == |stages|
    ensures StageNumber(AggregateByColType(StageFrame(stages, ms)), StageDuration, Sum).Success?
  {
    var f := StageFrame(stages, ms);
    StageFrameColumns(stages, ms);
    RealsSum(StageDurations(ms));
    StageNumberFromFrame(f, StageDuration, Sum);
  }

  lemma StageTimeLookups(stages: seq<Stage>, ms: seq<StageMetrics>)
    requires |stages| > 0 && |ms| == |stages| && AnyTime(Launched(stages)) && AnyTime(Completed(stages))
    ensures var st := AggregateByColType(StageFrame(stages, ms));
            && Lookup(st, FirstTaskLaunchedTime, FirstTaskLaunchedTime.Key(), Min).Success?
            && Lookup(st, FirstTaskLaunchedTime, FirstTaskLaunchedTime.Key(), Min).value.Time?
            && Lookup(st, CompletionTime, CompletionTime.Key(), Max).Success?
            && Lookup(st, CompletionTime, CompletionTime.Key(), Max).value.Time?
  {
    var f := StageFrame(stages, ms);
    StageFrameColumns(stages, ms);
    TimesExtremes(Launched(stages));
    StageTimeFromFrame(f, FirstTaskLaunchedTime, Min);
    TimesExtremes(Completed(stages));
    StageTimeFromFrame(f, CompletionTime, Max);
  }

  lemma StageInputLookup(stages: seq<Stage>, ms: seq<StageMetrics>)
    requires |stages| > 0 && |ms| == |stages|
    ensures StageNumber(AggregateByColType(StageFrame(stages, ms)), InputBytes, Max).Success?
  {
    var f := StageFrame(stages, ms);
    StageFrameColumns(stages, ms);
    NumbersMax(InputBytesOf(stages));
    StageNumberFromFrame(f, InputBytes, Max);
  }

  // ---------------------------------------------------------------------------
  // The summary against the records

  /** `parallel_work` is the time the workers report, and `stages_sum` the summed
      running time of the complete stages. */
  lemma SummaryTotals(attempt: Attempt)
    requires GetAttemptAggregations(attempt).Success?
    requires GetAttemptAggregations(attempt).value.summary.Some?
    ensures var s := GetAttemptAggregations(attempt).value.summary.value;
            && s.parallelWork == WorkTime(attempt.executors) as real
            && s.stagesSum == SumDurations(Intervals(attempt.stages)) as real
  {
    ExecutorDurationSum(attempt);
    StageDurationTotal(attempt);
  }

  /** Merging never yields more than the summed stage times, and yields exactly that
      when no two stages overlap. */
  lemma ParallelPartAgainstStagesSum(attempt: Attempt)
    requires GetAttemptAggregations(attempt).Success?
    requires GetAttemptAggregations(attempt).value.summary.Some?
    requires WellTimed(attempt.stages)
    ensures var s := GetAttemptAggregations(attempt).value.summary.value;
            && s.parallelPart as real <= s.stagesSum
            && (!s.stagesInParallel ==> s.parallelPart as real == s.stagesSum)
  {
    SummaryTotals(attempt);
    ParallelPartAtMostStageSum(attempt.stages);
    if !CalculateParallelism(attempt.stages).overlap {
      NoOverlapMeansSum(attempt.stages);
    }
  }

  /** The stage timestamp columns exist exactly when some stage carries the field. */
  lemma StageTimeColumns(attempt: Attempt)
    requires FlattenStages(attempt.sparkProperties, attempt.stages).Success?
    ensures var st := FlattenStages(attempt.sparkProperties, attempt.stages).value;
            && st.elementsCount == |attempt.stages|
            && (FirstTaskLaunchedTime in st.columns <==> |attempt.stages| > 0 && AnyTime(Launched(attempt.stages)))
            && (CompletionTime in st.columns <==> |attempt.stages| > 0 && AnyTime(Completed(attempt.stages)))
  {
    var ms := StageMetricsOf(attempt);
    if |attempt.stages| > 0 {
      StageFrameTimes(attempt.stages, ms);
    }
  }

  lemma StageFrameTimes(stages: seq<Stage>, ms: seq<StageMetrics>)
    requires |stages| > 0 && |ms| == |stages|
    ensures var f := StageFrame(stages, ms);
            && (FirstTaskLaunchedTime in f.columns <==> AnyTime(Launched(stages)))
            && (CompletionTime in f.columns <==> AnyTime(Completed(stages)))
  {
    var f := StageFrame(stages, ms);
    assert FirstTaskLaunchedTime in f.columns <==> AnyTime(Launched(stages));
    assert CompletionTime in f.columns <==> AnyTime(Completed(stages));
  }

  /** The aggregations admit a summary exactly when there is a worker, a stage, a stage
      whose first task launched and a stage that completed. */
  lemma SummarisableIff(attempt: Attempt)
    requires FlattenExecutors(attempt.startTime, attempt.endTime, attempt.executors).Success?
    requires FlattenStages(attempt.sparkProperties, attempt.stages).Success?
    ensures Summarisable(FlattenExecutors(attempt.startTime, attempt.endTime, attempt.executors).value.executors,
                         FlattenStages(attempt.sparkProperties, attempt.stages).value)
            <==> && HasWorkers(attempt.executors)
                 && |attempt.stages| > 0
                 && AnyTime(Launched(attempt.stages))
                 && AnyTime(Completed(attempt.stages))
  {
    var ms := ExecutorMetricsOf(attempt);
    WorkersExist(attempt.executors, ms);
    StageTimeColumns(attempt);
  }

  /** A memory setting is present but is not a string. */
  predicate MemorySettingMalformed(props: map<string, Value>) {
    || (ExecutorMemoryProperty in props && !props[ExecutorMemoryProperty].Str?)
    || (DriverMemoryProperty in props && !props[DriverMemoryProperty].Str?)
  }

  /** Once the executors and stages are flattened, the summary fails exactly when it
      is due and a memory setting is not a string, and then with AttributeError. */
  lemma SummaryFailsOnlyOnMemory(attempt: Attempt)
    requires FlattenExecutors(attempt.startTime, attempt.endTime, attempt.executors).Success?
    requires FlattenStages(attempt.sparkProperties, attempt.stages).Success?
    ensures var ex := FlattenExecutors(attempt.startTime, attempt.endTime, attempt.executors).value.executors;
            var st := FlattenStages(attempt.sparkProperties, attempt.stages).value;
            var r := CalculateSummary(attempt, ex, st);
            && (r.Failure? <==> Summarisable(ex, st) && MemorySettingMalformed(attempt.sparkProperties))
            && (r.Failure? ==> r.error == AttributeError)
  {
    var ex := FlattenExecutors(attempt.startTime, attempt.endTime, attempt.executors).value.executors;
    var st := FlattenStages(attempt.sparkProperties, attempt.stages).value;
    if Summarisable(ex, st) {
      SummarisableIff(attempt);
      ExecutorLookupsSucceed(attempt);
      StageLookupsSucceed(attempt);
      FailsOnlyOnMemory(attempt, ex, st);
    }
  }

  /** With every aggregate in place, only the memory settings can make the summary fail. */
  lemma FailsOnlyOnMemory(attempt: Attempt, ex: Aggregation<ExecutorField>, st: Aggregation<StageField>)
    requires Summarisable(ex, st)
    requires && ExecutorNumber(ex, TotalDuration, Sum).Success?
             && ExecutorNumber(ex, CoreCost, Sum).Success?
             && ExecutorNumber(ex, TotalInputBytes, Sum).Success?
             && ExecutorNumber(ex, MaxMemory, Sum).Success?
    requires && StageNumber(st, StageDuration, Sum).Success?
             && Lookup(st, FirstTaskLaunchedTime, FirstTaskLaunchedTime.Key(), Min).Success?
             && Lookup(st, FirstTaskLaunchedTime, FirstTaskLaunchedTime.Key(), Min).value.Time?
             && Lookup(st, CompletionTime, CompletionTime.Key(), Max).Success?
             && Lookup(st, CompletionTime, CompletionTime.Key(), Max).value.Time?
             && StageNumber(st, InputBytes, Max).Success?
    ensures CalculateSummary(attempt, ex, st).Failure? <==> MemorySettingMalformed(attempt.sparkProperties)
    ensures CalculateSummary(attempt, ex, st).Failure? ==> CalculateSummary(attempt, ex, st).error == AttributeError
  {
  }

  /** Whether a flattened attempt carries a summary depends only on its records. */
  lemma SummaryPresentIff(attempt: Attempt)
    requires GetAttemptAggregations(attempt).Success?
    ensures GetAttemptAggregations(attempt).value.summary.Some?
            <==> && HasWorkers(attempt.executors)
                 && |attempt.stages| > 0
                 && AnyTime(Launched(attempt.stages))
                 && AnyTime(Completed(attempt.stages))
  {
    SummarisableIff(attempt);
  }
}

=== FILE: wrappers.dfy ===
/** Failure-compatible result types shared by every module of the model. */
module Wrappers {

  /** A value that may be absent: Python's `None` versus a present value. */
  datatype Option<+T> = None | Some(value: T) {

    /** The value, or `default` when absent (Python's `d.get(key, default)`). */
    function GetOr(default: T): T {
      match this
      case Some(v) => v
      case None => default
    }
  }

  /** The outcome of a computation that may raise: a value or the raised error. */
  datatype Result<+R, +E> = Success(value: R) | Failure(error: E) {

    predicate IsFailure() {
      Failure?
    }

    function PropagateFailure<U>(): Result<U, E>
      requires Failure?
    {
      Failure(error)
    }

    function Extract(): R
      requires Success?
    {
      value
    }
  }
}
